=== FILE: README.md ===
# WMS warehouse core in Dafny

A model of the stock-keeping core of the WMS warehouse-management web
application. The application is an ASP.NET Core MVC site over one relational
database. The model covers:

- **the ledger** (`Warehouse`): the import and export slips of the warehouse
  screen, editing them, deleting them, and the stock formula every controller
  re-implements, which is base quantity + imports − exports (`Stock`);
- **sales orders** (`Orders`): the daily order number, the stock check when an
  order is placed, copying the customer's details onto the order, and the
  delivery export booked the first time an order is marked as delivered;
- **the warehouse's view of orders** (`WarehouseOrders`): the warehouse status
  edit, which never books stock, deleting orders, and the list filter;
- **production orders** (`Production`): numbering, the material list, the
  completion entries booked once, their reversal on deletion, and the list
  totals;
- **purchase orders** (`Purchasing`): numbering, the one import booked on
  receipt, deletion, and the list total;
- **the inventory report** (`Inventory`) and **the dashboard** (`Dashboard`):
  the low-stock count, revenue in total and month by month, the material
  inventory, and the searched ledger grouped by day;
- **the product picker** (`ProductsByType`): parsing a product type as
  `Enum.TryParse` with `ignoreCase` does (a number, including what may
  follow it, or a comma-separated list of member names), and listing
  products ordered by name;
- **the registration form's data-annotation checks** (`Registration`);
- **the entity records** (`Models`): their enumerations with stored codes,
  defaults and validation ranges;
- **the .NET string and date operations** the controllers rely on (`Text`,
  `Calendar`).

The database is the class `Repository.DataContext`. It holds one sequence per
table and one identity counter per table. Its ghost invariant `Valid()` says
that primary keys are unique and below their counter.

Every controller action is a module-level method on that context. Each action:

- requires `Valid()`, modifies the context, and keeps `Valid()`;
- states its whole new state as `db.State() == old(db.State()).(...)`;
- returns an `Outcome`, which is `Saved`, `NotFound` or `Rejected(reason)`.

An action that returns before `SaveChanges` leaves the state unchanged.

The current instant (`DateTime.Now`) is a parameter, and so are the signed-in
user's role and e-mail. Amounts of type `decimal` are `real`. Nullable columns
are `Option`.

## Model

| member | source | states |
|---|---|---|
| Wrappers.FirstIndex | Areas/Admin/Controllers/WarehouseController.cs:389-391 | `FirstOrDefault(pred)` as a position: it holds the first element satisfying the predicate, and is None exactly when no element does |
| Wrappers.RemoveAt | Areas/Admin/Controllers/WarehouseController.cs:446 | removing a row keeps the others in order, and the multiset of rows loses exactly the removed one |
| Calendar.NextDateIsSuccessor | Areas/Admin/Controllers/DashboardController.cs:124 | the date of `AddDays(1)` is the successor: a date is before it exactly when it is on or before the original date |
| Calendar.InclusiveUpperBound | Areas/Admin/Controllers/DashboardController.cs:122-127 | the filter `x < toDate.AddDays(1)` with `toDate` at midnight holds exactly for instants dated on or before `toDate` |
| Calendar.TodayWindow | Areas/Admin/Controllers/OrderController.cs:224-229 | `today <= x < tomorrow` holds exactly for the instants of today's date |
| Calendar.DateStampRoundTrip | Areas/Admin/Controllers/OrderController.cs:222 | `ToString("yyyyMMdd")` is eight digits, and reading back its fields gives the year, month and day |
| Text.ContainsIffOccurs | Areas/Admin/Controllers/DashboardController.cs:46 | `Contains`, taken as a case-sensitive ordinal comparison, holds exactly when the substring occurs at some position, in both directions |
| Text.ContainsSpliced | Areas/Admin/Controllers/ProductionController.cs:167-170 | a string contains anything spliced into it; a note built around an order number mentions that number |
| Text.ContainsLabelled | Areas/Admin/Controllers/OrderController.cs:350 | a caption followed by a number contains the number |
| Text.Contains | Areas/Admin/Controllers/DashboardController.cs:46 | a string contains only substrings no longer than itself, and always contains the empty string |
| Text.TrimStart | Areas/Admin/Controllers/WarehouseController.cs:568 | the result is a suffix of the input, everything it drops is white space, and it does not start with white space |
| Text.TrimEnd | Areas/Admin/Controllers/WarehouseController.cs:568 | the result is a prefix of the input, everything it drops is white space, and it does not end with white space |
| Text.Trim | Areas/Admin/Controllers/WarehouseController.cs:568 | `Trim()` is no longer than its input and has no white space at either edge |
| Text.TrimEmptyIffBlank | Areas/Admin/Controllers/WarehouseController.cs:564 | `Trim()` gives the empty string exactly when `IsNullOrWhiteSpace` holds |
| Text.SplitOnComma | Areas/Admin/Controllers/WarehouseController.cs:568 | `Split(',')` gives at least one piece, and no piece holds a comma |
| Text.SplitOnCommaRoundTrip | Areas/Admin/Controllers/WarehouseController.cs:568 | joining the pieces of `Split(',')` with commas gives the string back, so the pieces lose nothing |
| Text.Digits | Areas/Admin/Controllers/OrderController.cs:231 | `n.ToString()` is all digits, with no leading zero |
| Text.DigitsRoundTrip | Areas/Admin/Controllers/OrderController.cs:231 | reading back the digits of `n` gives `n` |
| Text.DigitsLength | Areas/Admin/Controllers/OrderController.cs:231 | `n` has at most `k` digits exactly when `n < 10^k` |
| Text.LeadingZeros | Areas/Admin/Controllers/OrderController.cs:231 | zero padding does not change the value |
| Text.PadRoundTrip | Areas/Admin/Controllers/PurchaseController.cs:82 | `ToString("D<w>")` reads back as `n`, has at least `w` characters, and exactly `w` when `n < 10^w` |
| Models.ProductTypeFromCode | Models/ProductModel.cs:5-9 | a stored code is a product type exactly when it is 0 or 1, and the type's code is that code |
| Models.OrderStatusFromCode | Models/OrderModel.cs:9-19 | codes 0..2 are exactly the order statuses, and the status's code is that code |
| Models.WarehouseOrderStatusFromCode | Models/OrderModel.cs:22-47 | codes 0..7 are exactly the warehouse statuses, and the status's code is that code |
| Models.PaymentMethodFromCode | Models/OrderModel.cs:50-57 | every integer is a payment-method value; it is unnamed exactly when it is neither 0 nor 1 |
| Models.ProductionStatusFromCode | Models/ProductionOrderModel.cs:7-12 | codes 0..2 are exactly the production statuses |
| Models.PurchaseStatusFromCode | Models/ViewModel/PurchaseOrderModel.cs:7-13 | codes 0..3 are exactly the purchase statuses |
| Models.EnumCodesRoundTrip | Models/OrderModel.cs:9-47 | every member's code reads back as that member, for all five enumerations |
| Models.NewOrder | Models/OrderModel.cs:90-106 | a new order is CREATED, PENDING, COD, dated now and not delivered |
| Models.NewProductionOrder | Models/ProductionOrderModel.cs:45-67 | a new production order is Created, has no materials and an empty number, and started now |
| Models.NewPurchaseOrder | Models/ViewModel/PurchaseOrderModel.cs:54-58 | a new purchase is Created, ordered now and not received |
| Models.EntryValueBounded | Models/WarehouseTransactionModel.cs:19-45 | a slip that passes its range checks has a positive quantity and a value between 0 and the product of the two bounds |
| Models.ProductionValuesNonNegative | Models/ProductionOrderModel.cs:29-40 | a valid production order and valid material lines have non-negative value and cost |
| Models.ProductTypeName | Areas/Admin/Controllers/InventoryController.cs:50 | the caption is "Thành phẩm" exactly for finished products and "Nguyên liệu" exactly for materials |
| Models.PaymentLabel | Areas/Admin/Controllers/WarehouseOrderController.cs:150-155 | COD and MOMO get their captions, and the "unknown" caption goes exactly to unnamed values |
| Repository.DataContext.constructor | Repository/DataContext.cs:11-23 | a context with a catalogue and empty tables satisfies the key invariant |
| Repository.FindEntry | Areas/Admin/Controllers/WarehouseController.cs:319-321 | the found slip has the id (and the type, when one is asked for); None exactly when no slip matches |
| Repository.FindOrder | Areas/Admin/Controllers/OrderController.cs:276-278 | the found order has the id; None exactly when no order has it |
| Repository.FindCustomer | Areas/Admin/Controllers/OrderController.cs:297-298 | the found customer has the id; None exactly when no customer has it |
| Repository.FindProduction | Areas/Admin/Controllers/ProductionController.cs:126-129 | the found production order has the id; None exactly when none has it |
| Repository.FindPurchase | Areas/Admin/Controllers/PurchaseController.cs:115-116 | the found purchase has the id; None exactly when none has it |
| Stock.TotalAppend | Areas/Admin/Controllers/InventoryController.cs:32-38 | a slip appended to the ledger adds exactly its own share to a sum |
| Stock.TotalConcat | Areas/Admin/Controllers/InventoryController.cs:32-38 | the sum over two ledgers joined is the sum of their sums |
| Stock.TotalRemoveAt | Areas/Admin/Controllers/WarehouseController.cs:446 | removing a slip takes exactly its share out of every sum |
| Stock.TotalReplaceAt | Areas/Admin/Controllers/WarehouseController.cs:367-372 | replacing a slip swaps its share for the new slip's |
| Stock.SkipIsRemoval | Areas/Admin/Controllers/WarehouseController.cs:409-418 | with unique ids, `t.Id != id` in a sum is the same as removing that slip |
| Stock.SkipOthers | Areas/Admin/Controllers/WarehouseController.cs:341-343 | skipping an id no slip carries changes no sum |
| Stock.StockIgnoresOtherProducts | Areas/Admin/Controllers/InventoryController.cs:32-40 | slips of other products do not move a product's stock |
| Stock.NoShare | Areas/Admin/Controllers/InventoryController.cs:32-38 | a ledger without slips of the product sums to 0 for it |
| Stock.StockOf | Areas/Admin/Controllers/InventoryController.cs:32-40 | a product with no slips in the ledger has its base quantity as stock |
| Stock.FindProduct | Areas/Admin/Controllers/WarehouseController.cs:532 | the found product has the id; None exactly when none has it |
| Stock.InventoryStock | Areas/Admin/Controllers/WarehouseController.cs:529-557 | the reply fails exactly when no product has the id; otherwise it carries that product's name, unit and base + imports − exports |
| Stock.StockReplyOf | Areas/Admin/Controllers/PurchaseController.cs:222-245 | with unique ids, the stock read from the reply for a product is that product's stock |
| Stock.StockByProductId | Areas/Admin/Controllers/OrderController.cs:390-413 | a missing product gets zeros; otherwise the reply has the first matching product's stock, unit, price and image |
| Warehouse.Import | Areas/Admin/Controllers/WarehouseController.cs:168-198 | a missing product stores nothing; otherwise one Import slip is appended under the next id, with the product's unit and, for a price of 0 or less, its list price, and the base quantity rises by the slip's quantity |
| Warehouse.ImportRaisesStockTwice | Areas/Admin/Controllers/WarehouseController.cs:176-191 | an import raises the stock by twice its quantity: once in the base and once in the ledger |
| Warehouse.Export | Areas/Admin/Controllers/WarehouseController.cs:209-286 | a missing product, or a quantity above the computed stock, stores nothing; otherwise one Export slip with no supplier is appended and the base falls by its quantity |
| Warehouse.UniqueProductLookup | Areas/Admin/Controllers/WarehouseController.cs:222-254 | with unique ids, looking up a product's own id finds that product |
| Warehouse.ExportLowersStockTwice | Areas/Admin/Controllers/WarehouseController.cs:256-271 | an export lowers the stock by twice its quantity |
| Warehouse.ExportCanDriveBaseNegative | Areas/Admin/Controllers/WarehouseController.cs:222-271 | an accepted export can leave the base quantity, and the stock, negative |
| Warehouse.ExportEdit | Areas/Admin/Controllers/WarehouseController.cs:314-381 | a missing slip or product stores nothing; the new quantity is checked against the stock without this slip; if accepted, the base becomes that stock minus the new quantity and the slip takes the new quantity, price, notes and date |
| Warehouse.ExportEditEffect | Areas/Admin/Controllers/WarehouseController.cs:337-377 | the stock checked is the current stock plus the slip's own quantity; after the edit the stock moves by twice the change plus the product's net movement |
| Warehouse.ImportEdit | Areas/Admin/Controllers/WarehouseController.cs:485-524 | with no stock check, the base moves by the change of quantity and the slip takes the new quantity, price, notes, supplier and date |
| Warehouse.ImportEditEffect | Areas/Admin/Controllers/WarehouseController.cs:507-520 | an import edit moves the stock by twice the change of quantity |
| Warehouse.Delete | Areas/Admin/Controllers/WarehouseController.cs:387-454 | the slip is removed; for an Import or Export slip the base is first reset to base + imports − exports over the other slips; other types leave the base alone |
| Warehouse.DeleteEffect | Areas/Admin/Controllers/WarehouseController.cs:389-447 | the base written back is the stock of the remaining ledger, which the formula then counts a second time |
| Warehouse.ImportThenDeleteKeepsSurplus | Areas/Admin/Controllers/WarehouseController.cs:168-454 | importing and then deleting the same slip restores the ledger but not the stock |
| Orders.CountTodayIsCountOnDate | Areas/Admin/Controllers/OrderController.cs:224-229 | the window count equals the number of orders dated today |
| Orders.OrderNumberParts | Areas/Admin/Controllers/OrderController.cs:219-233 | the number reads back as "DH-", today's stamp, "-" and a serial one above today's count; below 10000 orders a day it has 16 characters |
| Orders.GenerateOrderNumber | Areas/Admin/Controllers/OrderController.cs:219-233 | the number is "DH-", the eight-digit date stamp of today, "-" and at least four digits, so at least 16 characters |
| Orders.FillBlankLaws | Areas/Admin/Controllers/OrderController.cs:169-207 | filling blanks keeps every non-blank stored value, leaves a field blank only when both sides are, and is idempotent |
| Orders.OverwriteLaws | Areas/Admin/Controllers/OrderController.cs:297-310 | every non-blank offered value wins, a stored value is never blanked, and overwriting is idempotent |
| Orders.FindByEmail | Areas/Admin/Controllers/OrderController.cs:169-170 | the customer found has the user's e-mail or login e-mail, no earlier customer has either, and None exactly when none does |
| Orders.NewCustomer | Areas/Admin/Controllers/OrderController.cs:191-198 | the created customer has the given id and the e-mail as both e-mails; the name falls back to the e-mail, and the address and phone are the form's or "" when missing |
| Orders.Create | Areas/Admin/Controllers/OrderController.cs:102-215 | nothing is stored for a missing product, a computed stock of 0 or less, or a quantity above the stock; otherwise the order is stored under the next id with its number, date and defaults, a signed-in customer's record is completed or created, and the ledger and products are untouched |
| Orders.Placed | Areas/Admin/Controllers/OrderController.cs:156-163 | the stored order has the next id, is dated now and Pending, always has a number (the submitted one, or a generated one when none was given), takes the product's unit when its own is blank and the product's price when its own is not positive, and keeps every other submitted field |
| Orders.PlaceOrder | Areas/Admin/Controllers/OrderController.cs:165-211 | the accepted order is stored after the signed-in customer is recorded |
| Orders.AppendOrder | Areas/Admin/Controllers/OrderController.cs:210 | the order is appended under the next order id |
| Orders.AttachCustomer | Areas/Admin/Controllers/OrderController.cs:169-207 | the signed-in customer's record is completed where blank, or created under the next id, and the order copies its details |
| Orders.EditedWithCustomer | Areas/Admin/Controllers/OrderController.cs:287-310 | the edited order keeps its id, number, date, customer and warehouse status, and takes the form's product, quantity, unit, price, description, delivery date, status and payment method; with its customer found, its name, address and phone are the form's non-blank values or else the customer's and its e-mail is the customer's; with no customer, the stored snapshot is kept |
| Orders.EditSnapshotMatchesCustomer | Areas/Admin/Controllers/OrderController.cs:297-310 | after the edit the order's customer snapshot equals the updated customer record |
| Orders.CustomersAfterEdit | Areas/Admin/Controllers/OrderController.cs:297-310 | only the order's customer changes: its name, address and phone take the form's non-blank values and its ids and e-mails stay; with no such customer the table is unchanged |
| Orders.Edit | Areas/Admin/Controllers/OrderController.cs:258-366 | a missing order stores nothing; the fields and customer are updated; when the order is just marked delivered and the warehouse has not delivered it, a missing product or short stock stops the action, otherwise an export of the order quantity is booked, the base falls, the order is stamped delivered now and its warehouse status becomes Delivered |
| Orders.Edited | Areas/Admin/Controllers/OrderController.cs:286-293 | the edited order is the submitted form with the id, number, date, customer, customer snapshot and warehouse status taken back from the stored order |
| Orders.DeliveryExport | Areas/Admin/Controllers/OrderController.cs:342-351 | the delivery slip is an export of the order's product and quantity, dated now, at the product's unit and catalogue price, with no supplier and the order's note |
| Orders.Deliver | Areas/Admin/Controllers/OrderController.cs:313-360 | the delivery branch: the stock check, then the export, the stamp and the status, saved with the edit |
| Orders.BookDeliveryExport | Areas/Admin/Controllers/OrderController.cs:339-360 | one export slip is appended and the product's base falls by the order quantity |
| Orders.StoreEdit | Areas/Admin/Controllers/OrderController.cs:363 | the edited order and the customers are written back under their own ids |
| Orders.DeliveryExportOnce | Areas/Admin/Controllers/OrderController.cs:271-273 | once the export is booked, saving the order as delivered again books nothing |
| Orders.DeliveryExportEffect | Areas/Admin/Controllers/OrderController.cs:341-357 | the delivery lowers the product's stock by twice the order quantity, and the slip's note names the order |
| Orders.Delete | Areas/Admin/Controllers/OrderController.cs:371-386 | the order is removed and nothing else; no slip is reversed |
| WarehouseOrders.WithWarehouseStatus | Areas/Admin/Controllers/WarehouseOrderController.cs:222-229 | the status is set, nothing else but the delivery date changes, a set date is kept, and an unset date becomes now exactly for Delivered or Completed and stays unset otherwise |
| WarehouseOrders.WarehouseStatusIdempotent | Areas/Admin/Controllers/WarehouseOrderController.cs:222-229 | saving the same status again, at any later instant, changes nothing |
| WarehouseOrders.Edit | Areas/Admin/Controllers/WarehouseOrderController.cs:208-236 | a missing order stores nothing; otherwise only that order's warehouse status and delivery date change, and no stock moves |
| WarehouseOrders.WarehouseDeliveredSuppressesExport | Areas/Admin/Controllers/WarehouseOrderController.cs:231-232 | after the warehouse sets Delivered, marking the sales order delivered books no export |
| WarehouseOrders.OtherStatusKeepsExport | Areas/Admin/Controllers/WarehouseOrderController.cs:222 | any other warehouse status leaves the export due |
| WarehouseOrders.Delete | Areas/Admin/Controllers/WarehouseOrderController.cs:240-254 | the order is removed and nothing else |
| WarehouseOrders.ToDateInclusive | Areas/Admin/Controllers/WarehouseOrderController.cs:52-57 | a `toDate` filter keeps every order dated on that day |
| WarehouseOrders.StatusFilterExact | Areas/Admin/Controllers/WarehouseOrderController.cs:59-60 | the status filter alone keeps exactly the orders in that status |
| WarehouseOrders.KeywordInNumber | Areas/Admin/Controllers/WarehouseOrderController.cs:41-47 | a keyword occurring in the order number lists the order, whatever the joined names |
| Production.ProductionNumberParts | Areas/Admin/Controllers/ProductionController.cs:81-83 | the number reads back as today's prefix, "-" and a serial one above the count; below 1000 a day it has 14 characters |
| Production.NumberPrefix | Areas/Admin/Controllers/ProductionController.cs:81 | the prefix is "SX" and eight digits, ten characters in all |
| Production.ProductionNumber | Areas/Admin/Controllers/ProductionController.cs:81-83 | the number starts with the prefix, then "-" and at least three digits, so at least 14 characters |
| Production.NumberingAdvances | Areas/Admin/Controllers/ProductionController.cs:81-83 | creating an order raises the count the next serial is taken from by one |
| Production.NumberReusedAfterDelete | Areas/Admin/Controllers/ProductionController.cs:81-83 | after a deletion, the next order of the day gets the number of an order that still exists |
| Production.Create | Areas/Admin/Controllers/ProductionController.cs:80-89 | the order is stored under the next id with today's next number, in progress and started now; nothing else changes |
| Production.MaterialExports | Areas/Admin/Controllers/ProductionController.cs:185-197 | one export per material line, in line order, numbered consecutively from the first id |
| Production.CompletionEntries | Areas/Admin/Controllers/ProductionController.cs:174-197 | one entry more than there are material lines, numbered consecutively; the first is the finished-goods import (the order's product, quantity and unit price, the product's unit, dated now, noted "Hoàn thành SX" + number), then one export per material line in line order |
| Production.CompletionImportIndex | Areas/Admin/Controllers/ProductionController.cs:167-170 | the first import of the product whose note mentions the number; None exactly when there is none |
| Production.BookCompletion | Areas/Admin/Controllers/ProductionController.cs:174-197 | the loop builds exactly the completion entries |
| Production.CompletionDetected | Areas/Admin/Controllers/ProductionController.cs:167-170 | after a completion is booked it is detected, so saving as done again books nothing |
| Production.ExportsTotals | Areas/Admin/Controllers/ProductionController.cs:185-197 | the exports of a material sum to the quantity planned for it |
| Production.CompletionStockEffect | Areas/Admin/Controllers/ProductionController.cs:174-197 | completion raises the product's stock by the order quantity and lowers each material's stock by its planned quantity |
| Production.Updated | Areas/Admin/Controllers/ProductionController.cs:138-162 | the order takes the form's quantity, notes, status, price, planned end and materials; the end date is stamped once, on completion |
| Production.RefillMaterials | Areas/Admin/Controllers/ProductionController.cs:151-162 | the new material list is a copy of the submitted lines |
| Production.Edit | Areas/Admin/Controllers/ProductionController.cs:117-204 | a missing order stores nothing; the fields and materials are taken from the form, and a first save as done books the completion entries; base quantities never change |
| Production.SaveEdited | Areas/Admin/Controllers/ProductionController.cs:165-201 | the edited order is written back in place, after the completion entries when they are due, and nothing else changes |
| Production.BookCompletionOnce | Areas/Admin/Controllers/ProductionController.cs:165-199 | the completion entries are appended unless a completion import is already in the ledger |
| Production.StoreProduction | Areas/Admin/Controllers/ProductionController.cs:201 | the edited order is written back under its own id |
| Production.AppendEntries | Areas/Admin/Controllers/ProductionController.cs:174-197 | each entry is appended, numbered on from the counter |
| Production.WithoutConsumptionMembers | Areas/Admin/Controllers/ProductionController.cs:241-250 | exactly the entries that are not exports mentioning the number remain |
| Production.WithoutConsumption | Areas/Admin/Controllers/ProductionController.cs:241-251 | no entry left is an export mentioning the number, and none is added |
| Production.ReverseCompletion | Areas/Admin/Controllers/ProductionController.cs:225-251 | no export mentioning the order number is left, and when a completion import is found at least that entry is gone |
| Production.ConsumptionRemoved | Areas/Admin/Controllers/ProductionController.cs:241-251 | removing the consumption exports of an order from a ledger that never mentioned its number gives that ledger back |
| Production.Delete | Areas/Admin/Controllers/ProductionController.cs:209-264 | the order is removed; a done order also takes its first completion import and every export mentioning its number; base quantities never change |
| Production.ReverseKeepsIds | Areas/Admin/Controllers/ProductionController.cs:222-259 | the reversal only removes entries, so ids stay unique and below the counter |
| Production.RemoveProduction | Areas/Admin/Controllers/ProductionController.cs:259 | the order is removed from its table |
| Production.DeleteUndoesCompletion | Areas/Admin/Controllers/ProductionController.cs:165-259 | deleting a done order right after its completion gives back the ledger it was booked on, provided no earlier entry mentions its number |
| Production.ImportFoundAfter | Areas/Admin/Controllers/ProductionController.cs:228-232 | with no earlier mention of the number, the first completion import is the one that was booked |
| Production.ProfitIsSumOfOrderProfits | Areas/Admin/Controllers/ProductionController.cs:48-50 | the list's profit, value minus material cost, is the sum of the orders' own profits |
| Production.MaterialCostNonNegative | Areas/Admin/Controllers/ProductionController.cs:49 | valid lines give a non-negative material cost |
| Purchasing.PurchaseNumberParts | Areas/Admin/Controllers/PurchaseController.cs:80-82 | the number reads back as "PO", today's stamp, "-" and a serial one above the count; below 1000 a day it has 14 characters |
| Purchasing.NumberPrefix | Areas/Admin/Controllers/PurchaseController.cs:80 | the prefix is "PO" and eight digits, ten characters in all |
| Purchasing.PurchaseNumber | Areas/Admin/Controllers/PurchaseController.cs:80-82 | the number starts with the prefix, then "-" and at least three digits, so at least 14 characters |
| Purchasing.NumberingAdvances | Areas/Admin/Controllers/PurchaseController.cs:80-82 | a purchase created now counts towards the next serial of the day |
| Purchasing.Placed | Areas/Admin/Controllers/PurchaseController.cs:80-87 | the stored purchase has the next id, the number PurchaseNumber gives for today (prefix included), is ordered now, is Created, and keeps every other submitted field |
| Purchasing.Create | Areas/Admin/Controllers/PurchaseController.cs:63-92 | no supplier or no material stores nothing; otherwise the purchase is appended and nothing else changes |
| Purchasing.Edited | Areas/Admin/Controllers/PurchaseController.cs:120-126 | the purchase takes the form's product, supplier, quantity, unit, unit price, description and status; the id, number and dates are kept |
| Purchasing.ReceiptEntry | Areas/Admin/Controllers/PurchaseController.cs:132-142 | the receipt slip is an Import under the given id, dated now, of the purchased product, supplier, quantity, unit and price, and its note contains the purchase number |
| Purchasing.Edit | Areas/Admin/Controllers/PurchaseController.cs:107-148 | a missing purchase stores nothing; on the move into RECEIVED the received date is stamped and one import is appended, otherwise only the purchase changes |
| Purchasing.ReceiptOnce | Areas/Admin/Controllers/PurchaseController.cs:118 | saving a received purchase again books nothing |
| Purchasing.ReceiptRepeatsAfterReopen | Areas/Admin/Controllers/PurchaseController.cs:118 | moving a received purchase away and back to RECEIVED books a second import |
| Purchasing.ReceiptStockEffect | Areas/Admin/Controllers/PurchaseController.cs:128-143 | receipt raises the material's stock by the purchased quantity, counted once, and leaves other products alone |
| Purchasing.Delete | Areas/Admin/Controllers/PurchaseController.cs:153-163 | the purchase is removed and its receipt slip stays; a missing id changes nothing |
| Purchasing.TotalPurchaseValueConcat | Areas/Admin/Controllers/PurchaseController.cs:49 | the total of two lists joined is the sum of their totals |
| Purchasing.TotalPurchaseValueRemoveAt | Areas/Admin/Controllers/PurchaseController.cs:49 | taking one purchase out of the list takes its value out of the total |
| Purchasing.TotalPurchaseValuePermutation | Areas/Admin/Controllers/PurchaseController.cs:45-49 | the total does not depend on the order of the list |
| Purchasing.TotalPurchaseValueNonNegative | Areas/Admin/Controllers/PurchaseController.cs:49 | valid purchases never make the total negative |
| ProductsByType.ParseNamesAccepts | Areas/Admin/Controllers/WarehouseController.cs:568 | the list parses exactly when every piece names a member |
| ProductsByType.ParseNamesValue | Areas/Admin/Controllers/WarehouseController.cs:568 | a parsed list is 1 exactly when one of its pieces names Material |
| ProductsByType.ParseMemberName | Areas/Admin/Controllers/WarehouseController.cs:568 | a string equal to a member's name, ignoring case, parses to that member's code |
| ProductsByType.ParseProductType | Areas/Admin/Controllers/WarehouseController.cs:568 | a parse succeeds only on a non-blank string, and its value fits an `int` |
| ProductsByType.ParseIntegerText | Areas/Admin/Controllers/WarehouseController.cs:568 | text in integer form (sign or digits, then only ASCII white space, then only NUL characters) is that number, and fails when it overflows an `int` |
| ProductsByType.ParseNotIntegerText | Areas/Admin/Controllers/WarehouseController.cs:568 | text not in integer form falls back to the comma-separated list of names |
| ProductsByType.ParseOneName | Areas/Admin/Controllers/WarehouseController.cs:568 | a string with no leading white space, no comma and no leading sign or digit is parsed as a single name |
| ProductsByType.MemberNameLetters | Areas/Admin/Controllers/WarehouseController.cs:568 | a member's name in any letter case has no comma, no edge white space or sign, and names that member |
| ProductsByType.NumberIsNoName | Areas/Admin/Controllers/WarehouseController.cs:568 | a piece that, trimmed, starts with a sign or digit names no member |
| ProductsByType.ParseDigits | Areas/Admin/Controllers/WarehouseController.cs:568 | a string of digits parses to its number, member or not |
| ProductsByType.ParseNumberWithTrailer | Areas/Admin/Controllers/WarehouseController.cs:568 | digits followed by ASCII white space and then NUL characters parse to the number |
| ProductsByType.ParseNumberUnicodeSpace | Areas/Admin/Controllers/WarehouseController.cs:568 | digits followed by white space outside ASCII (such as U+00A0) do not parse |
| ProductsByType.InsertSorted | Areas/Admin/Controllers/WarehouseController.cs:574 | inserting into a name-sorted list keeps it sorted |
| ProductsByType.SortByName | Areas/Admin/Controllers/WarehouseController.cs:574 | `OrderBy(ProductName)`, taken as ordinal code-point order, gives a name-sorted permutation of the input |
| ProductsByType.Row | Areas/Admin/Controllers/WarehouseController.cs:575-580 | a reply item has the product's id and unit, and its name followed by exactly one space |
| ProductsByType.OfType | Areas/Admin/Controllers/WarehouseController.cs:572-573 | exactly the products of the type are kept, in order |
| ProductsByType.GetProductsByType | Areas/Admin/Controllers/WarehouseController.cs:561-584 | a blank type, or one `ParseProductType` rejects, gives an empty list |
| ProductsByType.ProductsByTypeListed | Areas/Admin/Controllers/WarehouseController.cs:570-581 | for a parsed type, the reply lists exactly the products of that type, ordered by name, each name followed by a space |
| Inventory.RowFor | Areas/Admin/Controllers/InventoryController.cs:32-60 | the row has the product's fields, the imported and exported totals, stock = base + imports − exports, and the import, export and stock values all at the product's list price |
| Inventory.Index | Areas/Admin/Controllers/InventoryController.cs:25-64 | one row per product, in catalogue order, each that product's row |
| Inventory.RowAgreesWithStockReply | Areas/Admin/Controllers/InventoryController.cs:40 | with unique ids, a row's stock agrees with the stock endpoints' reply |
| Inventory.RowAfterImport | Areas/Admin/Controllers/InventoryController.cs:32-44 | one more import raises its product's row stock and value, and leaves other rows as they were |
| Inventory.RowAfterExport | Areas/Admin/Controllers/InventoryController.cs:36-44 | one more export lowers its product's row stock and value, and leaves other rows as they were |
| Dashboard.LowStockCount | Areas/Admin/Controllers/DashboardController.cs:32 | the count is at most the number of products; it is 0 exactly when every base quantity is 10 or more, and counts every product exactly when every base quantity is below 10 |
| Dashboard.LowStockCountIsLowProducts | Areas/Admin/Controllers/DashboardController.cs:32 | the count equals the number of positions whose base quantity is below 10 |
| Dashboard.LowStockIgnoresLedger | Areas/Admin/Controllers/DashboardController.cs:32 | after a ledger-only import lifts a product's stock from below 10 to 10 or more, the count is still one more than it would be if that stock were compared |
| Dashboard.NoSalesNoRevenue | Areas/Admin/Controllers/DashboardController.cs:171-180 | a month without sales has no revenue |
| Dashboard.RevenueByMonth | Areas/Admin/Controllers/DashboardController.cs:34-36 | the twelve monthly revenues add up to the total revenue |
| Dashboard.MonthRevenue | Areas/Admin/Controllers/DashboardController.cs:171-180 | a month in which no order was placed has no revenue, and when every order was placed in the month its revenue is the whole revenue |
| Dashboard.MonthlyGroupsRange | Areas/Admin/Controllers/DashboardController.cs:171-180 | the groups' months lie in 1..12 and strictly ascend |
| Dashboard.MonthlyGroupsSound | Areas/Admin/Controllers/DashboardController.cs:171-180 | every group is a month with sales, carrying that month's revenue |
| Dashboard.MonthlyGroupsComplete | Areas/Admin/Controllers/DashboardController.cs:171-180 | every month with sales has a group |
| Dashboard.WrittenDistinct | Areas/Admin/Controllers/DashboardController.cs:186-190 | with distinct months, a slot holds its group's revenue, or 0 |
| Dashboard.GroupsWriteRevenue | Areas/Admin/Controllers/DashboardController.cs:186-190 | writing the groups leaves each month's revenue in its slot |
| Dashboard.MonthlyRevenue | Areas/Admin/Controllers/DashboardController.cs:171-190 | a new 12-slot array whose slot m−1 holds the revenue of month m |
| Dashboard.MaterialInventory | Areas/Admin/Controllers/DashboardController.cs:193-223 | no more rows than products; every row has positive stock and a value of stock × price; non-negative list prices give non-negative row prices |
| Dashboard.MaterialPositions | Areas/Admin/Controllers/DashboardController.cs:193-223 | the ascending positions of exactly the materials with positive stock |
| Dashboard.MaterialInventoryInOrder | Areas/Admin/Controllers/DashboardController.cs:193-223 | one row per material in stock, in catalogue order: the i-th row is that of the i-th such product |
| Dashboard.MaterialInventoryExact | Areas/Admin/Controllers/DashboardController.cs:213-223 | a product has a row exactly when it is a material in stock |
| Dashboard.MaterialTotalValueNonNegative | Areas/Admin/Controllers/DashboardController.cs:226 | non-negative prices give a non-negative material value |
| Dashboard.SearchedProduct | Areas/Admin/Controllers/DashboardController.cs:45-46 | a product whose name contains the keyword with no earlier one that does; None exactly when no name does |
| Dashboard.KeptEntriesExact | Areas/Admin/Controllers/DashboardController.cs:116-127 | a slip is kept exactly when it is in the ledger and passes the product and date filters |
| Dashboard.KeptEntries | Areas/Admin/Controllers/DashboardController.cs:116-127 | every kept slip passes the product and date filters, and there are no more of them than slips in the ledger |
| Dashboard.KeptPositions | Areas/Admin/Controllers/DashboardController.cs:116-127 | the ascending positions of exactly the slips that pass the filters |
| Dashboard.KeptEntriesInOrder | Areas/Admin/Controllers/DashboardController.cs:116-127 | the kept slips are the passing slips in ledger order, each once: the i-th kept slip is the one at the i-th passing position |
| Dashboard.Transactions | Areas/Admin/Controllers/DashboardController.cs:43-127 | with a keyword that no product name contains, no slip is grouped |
| Dashboard.AddEntryAscending | Areas/Admin/Controllers/DashboardController.cs:132-161 | adding a slip to the day list keeps the days in ascending order |
| Dashboard.AddEntry | Areas/Admin/Controllers/DashboardController.cs:132-161 | adding a slip adds at most one day, and every day of another date is kept |
| Dashboard.AddEntrySums | Areas/Admin/Controllers/DashboardController.cs:137-138 | adding a slip keeps every day's totals equal to its sums |
| Dashboard.DayTotalsCorrect | Areas/Admin/Controllers/DashboardController.cs:132-161 | one day per date a slip falls on, ascending, each with that day's import and export totals |
| Dashboard.DayTotals | Areas/Admin/Controllers/DashboardController.cs:132-161 | there are no more days than slips, and at least one day when there is a slip |
| Dashboard.DashboardDays | Areas/Admin/Controllers/DashboardController.cs:43-166 | the chart of the searched slips is in ascending date order with each day's totals equal to its sums, and is empty when no product name contains the keyword |
| Registration.MatchesRun | Models/ViewModel/RegisterViewModel.cs:15 | a pattern starting with a run of n characters of a class matches exactly when those come first |
| Registration.MatchesEither | Models/ViewModel/RegisterViewModel.cs:15 | a group of alternatives matches exactly when one alternative comes first |
| Registration.SubscriberPart | Models/ViewModel/RegisterViewModel.cs:15 | the two class runs accept exactly a subscriber part |
| Registration.PhonePatternIffMobile | Models/ViewModel/RegisterViewModel.cs:14-16 | the phone pattern accepts exactly "0" or "+84", then 3, 5, 7, 8 or 9, then eight digits |
| Registration.PhoneLength | Models/ViewModel/RegisterViewModel.cs:14-16 | an accepted number has 10 or 12 characters |
| Registration.TrunkOrCountryCode | Models/ViewModel/RegisterViewModel.cs:14-16 | the "0" and "+84" spellings of a subscriber are accepted together |
| Registration.EmailOfParts | Models/ViewModel/RegisterViewModel.cs:20 | `user@host` is an address when neither part is empty or holds an `@` |
| Registration.EmailShapeEnds | Models/ViewModel/RegisterViewModel.cs:20 | an address neither starts nor ends with `@` |
| Registration.NameProblems | Models/ViewModel/RegisterViewModel.cs:7-8 | the name fails exactly when it is missing or blank, or when it is longer than 100 characters |
| Registration.PhoneProblemsIff | Models/ViewModel/RegisterViewModel.cs:12-16 | the phone passes exactly when it is a mobile number |
| Registration.EmailProblems | Models/ViewModel/RegisterViewModel.cs:19-20 | the e-mail fails exactly when it is missing, or when it does not have its single inner `@` |
| Registration.PasswordProblems | Models/ViewModel/RegisterViewModel.cs:24-26 | the password fails exactly when it is missing, or when its length is outside 6..100 |
| Registration.ConfirmProblems | Models/ViewModel/RegisterViewModel.cs:30-33 | the confirmation fails exactly when it is missing, or when it differs from the password |
| Registration.AcceptedIff | Models/ViewModel/RegisterViewModel.cs:7-33 | the form is accepted exactly when every field meets its annotations |
| Registration.Problems | Models/ViewModel/RegisterViewModel.cs:7-33 | a field is reported missing exactly when it is absent or blank, and at most two problems come from each field |
| Registration.MismatchAlone | Models/ViewModel/RegisterViewModel.cs:33 | a differing confirmation on an otherwise valid form is the only problem reported |
| Registration.EmptyFormMissing | Models/ViewModel/RegisterViewModel.cs:7-33 | an empty form reports each field missing and nothing else |

## Left out

- Excel exports (the warehouse, order, production and purchase "Export to Excel" actions) produce files, which is I/O; they are not part of this model.
- View data (`ViewBag`, `TempData`), paging, drop-down loading and the `ModelState.IsValid` gate before each action are not modelled. An invalid form shows the page again without changing the store.
- Identity and sign-in are left out. The user's role and e-mail are parameters, and the user, role, customer, supplier and product administration controllers are not part of this model. Neither is `AccountController`'s use of the registration form.
- Database failures, concurrency between requests, and asynchronous execution are left out. Each action is one atomic step.
- Orderings and filters are modelled only where something is proved about them. Left out are:
  - the descending date order and filters of the order, production and purchase index lists;
  - the dashboard's per-product detail charts, its record counts and its recent-activity lists.
- Material lines of production orders carry no ids of their own, and inserted rows are numbered by an identity counter. A form that supplies an explicit non-zero id on insert is not modelled.
- Culture-dependent month names on the dashboard chart are left out. Only the 12 revenue slots are modelled.
- Strings are sequences of Unicode scalar values. String lengths are not counted in UTF-16 code units. Case-insensitive comparison folds ASCII letters only. Ordinal comparison is by code point.
- Comparisons that the database evaluates are modelled as case-sensitive and ordinal. SQL Server's collation may make them case-insensitive. A case-sensitive, binary collation is assumed for:
  - `Notes.Contains(orderNumber)` in the production controller (Production.CompletionImportIndex, Production.Delete);
  - `ProductName.Contains(keyword)` on the dashboard (Dashboard.SearchedProduct);
  - the e-mail equality that looks up the signed-in customer (Orders.FindByEmail);
  - `OrderBy(ProductName)` (ProductsByType.SortByName, ProductsByType.NameAtMost).
- `FirstOrDefault` without an `OrderBy` is modelled as the first matching row in table order. Affected lookups are the customer lookups of the order controller, the dashboard's product search and the production completion lookup. The database does not promise that order.
- Calendar.NextDate: on 9999-12-31, `AddDays(1)` throws, whereas the model gives the date value 10000-01-01, which lies outside the calendar. Searches whose end date is 9999-12-31 therefore do not fail in the model.
- Registration.PhoneProblemsIff: `\d` is taken as the ASCII digits 0-9, whereas .NET's `\d` also matches other Unicode decimal digits.
- Registration.EmailProblems: follows the documented rule of the e-mail annotation (exactly one `@`, not first and not last). The annotation's rejection of line breaks is not modelled.
- Registration.Problems reports each failing check on its own, field by field. The framework's order of messages and the display names are not modelled.
- Production.CompletionImportIndex and Production.Delete find a completion by `Contains` on the note, taken as a case-sensitive ordinal comparison (see the collation line above). An order number that is a prefix of another order's number also matches that other order's notes. The model reproduces this matching. Only DeleteUndoesCompletion assumes there is no such collision.
- Stock.Total: `decimal` arithmetic with 28-29 significant digits and the `decimal(18,2)` rounding of stored columns are modelled as exact real arithmetic.

=== FILE: calendar.dfy ===
/** The parts of `System.DateTime` the controllers use: the calendar date
    (`.Date`, `.Month`), comparison, `AddDays(1)` and `ToString("yyyyMMdd")`.
    The clock itself (`DateTime.Now`) is never read here: every action receives
    the current instant as a parameter. */
module Calendar {
  import opened Text

  /** A year/month/day triple, possibly outside the calendar (the day after
      9999-12-31 is one). */
  datatype DateValue = DateValue(year: int, month: int, day: int)

  predicate IsLeapYear(y: int) {
    y % 4 == 0 && (y % 100 != 0 || y % 400 == 0)
  }

  function DaysInMonth(y: int, m: int): int {
    if m == 2 then (if IsLeapYear(y) then 29 else 28)
    else if m == 4 || m == 6 || m == 9 || m == 11 then 30
    else 31
  }

  /** The range `DateTime` supports: 0001-01-01 to 9999-12-31. */
  predicate IsCalendarDate(d: DateValue) {
    1 <= d.year <= 9999 && 1 <= d.month <= 12 && 1 <= d.day <= DaysInMonth(d.year, d.month)
  }

  type Date = d: DateValue | IsCalendarDate(d) witness DateValue(1, 1, 1)

  /** 100-nanosecond ticks in a day. */
  const TicksPerDay: int := 864_000_000_000

  type TimeOfDay = t: int | 0 <= t < TicksPerDay

  /** An instant: a calendar date and the ticks elapsed since its midnight. */
  datatype DateTime = DateTime(date: Date, time: TimeOfDay)

  /** Chronological order of dates. */
  predicate DateBefore(a: DateValue, b: DateValue) {
    a.year < b.year
    || (a.year == b.year && a.month < b.month)
    || (a.year == b.year && a.month == b.month && a.day < b.day)
  }

  predicate DateAtMost(a: DateValue, b: DateValue) {
    a == b || DateBefore(a, b)
  }

  /** `a < b` on instants. */
  predicate Earlier(a: DateTime, b: DateTime) {
    DateBefore(a.date, b.date) || (a.date == b.date && a.time < b.time)
  }

  /** `a <= b` on instants. */
  predicate NotLater(a: DateTime, b: DateTime) {
    a == b || Earlier(a, b)
  }

  /** `DateTime.Today` / `t.Date`: midnight of a date. */
  function Midnight(d: Date): DateTime {
    DateTime(d, 0)
  }

  /** The date part of `AddDays(1)`. On 9999-12-31, where `AddDays(1)`
      throws, this gives 10000-01-01 instead. */
  function NextDate(d: Date): DateValue {
    if d.day < DaysInMonth(d.year, d.month) then DateValue(d.year, d.month, d.day + 1)
    else if d.month < 12 then DateValue(d.year, d.month + 1, 1)
    else DateValue(d.year + 1, 1, 1)
  }

  /** `x < t.AddDays(1)`. */
  predicate BeforeDayAfter(x: DateTime, t: DateTime) {
    DateBefore(x.date, NextDate(t.date)) || (x.date == NextDate(t.date) && x.time < t.time)
  }

  /** The day after `d` is its successor: a date comes before it exactly
      when it is not after `d`. */
  lemma NextDateIsSuccessor(d: Date, e: Date)
    ensures DateBefore(e, NextDate(d)) <==> DateAtMost(e, d)
    ensures DateBefore(d, NextDate(d))
  {
  }

  /** An upper bound written `x < toDate.AddDays(1)`, with `toDate` at
      midnight, keeps every instant of `toDate`'s own day: it means
      "on or before that date". */
  lemma {:induction false} InclusiveUpperBound(x: DateTime, to: Date)
    ensures BeforeDayAfter(x, Midnight(to)) <==> DateAtMost(x.date, to)
  {
    NextDateIsSuccessor(to, x.date);
  }

  /** The window `today <= x < today.AddDays(1)` holds exactly the instants
      of today's date. */
  lemma {:induction false} TodayWindow(x: DateTime, today: Date)
    ensures (NotLater(Midnight(today), x) && BeforeDayAfter(x, Midnight(today))) <==> x.date == today
  {
    InclusiveUpperBound(x, today);
  }

  /** `d.ToString("yyyyMMdd")`. */
  function DateStamp(d: Date): string {
    Pad(d.year, 4) + Pad(d.month, 2) + Pad(d.day, 2)
  }

  /** The stamp is eight digits, and reading back its three fields gives
      the date it was made from. */
  lemma {:induction false} DateStampRoundTrip(d: Date)
    ensures |DateStamp(d)| == 8 && AllDigits(DateStamp(d))
    ensures DigitsValue(DateStamp(d)[..4]) == d.year
    ensures DigitsValue(DateStamp(d)[4..6]) == d.month
    ensures DigitsValue(DateStamp(d)[6..8]) == d.day
  {
    assert Pow10(4) == 10000 && Pow10(2) == 100;
    PadRoundTrip(d.year, 4);
    PadRoundTrip(d.month, 2);
    PadRoundTrip(d.day, 2);
    var s := DateStamp(d);
    assert s[..4] == Pad(d.year, 4);
    assert s[4..6] == Pad(d.month, 2);
    assert s[6..8] == Pad(d.day, 2);
  }
}

=== FILE: dashboard.dfy ===
/** The manager's dashboard: the low-stock count, the revenue of delivered
    orders (in total and month by month, into a 12-slot array), the material
    inventory with its value, and the ledger entries matching the search
    form grouped by day into import and export totals. Everything here only
    reads the tables. */
module Dashboard {
  import opened Wrappers
  import opened Text
  import opened Calendar
  import opened Models
  import opened Stock

  // ---------------------------------------------------------------------
  // Overview

  /** The threshold under which a product counts as low on stock. */
  const LowStockThreshold: real := 10.0

  /** `Products.CountAsync(p => p.ProductQuantity < 10)`: the base quantity
      is compared, not the stock the ledger gives. */
  function LowStockCount(products: seq<Product>): (n: nat)
    ensures n <= |products|
    ensures n == 0 <==> forall i :: 0 <= i < |products| ==> products[i].quantity >= LowStockThreshold
    ensures n == |products| <==> forall i :: 0 <= i < |products| ==> products[i].quantity < LowStockThreshold
    decreases |products|
  {
    if products == [] then 0
    else
      var init := products[..|products| - 1];
      assert forall i :: 0 <= i < |init| ==> init[i] == products[i];
      LowStockCount(init) + (if products[|products| - 1].quantity < LowStockThreshold then 1 else 0)
  }

  /** The positions of the products whose base quantity is under the
      threshold. */
  function LowStockIndices(products: seq<Product>): set<int> {
    set i | 0 <= i < |products| && products[i].quantity < LowStockThreshold
  }

  /** The count is the number of products under the threshold, not just
      right at the extremes. */
  lemma {:induction false} LowStockCountIsLowProducts(products: seq<Product>)
    ensures LowStockCount(products) == |LowStockIndices(products)|
    decreases |products|
  {
    if products != [] {
      var init := products[..|products| - 1];
      var last := |products| - 1;
      LowStockCountIsLowProducts(init);
      var low := if products[last].quantity < LowStockThreshold then {last} else {};
      assert LowStockIndices(products) == LowStockIndices(init) + low;
      assert last !in LowStockIndices(init);
    }
  }

  /** The ledger never changes the count: a product with a low base
      quantity stays counted even after an import booked in the ledger
      alone (a purchase receipt, a production completion) has lifted its
      stock to the threshold or above. The count shown is one more than it
      would be if that product's stock were compared instead. */
  lemma LowStockIgnoresLedger(products: seq<Product>, entries: seq<LedgerEntry>, k: nat, e: LedgerEntry)
    requires k < |products| && products[k].quantity < LowStockThreshold
    requires e.productId == products[k].id && e.transactionType == ImportType
    requires e.quantity >= LowStockThreshold - StockOf(products[k], entries)
    ensures StockOf(products[k], entries + [e]) >= LowStockThreshold
    ensures LowStockCount(products)
            == LowStockCount(products[k := products[k].(quantity := StockOf(products[k], entries + [e]))]) + 1
  {
    TotalAppend(entries, e, products[k].id, ImportType, None);
    TotalAppend(entries, e, products[k].id, ExportType, None);
    var lifted := products[k := products[k].(quantity := StockOf(products[k], entries + [e]))];
    LowStockCountIsLowProducts(products);
    LowStockCountIsLowProducts(lifted);
    assert LowStockIndices(lifted) == LowStockIndices(products) - {k};
  }

  // ---------------------------------------------------------------------
  // Revenue

  /** What an order contributes to revenue: its value when delivered
      successfully, nothing otherwise. */
  function Revenue(o: Order): real {
    if o.status == DeliveredSuccess then o.TotalValue() else 0.0
  }

  /** `Orders.Where(DELIVERED_SUCCESS).Sum(o => o.Quantity * o.UnitPrice) ?? 0`. */
  function TotalRevenue(orders: seq<Order>): real
    decreases |orders|
  {
    if orders == [] then 0.0 else TotalRevenue(orders[..|orders| - 1]) + Revenue(orders[|orders| - 1])
  }

  /** The revenue of the orders placed in calendar month `month`, whatever
      the year. */
  function MonthRevenue(orders: seq<Order>, month: int): (r: real)
    ensures (forall i :: 0 <= i < |orders| ==> orders[i].orderDate.date.month != month) ==> r == 0.0
    ensures (forall i :: 0 <= i < |orders| ==> orders[i].orderDate.date.month == month) ==> r == TotalRevenue(orders)
    decreases |orders|
  {
    if orders == [] then 0.0
    else
      var o := orders[|orders| - 1];
      MonthRevenue(orders[..|orders| - 1], month) + (if o.orderDate.date.month == month then Revenue(o) else 0.0)
  }

  /** Whether month `month` has a group in `GroupBy(o => o.OrderDate.Month)`:
      some successfully delivered order was placed in it. */
  predicate HasSales(orders: seq<Order>, month: int) {
    exists i :: 0 <= i < |orders| && orders[i].status == DeliveredSuccess && orders[i].orderDate.date.month == month
  }

  /** A month without sales has no revenue. */
  lemma {:induction false} NoSalesNoRevenue(orders: seq<Order>, month: int)
    requires !HasSales(orders, month)
    ensures MonthRevenue(orders, month) == 0.0
    decreases |orders|
  {
    if orders != [] {
      var init := orders[..|orders| - 1];
      assert !HasSales(init, month) by {
        forall i | 0 <= i < |init| ensures !(init[i].status == DeliveredSuccess && init[i].orderDate.date.month == month) {
          assert init[i] == orders[i];
        }
      }
      NoSalesNoRevenue(init, month);
    }
  }

  /** The revenue of months 1 to `k`. */
  function MonthsRevenue(orders: seq<Order>, k: nat): real {
    if k == 0 then 0.0 else MonthsRevenue(orders, k - 1) + MonthRevenue(orders, k)
  }

  lemma {:induction false} MonthsRevenueAppend(orders: seq<Order>, o: Order, k: nat)
    ensures MonthsRevenue(orders + [o], k)
         == MonthsRevenue(orders, k) + (if 1 <= o.orderDate.date.month <= k then Revenue(o) else 0.0)
  {
    if k > 0 {
      MonthsRevenueAppend(orders, o, k - 1);
      assert (orders + [o])[..|orders|] == orders;
    }
  }

  /** The twelve monthly slots add up to the total revenue. */
  lemma {:induction false} RevenueByMonth(orders: seq<Order>)
    ensures MonthsRevenue(orders, 12) == TotalRevenue(orders)
    decreases |orders|
  {
    if orders == [] {
      ZeroMonths(orders, 12);
    } else {
      var init := orders[..|orders| - 1];
      var o := orders[|orders| - 1];
      assert orders == init + [o];
      RevenueByMonth(init);
      MonthsRevenueAppend(init, o, 12);
    }
  }

  lemma {:induction false} ZeroMonths(orders: seq<Order>, k: nat)
    requires orders == []
    ensures MonthsRevenue(orders, k) == 0.0
  {
    if k > 0 {
      ZeroMonths(orders, k - 1);
    }
  }

  /** One group of the monthly query. */
  datatype MonthTotal = MonthTotal(month: int, revenue: real)

  /** The monthly groups from month `from` on, in ascending month order:
      one per month with sales, carrying that month's revenue. */
  function MonthlyGroups(orders: seq<Order>, from: int): seq<MonthTotal>
    requires 1 <= from <= 13
    decreases 13 - from
  {
    if from == 13 then []
    else
      var rest := MonthlyGroups(orders, from + 1);
      if HasSales(orders, from) then [MonthTotal(from, MonthRevenue(orders, from))] + rest else rest
  }

  /** The groups' months run from `from` to 12, strictly ascending. */
  lemma {:induction false} MonthlyGroupsRange(orders: seq<Order>, from: int)
    requires 1 <= from <= 13
    ensures forall j :: 0 <= j < |MonthlyGroups(orders, from)| ==> from <= MonthlyGroups(orders, from)[j].month <= 12
    ensures forall j, k :: 0 <= j < k < |MonthlyGroups(orders, from)| ==>
              MonthlyGroups(orders, from)[j].month < MonthlyGroups(orders, from)[k].month
    decreases 13 - from
  {
    if from < 13 {
      MonthlyGroupsRange(orders, from + 1);
      var rest := MonthlyGroups(orders, from + 1);
      var r := MonthlyGroups(orders, from);
      if HasSales(orders, from) {
        assert r == [MonthTotal(from, MonthRevenue(orders, from))] + rest;
        assert r[0] == MonthTotal(from, MonthRevenue(orders, from));
        assert forall j :: 0 < j < |r| ==> r[j] == rest[j - 1];
      } else {
        assert r == rest;
      }
    }
  }

  /** Every group is a month with sales, carrying that month's revenue. */
  lemma {:induction false} MonthlyGroupsSound(orders: seq<Order>, from: int)
    requires 1 <= from <= 13
    ensures forall j :: 0 <= j < |MonthlyGroups(orders, from)| ==>
              HasSales(orders, MonthlyGroups(orders, from)[j].month)
              && MonthlyGroups(orders, from)[j].revenue == MonthRevenue(orders, MonthlyGroups(orders, from)[j].month)
    decreases 13 - from
  {
    if from < 13 {
      MonthlyGroupsSound(orders, from + 1);
      var rest := MonthlyGroups(orders, from + 1);
      var r := MonthlyGroups(orders, from);
      if HasSales(orders, from) {
        assert r == [MonthTotal(from, MonthRevenue(orders, from))] + rest;
        assert r[0] == MonthTotal(from, MonthRevenue(orders, from));
        assert forall j :: 0 < j < |r| ==> r[j] == rest[j - 1];
      } else {
        assert r == rest;
      }
    }
  }

  /** Some group of `gs` is for month `m`. */
  predicate HasGroup(gs: seq<MonthTotal>, m: int) {
    exists j :: 0 <= j < |gs| && gs[j].month == m
  }

  /** Every month from `from` on with sales has a group. */
  lemma {:induction false} MonthlyGroupsComplete(orders: seq<Order>, from: int)
    requires 1 <= from <= 13
    ensures forall m :: from <= m <= 12 && HasSales(orders, m) ==> HasGroup(MonthlyGroups(orders, from), m)
    decreases 13 - from
  {
    if from < 13 {
      MonthlyGroupsComplete(orders, from + 1);
      var rest := MonthlyGroups(orders, from + 1);
      var r := MonthlyGroups(orders, from);
      forall m | from <= m <= 12 && HasSales(orders, m)
        ensures HasGroup(r, m)
      {
        if m == from {
          assert r == [MonthTotal(from, MonthRevenue(orders, from))] + rest;
          assert r[0].month == m;
        } else {
          assert HasGroup(rest, m);
          var j :| 0 <= j < |rest| && rest[j].month == m;
          if HasSales(orders, from) {
            assert r == [MonthTotal(from, MonthRevenue(orders, from))] + rest;
            assert r[j + 1].month == m;
          } else {
            assert r == rest;
          }
        }
      }
    }
  }

  /** The array slot of month `m` after writing the groups `gs` in order:
      the revenue of the last group of that month, or 0. */
  function Written(gs: seq<MonthTotal>, m: int): real
    decreases |gs|
  {
    if gs == [] then 0.0
    else if gs[|gs| - 1].month == m then gs[|gs| - 1].revenue
    else Written(gs[..|gs| - 1], m)
  }

  /** Writing one more group changes only its own month's slot. */
  lemma {:induction false} WrittenStep(gs: seq<MonthTotal>, i: nat)
    requires i < |gs|
    ensures forall m :: Written(gs[..i + 1], m) == if gs[i].month == m then gs[i].revenue else Written(gs[..i], m)
  {
    var s := gs[..i + 1];
    assert s != [] && s[|s| - 1] == gs[i] && s[..|s| - 1] == gs[..i];
    forall m ensures Written(s, m) == if gs[i].month == m then gs[i].revenue else Written(gs[..i], m) {
    }
  }

  /** With distinct months, a slot holds its own group's revenue, or 0 when
      no group has that month. */
  lemma {:induction false} WrittenDistinct(gs: seq<MonthTotal>, m: int)
    requires forall j, k :: 0 <= j < k < |gs| ==> gs[j].month < gs[k].month
    ensures (forall j :: 0 <= j < |gs| ==> gs[j].month != m) ==> Written(gs, m) == 0.0
    ensures forall j :: 0 <= j < |gs| && gs[j].month == m ==> Written(gs, m) == gs[j].revenue
    decreases |gs|
  {
    if gs != [] {
      var init := gs[..|gs| - 1];
      WrittenDistinct(init, m);
      assert forall j :: 0 <= j < |init| ==> init[j] == gs[j];
    }
  }

  /** Writing the monthly groups leaves month `m`'s revenue in its slot. */
  lemma GroupsWriteRevenue(orders: seq<Order>, m: int)
    requires 1 <= m <= 12
    ensures Written(MonthlyGroups(orders, 1), m) == MonthRevenue(orders, m)
  {
    var gs := MonthlyGroups(orders, 1);
    MonthlyGroupsRange(orders, 1);
    MonthlyGroupsSound(orders, 1);
    MonthlyGroupsComplete(orders, 1);
    WrittenDistinct(gs, m);
    if !HasSales(orders, m) {
      NoSalesNoRevenue(orders, m);
    }
  }

  /** `revenueData[m.Month - 1] = m.Revenue` for each group: slot `m - 1`
      holds month `m`'s revenue, and months without sales stay 0. */
  method MonthlyRevenue(orders: seq<Order>) returns (revenueData: array<real>)
    ensures fresh(revenueData) && revenueData.Length == 12
    ensures forall m :: 1 <= m <= 12 ==> revenueData[m - 1] == MonthRevenue(orders, m)
  {
    var groups := MonthlyGroups(orders, 1);
    MonthlyGroupsRange(orders, 1);
    revenueData := new real[12](_ => 0.0);
    var i := 0;
    while i < |groups|
      invariant 0 <= i <= |groups|
      invariant forall j :: 0 <= j < 12 ==> revenueData[j] == Written(groups[..i], j + 1)
    {
      var g := groups[i];
      WrittenStep(groups, i);
      ghost var before := revenueData[..];
      revenueData[g.month - 1] := g.revenue;
      forall j | 0 <= j < 12 ensures revenueData[j] == Written(groups[..i + 1], j + 1) {
        if j != g.month - 1 {
          assert revenueData[j] == before[j];
        }
      }
      i := i + 1;
    }
    assert groups[..i] == groups;
    forall m | 1 <= m <= 12 ensures revenueData[m - 1] == MonthRevenue(orders, m) {
      GroupsWriteRevenue(orders, m);
    }
  }

  // ---------------------------------------------------------------------
  // Material inventory

  /** One row of the material inventory. */
  datatype MaterialRow = MaterialRow(name: string, unit: string, stock: real, unitPrice: real, totalValue: real)

  function MaterialRowFor(p: Product, entries: seq<LedgerEntry>): MaterialRow {
    var stock := StockOf(p, entries);
    MaterialRow(p.name, p.unit, stock, p.price, stock * p.price)
  }

  /** Whether a product has a row: a material with positive stock. */
  predicate InMaterialInventory(p: Product, entries: seq<LedgerEntry>) {
    p.productType == Material && StockOf(p, entries) > 0.0
  }

  /** The materials with positive stock, in catalogue order. */
  function MaterialInventory(products: seq<Product>, entries: seq<LedgerEntry>): (r: seq<MaterialRow>)
    ensures |r| <= |products|
    ensures forall i :: 0 <= i < |r| ==> r[i].stock > 0.0 && r[i].totalValue == r[i].stock * r[i].unitPrice
    ensures (forall j :: 0 <= j < |products| ==> products[j].price >= 0.0) ==>
              forall i :: 0 <= i < |r| ==> r[i].unitPrice >= 0.0
    decreases |products|
  {
    if products == [] then []
    else
      var p := products[|products| - 1];
      MaterialInventory(products[..|products| - 1], entries)
        + (if InMaterialInventory(p, entries) then [MaterialRowFor(p, entries)] else [])
  }

  /** The positions of the products that have a row, in ascending order. */
  function MaterialPositions(products: seq<Product>, entries: seq<LedgerEntry>): (r: seq<nat>)
    ensures forall i :: 0 <= i < |r| ==> r[i] < |products| && InMaterialInventory(products[r[i]], entries)
    ensures forall i, j :: 0 <= i < j < |r| ==> r[i] < r[j]
    ensures forall k :: 0 <= k < |products| && InMaterialInventory(products[k], entries) ==> k in r
    decreases |products|
  {
    if products == [] then []
    else
      var init := products[..|products| - 1];
      assert forall k :: 0 <= k < |init| ==> init[k] == products[k];
      MaterialPositions(init, entries) + (if InMaterialInventory(products[|products| - 1], entries) then [|products| - 1] else [])
  }

  /** One row per material in stock, in catalogue order: the i-th row is
      the row of the product at the i-th such position. */
  lemma {:induction false} MaterialInventoryInOrder(products: seq<Product>, entries: seq<LedgerEntry>)
    ensures |MaterialInventory(products, entries)| == |MaterialPositions(products, entries)|
    ensures forall i :: 0 <= i < |MaterialPositions(products, entries)| ==>
              MaterialInventory(products, entries)[i] == MaterialRowFor(products[MaterialPositions(products, entries)[i]], entries)
    decreases |products|
  {
    if products != [] {
      var init := products[..|products| - 1];
      MaterialInventoryInOrder(init, entries);
      assert forall k :: 0 <= k < |init| ==> init[k] == products[k];
    }
  }

  /** A product has a row exactly when it is a material in stock, and every
      row is such a product's. */
  lemma {:induction false} MaterialInventoryExact(products: seq<Product>, entries: seq<LedgerEntry>)
    ensures forall p :: p in products && InMaterialInventory(p, entries) ==> MaterialRowFor(p, entries) in MaterialInventory(products, entries)
    ensures forall row :: row in MaterialInventory(products, entries) ==>
              exists p :: p in products && InMaterialInventory(p, entries) && row == MaterialRowFor(p, entries)
    decreases |products|
  {
    if products != [] {
      var init := products[..|products| - 1];
      MaterialInventoryExact(init, entries);
      assert products == init + [products[|products| - 1]];
    }
  }

  /** `materialInventory.Sum(x => x.TotalValue)`. */
  function MaterialTotalValue(rows: seq<MaterialRow>): real
    decreases |rows|
  {
    if rows == [] then 0.0 else MaterialTotalValue(rows[..|rows| - 1]) + rows[|rows| - 1].totalValue
  }

  /** Since only positive stock is listed, non-negative prices make the
      material value non-negative. */
  lemma {:induction false} MaterialTotalValueNonNegative(products: seq<Product>, entries: seq<LedgerEntry>)
    requires forall j :: 0 <= j < |products| ==> products[j].price >= 0.0
    ensures MaterialTotalValue(MaterialInventory(products, entries)) >= 0.0
  {
    RowsValueNonNegative(MaterialInventory(products, entries));
  }

  lemma {:induction false} RowsValueNonNegative(rows: seq<MaterialRow>)
    requires forall i :: 0 <= i < |rows| ==>
               rows[i].stock > 0.0 && rows[i].unitPrice >= 0.0 && rows[i].totalValue == rows[i].stock * rows[i].unitPrice
    ensures MaterialTotalValue(rows) >= 0.0
    decreases |rows|
  {
    if rows != [] {
      RowsValueNonNegative(rows[..|rows| - 1]);
      var r := rows[|rows| - 1];
      assert r.stock * r.unitPrice >= 0.0;
    }
  }

  // ---------------------------------------------------------------------
  // The searched entries

  /** The search form. */
  datatype Search = Search(keyword: Option<string>, fromDate: Option<DateTime>, toDate: Option<DateTime>)

  /** The first product whose name contains the keyword. */
  function SearchedProduct(products: seq<Product>, keyword: string): (r: Option<nat>)
    ensures r.Some? ==> r.value < |products| && Contains(products[r.value].name, keyword)
    ensures r.Some? ==> forall j :: 0 <= j < r.value ==> !Contains(products[j].name, keyword)
    ensures r.None? <==> forall j :: 0 <= j < |products| ==> !Contains(products[j].name, keyword)
  {
    FirstIndex(products, (p: Product) => Contains(p.name, keyword))
  }

  /** The date filters: from `fromDate` on, and before the day after
      `toDate`. */
  predicate InWindow(f: Search, e: LedgerEntry) {
    (f.fromDate.None? || NotLater(f.fromDate.value, e.date))
    && (f.toDate.None? || BeforeDayAfter(e.date, f.toDate.value))
  }

  /** Whether an entry passes: of the searched product (when there is one)
      and inside the date window. */
  predicate Kept(f: Search, productId: Option<int>, e: LedgerEntry) {
    (productId.None? || e.productId == productId.value) && InWindow(f, e)
  }

  function KeptEntries(entries: seq<LedgerEntry>, f: Search, productId: Option<int>): (r: seq<LedgerEntry>)
    ensures |r| <= |entries|
    ensures forall i :: 0 <= i < |r| ==> Kept(f, productId, r[i])
    decreases |entries|
  {
    if entries == [] then []
    else
      var e := entries[|entries| - 1];
      KeptEntries(entries[..|entries| - 1], f, productId) + (if Kept(f, productId, e) then [e] else [])
  }

  /** The positions of the entries that pass, in ascending order. */
  function KeptPositions(entries: seq<LedgerEntry>, f: Search, productId: Option<int>): (r: seq<nat>)
    ensures forall i :: 0 <= i < |r| ==> r[i] < |entries| && Kept(f, productId, entries[r[i]])
    ensures forall i, j :: 0 <= i < j < |r| ==> r[i] < r[j]
    ensures forall k :: 0 <= k < |entries| && Kept(f, productId, entries[k]) ==> k in r
    decreases |entries|
  {
    if entries == [] then []
    else
      var init := entries[..|entries| - 1];
      assert forall k :: 0 <= k < |init| ==> init[k] == entries[k];
      KeptPositions(init, f, productId) + (if Kept(f, productId, entries[|entries| - 1]) then [|entries| - 1] else [])
  }

  /** The kept entries are the passing entries in ledger order, each once:
      the i-th kept entry is the entry at the i-th passing position. */
  lemma {:induction false} KeptEntriesInOrder(entries: seq<LedgerEntry>, f: Search, productId: Option<int>)
    ensures |KeptEntries(entries, f, productId)| == |KeptPositions(entries, f, productId)|
    ensures forall i :: 0 <= i < |KeptPositions(entries, f, productId)| ==>
              KeptEntries(entries, f, productId)[i] == entries[KeptPositions(entries, f, productId)[i]]
    decreases |entries|
  {
    if entries != [] {
      var init := entries[..|entries| - 1];
      var last := entries[|entries| - 1];
      KeptEntriesInOrder(init, f, productId);
      var kept, pos := KeptEntries(init, f, productId), KeptPositions(init, f, productId);
      assert KeptEntries(entries, f, productId) == kept + (if Kept(f, productId, last) then [last] else []);
      assert KeptPositions(entries, f, productId) == pos + (if Kept(f, productId, last) then [|entries| - 1] else []);
      forall i | 0 <= i < |pos|
        ensures kept[i] == entries[pos[i]]
      {
        assert init[pos[i]] == entries[pos[i]];
      }
    }
  }

  /** The kept entries are exactly the entries that pass. */
  lemma {:induction false} KeptEntriesExact(entries: seq<LedgerEntry>, f: Search, productId: Option<int>)
    ensures forall e :: e in KeptEntries(entries, f, productId) <==> e in entries && Kept(f, productId, e)
    decreases |entries|
  {
    if entries != [] {
      var init := entries[..|entries| - 1];
      KeptEntriesExact(init, f, productId);
      assert entries == init + [entries[|entries| - 1]];
    }
  }

  /** The entries the dashboard groups: with a keyword, those of the first
      product whose name contains it, or none at all when no name does. */
  function Transactions(products: seq<Product>, entries: seq<LedgerEntry>, f: Search): (r: seq<LedgerEntry>)
    ensures !IsNullOrEmpty(f.keyword) && SearchedProduct(products, f.keyword.value).None? ==> r == []
  {
    if IsNullOrEmpty(f.keyword) then KeptEntries(entries, f, None)
    else match SearchedProduct(products, f.keyword.value)
      case None => []
      case Some(k) => KeptEntries(entries, f, Some(products[k].id))
  }

  // ---------------------------------------------------------------------
  // Grouping by day

  /** One day of the chart. */
  datatype DayTotal = DayTotal(date: DateValue, importTotal: real, exportTotal: real)

  /** The quantity of the entries of type `kind` dated on day `d`. */
  function DaySum(entries: seq<LedgerEntry>, d: DateValue, kind: string): real
    decreases |entries|
  {
    if entries == [] then 0.0
    else
      var e := entries[|entries| - 1];
      DaySum(entries[..|entries| - 1], d, kind) + (if e.date.date == d && e.transactionType == kind then e.quantity else 0.0)
  }

  function EntryDates(entries: seq<LedgerEntry>): set<DateValue> {
    set i | 0 <= i < |entries| :: entries[i].date.date
  }

  function Dates(days: seq<DayTotal>): set<DateValue> {
    set i | 0 <= i < |days| :: days[i].date
  }

  predicate Ascending(days: seq<DayTotal>) {
    forall i, j :: 0 <= i < j < |days| ==> DateBefore(days[i].date, days[j].date)
  }

  /** Each day's totals are the sums of that day's imports and exports. */
  predicate Consistent(days: seq<DayTotal>, entries: seq<LedgerEntry>) {
    forall i :: 0 <= i < |days| ==>
      days[i].importTotal == DaySum(entries, days[i].date, ImportType)
      && days[i].exportTotal == DaySum(entries, days[i].date, ExportType)
  }

  /** Adds one entry to its day, opening the day in order when it is new. */
  function AddEntry(days: seq<DayTotal>, e: LedgerEntry): (r: seq<DayTotal>)
    ensures |days| <= |r| <= |days| + 1
    ensures forall i :: 0 <= i < |days| && days[i].date != e.date.date ==> days[i] in r
    decreases |days|
  {
    var d := e.date.date;
    var imp := if e.transactionType == ImportType then e.quantity else 0.0;
    var exp := if e.transactionType == ExportType then e.quantity else 0.0;
    if days == [] then [DayTotal(d, imp, exp)]
    else if days[0].date == d then [DayTotal(d, days[0].importTotal + imp, days[0].exportTotal + exp)] + days[1..]
    else if DateBefore(d, days[0].date) then [DayTotal(d, imp, exp)] + days
    else [days[0]] + AddEntry(days[1..], e)
  }

  /** `GroupBy(t => t.TransactionDate.Date)` then `OrderBy(x => x.Date)`. */
  function DayTotals(entries: seq<LedgerEntry>): (r: seq<DayTotal>)
    ensures |r| <= |entries|
    ensures entries != [] ==> r != []
    decreases |entries|
  {
    if entries == [] then [] else AddEntry(DayTotals(entries[..|entries| - 1]), entries[|entries| - 1])
  }

  lemma {:induction false} AddEntryDates(days: seq<DayTotal>, e: LedgerEntry)
    ensures Dates(AddEntry(days, e)) == Dates(days) + {e.date.date}
    decreases |days|
  {
    var r := AddEntry(days, e);
    if days == [] {
      assert r == [r[0]];
    } else {
      var t := days[1..];
      assert days == [days[0]] + t;
      DatesCons(days[0], t);
      if days[0].date == e.date.date {
        assert r == [r[0]] + t;
        DatesCons(r[0], t);
      } else if DateBefore(e.date.date, days[0].date) {
        assert r == [r[0]] + days;
        DatesCons(r[0], days);
      } else {
        AddEntryDates(t, e);
        DatesCons(days[0], AddEntry(t, e));
      }
    }
  }

  lemma DatesCons(h: DayTotal, t: seq<DayTotal>)
    ensures Dates([h] + t) == {h.date} + Dates(t)
  {
    var s := [h] + t;
    forall x | x in Dates(s) ensures x in {h.date} + Dates(t) {
      var i :| 0 <= i < |s| && s[i].date == x;
      if i > 0 {
        assert t[i - 1] == s[i];
      }
    }
    forall x | x in Dates(t) ensures x in Dates(s) {
      var i :| 0 <= i < |t| && t[i].date == x;
      assert s[i + 1] == t[i];
    }
    assert s[0] == h;
  }

  /** A head before every later date keeps a list ascending. */
  lemma AscendingCons(h: DayTotal, t: seq<DayTotal>)
    requires Ascending(t)
    requires forall x :: x in Dates(t) ==> DateBefore(h.date, x)
    ensures Ascending([h] + t)
  {
    var s := [h] + t;
    forall i, j | 0 <= i < j < |s| ensures DateBefore(s[i].date, s[j].date) {
      assert s[j] == t[j - 1];
      if i == 0 {
        assert t[j - 1].date in Dates(t);
      } else {
        assert s[i] == t[i - 1];
      }
    }
  }

  /** The tail of an ascending list is ascending and comes after its head. */
  lemma AscendingTail(days: seq<DayTotal>)
    requires days != [] && Ascending(days)
    ensures Ascending(days[1..])
    ensures forall x :: x in Dates(days[1..]) ==> DateBefore(days[0].date, x)
  {
    var t := days[1..];
    forall i, j | 0 <= i < j < |t| ensures DateBefore(t[i].date, t[j].date) {
      assert t[i] == days[i + 1] && t[j] == days[j + 1];
    }
    forall x | x in Dates(t) ensures DateBefore(days[0].date, x) {
      var i :| 0 <= i < |t| && t[i].date == x;
      assert t[i] == days[i + 1];
    }
  }

  lemma {:induction false} AddEntryAscending(days: seq<DayTotal>, e: LedgerEntry)
    requires Ascending(days)
    ensures Ascending(AddEntry(days, e))
    decreases |days|
  {
    var d := e.date.date;
    var r := AddEntry(days, e);
    if days != [] {
      var t := days[1..];
      AscendingTail(days);
      if days[0].date == d {
        assert r == [r[0]] + t;
        AscendingCons(r[0], t);
      } else if DateBefore(d, days[0].date) {
        assert days == [days[0]] + t;
        DatesCons(days[0], t);
        forall x | x in Dates(days) ensures DateBefore(d, x) {
          if x != days[0].date {
            DateBeforeTransitive(d, days[0].date, x);
          }
        }
        assert r == [r[0]] + days;
        AscendingCons(r[0], days);
      } else {
        AddEntryAscending(t, e);
        AddEntryDates(t, e);
        AscendingCons(days[0], AddEntry(t, e));
      }
    }
  }

  lemma DateBeforeTransitive(a: DateValue, b: DateValue, c: DateValue)
    requires DateBefore(a, b) && DateBefore(b, c)
    ensures DateBefore(a, c)
  {
  }

  /** Adding an entry to the end of the ledger adds its share to its own
      day's sum only. */
  lemma DaySumAppend(s: seq<LedgerEntry>, e: LedgerEntry, d: DateValue, kind: string)
    ensures DaySum(s + [e], d, kind) == DaySum(s, d, kind) + (if e.date.date == d && e.transactionType == kind then e.quantity else 0.0)
  {
    assert (s + [e])[..|s|] == s;
  }

  /** A day no entry falls on sums to zero. */
  lemma {:induction false} DaySumAbsent(s: seq<LedgerEntry>, d: DateValue, kind: string)
    requires d !in EntryDates(s)
    ensures DaySum(s, d, kind) == 0.0
    decreases |s|
  {
    if s != [] {
      var init := s[..|s| - 1];
      assert d !in EntryDates(init) by {
        forall i | 0 <= i < |init| ensures init[i].date.date != d {
          assert init[i] == s[i];
        }
      }
      DaySumAbsent(init, d, kind);
      assert s[|s| - 1].date.date in EntryDates(s);
    }
  }

  /** Days other than the new entry's keep their sums. */
  lemma ConsistentOtherDays(days: seq<DayTotal>, s: seq<LedgerEntry>, e: LedgerEntry)
    requires Consistent(days, s)
    requires e.date.date !in Dates(days)
    ensures Consistent(days, s + [e])
  {
    forall i | 0 <= i < |days| ensures days[i].importTotal == DaySum(s + [e], days[i].date, ImportType)
                                     && days[i].exportTotal == DaySum(s + [e], days[i].date, ExportType) {
      assert days[i].date in Dates(days);
      DaySumAppend(s, e, days[i].date, ImportType);
      DaySumAppend(s, e, days[i].date, ExportType);
    }
  }

  lemma ConsistentCons(h: DayTotal, t: seq<DayTotal>, s: seq<LedgerEntry>)
    requires Consistent(t, s)
    requires h.importTotal == DaySum(s, h.date, ImportType) && h.exportTotal == DaySum(s, h.date, ExportType)
    ensures Consistent([h] + t, s)
  {
    var r := [h] + t;
    forall i | 0 <= i < |r| ensures r[i].importTotal == DaySum(s, r[i].date, ImportType)
                                  && r[i].exportTotal == DaySum(s, r[i].date, ExportType) {
      if i > 0 {
        assert r[i] == t[i - 1];
      }
    }
  }

  lemma ConsistentTail(days: seq<DayTotal>, s: seq<LedgerEntry>)
    requires days != [] && Consistent(days, s)
    ensures Consistent(days[1..], s)
  {
    var t := days[1..];
    forall i | 0 <= i < |t| ensures t[i] == days[i + 1] {
    }
  }

  /** Adding an entry keeps every day's totals equal to its sums. */
  lemma {:induction false} AddEntrySums(days: seq<DayTotal>, s: seq<LedgerEntry>, e: LedgerEntry)
    requires Ascending(days) && Consistent(days, s)
    requires e.date.date !in Dates(days) ==>
               DaySum(s, e.date.date, ImportType) == 0.0 && DaySum(s, e.date.date, ExportType) == 0.0
    ensures Consistent(AddEntry(days, e), s + [e])
    decreases |days|
  {
    var d := e.date.date;
    var r := AddEntry(days, e);
    DaySumAppend(s, e, d, ImportType);
    DaySumAppend(s, e, d, ExportType);
    if days == [] {
      ConsistentCons(r[0], [], s + [e]);
      assert r == [r[0]] + [];
    } else {
      var t := days[1..];
      assert days == [days[0]] + t;
      DatesCons(days[0], t);
      AscendingTail(days);
      ConsistentTail(days, s);
      if days[0].date == d {
        assert d !in Dates(t);
        ConsistentOtherDays(t, s, e);
        assert r == [r[0]] + t;
        ConsistentCons(r[0], t, s + [e]);
      } else if DateBefore(d, days[0].date) {
        assert d !in Dates(t);
        ConsistentOtherDays(days, s, e);
        assert r == [r[0]] + days;
        ConsistentCons(r[0], days, s + [e]);
      } else {
        AddEntrySums(t, s, e);
        DaySumAppend(s, e, days[0].date, ImportType);
        DaySumAppend(s, e, days[0].date, ExportType);
        assert r == [days[0]] + AddEntry(t, e);
        ConsistentCons(days[0], AddEntry(t, e), s + [e]);
      }
    }
  }

  /** The grouping is correct: one day per date an entry falls on, in
      ascending order, each with that day's import and export totals. */
  lemma {:induction false} DayTotalsCorrect(entries: seq<LedgerEntry>)
    ensures Ascending(DayTotals(entries))
    ensures Dates(DayTotals(entries)) == EntryDates(entries)
    ensures Consistent(DayTotals(entries), entries)
    decreases |entries|
  {
    if entries != [] {
      var init := entries[..|entries| - 1];
      var e := entries[|entries| - 1];
      assert entries == init + [e];
      DayTotalsCorrect(init);
      var days := DayTotals(init);
      AddEntryAscending(days, e);
      AddEntryDates(days, e);
      assert EntryDates(entries) == EntryDates(init) + {e.date.date} by {
        forall x | x in EntryDates(entries) ensures x in EntryDates(init) + {e.date.date} {
          var i :| 0 <= i < |entries| && entries[i].date.date == x;
          if i < |init| {
            assert init[i] == entries[i];
          }
        }
        forall x | x in EntryDates(init) ensures x in EntryDates(entries) {
          var i :| 0 <= i < |init| && init[i].date.date == x;
          assert entries[i] == init[i];
        }
        assert entries[|entries| - 1] == e;
      }
      if e.date.date !in Dates(days) {
        DaySumAbsent(init, e.date.date, ImportType);
        DaySumAbsent(init, e.date.date, ExportType);
      }
      AddEntrySums(days, init, e);
    }
  }

  /** The chart of the dashboard: the searched entries grouped by day. With
      a keyword no product name contains, the chart is empty. */
  lemma DashboardDays(products: seq<Product>, entries: seq<LedgerEntry>, f: Search)
    ensures var days := DayTotals(Transactions(products, entries, f));
            Ascending(days) && Consistent(days, Transactions(products, entries, f))
            && (!IsNullOrEmpty(f.keyword) && SearchedProduct(products, f.keyword.value).None? ==> days == [])
  {
    DayTotalsCorrect(Transactions(products, entries, f));
  }
}

=== FILE: inventory.dfy ===
/** The inventory report: one row per product, in catalogue order, with the
    base quantity, the imported and exported totals, the resulting stock,
    and their values at the product's current list price. */
module Inventory {
  import opened Wrappers
  import opened Models
  import opened Stock
  import opened Repository

  /** One row of the report. */
  datatype InventoryRow = InventoryRow(
    productId: int,
    name: string,
    typeName: string,
    unit: string,
    price: real,
    initialQuantity: real,
    totalImported: real,
    totalExported: real,
    stock: real,
    totalImportValue: real,
    totalExportValue: real,
    totalStockValue: real)

  /** The row of product `p`. Every value is priced at the product's list
      price, whatever price the entries themselves carry. */
  function RowFor(p: Product, entries: seq<LedgerEntry>): (r: InventoryRow)
    ensures r.productId == p.id && r.name == p.name && r.unit == p.unit && r.price == p.price
    ensures r.typeName == ProductTypeName(p.productType)
    ensures r.initialQuantity == p.quantity
    ensures r.totalImported == Imported(entries, p.id) && r.totalExported == Exported(entries, p.id)
    ensures r.stock == StockOf(p, entries)
    ensures r.stock == r.initialQuantity + r.totalImported - r.totalExported
    ensures r.totalImportValue == r.totalImported * r.price && r.totalExportValue == r.totalExported * r.price
    ensures r.totalStockValue == r.stock * r.price
    ensures r.totalStockValue == r.initialQuantity * r.price + r.totalImportValue - r.totalExportValue
  {
    var imported := Imported(entries, p.id);
    var exported := Exported(entries, p.id);
    var stock := p.quantity + imported - exported;
    InventoryRow(p.id, p.name, ProductTypeName(p.productType), p.unit, p.price, p.quantity,
                 imported, exported, stock, imported * p.price, exported * p.price, stock * p.price)
  }

  /** Builds the report row by row. The context is only read. */
  method Index(db: DataContext) returns (rows: seq<InventoryRow>)
    ensures |rows| == |db.products|
    ensures forall i :: 0 <= i < |rows| ==> rows[i] == RowFor(db.products[i], db.entries)
  {
    var products := db.products;
    rows := [];
    var i := 0;
    while i < |products|
      invariant 0 <= i <= |products|
      invariant |rows| == i
      invariant forall j :: 0 <= j < i ==> rows[j] == RowFor(products[j], db.entries)
    {
      var p := products[i];
      var imported := Imported(db.entries, p.id);
      var exported := Exported(db.entries, p.id);
      var stock := p.quantity + imported - exported;
      rows := rows + [InventoryRow(p.id, p.name, ProductTypeName(p.productType), p.unit, p.price, p.quantity,
                                   imported, exported, stock, imported * p.price, exported * p.price, stock * p.price)];
      i := i + 1;
    }
  }

  /** Each row's stock agrees with the stock endpoints' reply for that
      product, as long as product ids are unique. */
  lemma RowAgreesWithStockReply(products: seq<Product>, entries: seq<LedgerEntry>, k: nat)
    requires k < |products|
    requires forall i, j :: 0 <= i < j < |products| ==> products[i].id != products[j].id
    ensures RowFor(products[k], entries).stock == ReplyStock(InventoryStock(products, entries, products[k].id))
  {
    StockReplyOf(products, entries, k);
  }

  /** One more import of `p` raises its row's stock by the imported
      quantity and its stock value by that quantity at list price; rows of
      other products stay as they were. */
  lemma {:induction false} RowAfterImport(p: Product, entries: seq<LedgerEntry>, e: LedgerEntry)
    requires e.transactionType == ImportType
    ensures e.productId == p.id ==>
              RowFor(p, entries + [e]).stock == RowFor(p, entries).stock + e.quantity
              && RowFor(p, entries + [e]).totalStockValue == RowFor(p, entries).totalStockValue + e.quantity * p.price
    ensures e.productId != p.id ==> RowFor(p, entries + [e]) == RowFor(p, entries)
  {
    TotalAppend(entries, e, p.id, ImportType, None);
    TotalAppend(entries, e, p.id, ExportType, None);
  }

  /** Likewise, one more export lowers the stock by the exported quantity. */
  lemma {:induction false} RowAfterExport(p: Product, entries: seq<LedgerEntry>, e: LedgerEntry)
    requires e.transactionType == ExportType
    ensures e.productId == p.id ==>
              RowFor(p, entries + [e]).stock == RowFor(p, entries).stock - e.quantity
              && RowFor(p, entries + [e]).totalStockValue == RowFor(p, entries).totalStockValue - e.quantity * p.price
    ensures e.productId != p.id ==> RowFor(p, entries + [e]) == RowFor(p, entries)
  {
    TotalAppend(entries, e, p.id, ImportType, None);
    TotalAppend(entries, e, p.id, ExportType, None);
  }
}

=== FILE: models.dfy ===
/** The entity records of the warehouse (products, ledger entries, sales
    orders, customers, production orders with their material lines, purchase
    orders), their enumerations with the integer codes the database stores,
    the record defaults, the computed `TotalValue` properties and the
    data-annotation ranges that form binding checks.

    `decimal(18,2)` amounts are `real`; nullable columns are `Option`. */
module Models {
  import opened Wrappers
  import opened Text
  import opened Calendar

  // ---------------------------------------------------------------------
  // Enumerations

  datatype ProductType = FinishedProduct | Material {
    function Code(): int {
      match this
      case FinishedProduct => 0
      case Material => 1
    }
  }

  /** The enum's member names, as `Enum.TryParse` matches them. */
  const ProductTypeNames: seq<string> := ["FinishedProduct", "Material"]

  /** The stored integer read back as a `ProductType`: exactly 0 and 1 are members. */
  function ProductTypeFromCode(c: int): (r: Option<ProductType>)
    ensures r.Some? <==> 0 <= c <= 1
    ensures r.Some? ==> r.value.Code() == c
  {
    if c == 0 then Some(FinishedProduct) else if c == 1 then Some(Material) else None
  }

  /** Customer-facing order state. */
  datatype OrderStatus = Created | DeliveredSuccess | DeliveredFailed {
    function Code(): int {
      match this
      case Created => 0
      case DeliveredSuccess => 1
      case DeliveredFailed => 2
    }
  }

  function OrderStatusFromCode(c: int): (r: Option<OrderStatus>)
    ensures r.Some? <==> 0 <= c <= 2
    ensures r.Some? ==> r.value.Code() == c
  {
    if c == 0 then Some(OrderStatus.Created)
    else if c == 1 then Some(DeliveredSuccess)
    else if c == 2 then Some(DeliveredFailed)
    else None
  }

  /** Warehouse-side order state. */
  datatype WarehouseOrderStatus =
    | Pending | Processing | WaitConfirm | Packing | Delivering | Delivered | Completed | Failed
  {
    function Code(): int {
      match this
      case Pending => 0
      case Processing => 1
      case WaitConfirm => 2
      case Packing => 3
      case Delivering => 4
      case Delivered => 5
      case Completed => 6
      case Failed => 7
    }
  }

  function WarehouseOrderStatusFromCode(c: int): (r: Option<WarehouseOrderStatus>)
    ensures r.Some? <==> 0 <= c <= 7
    ensures r.Some? ==> r.value.Code() == c
  {
    if c == 0 then Some(Pending)
    else if c == 1 then Some(Processing)
    else if c == 2 then Some(WaitConfirm)
    else if c == 3 then Some(Packing)
    else if c == 4 then Some(Delivering)
    else if c == 5 then Some(Delivered)
    else if c == 6 then Some(Completed)
    else if c == 7 then Some(Failed)
    else None
  }

  /** A C# enum variable can hold any integer of its underlying type, not only
      the named members; `Unnamed` stands for such a value. */
  datatype PaymentMethod = COD | MOMO | Unnamed(code: int) {
    function Code(): int {
      match this
      case COD => 0
      case MOMO => 1
      case Unnamed(c) => c
    }
  }

  function PaymentMethodFromCode(c: int): (r: PaymentMethod)
    ensures r.Code() == c
    ensures r.Unnamed? <==> c != 0 && c != 1
  {
    if c == 0 then COD else if c == 1 then MOMO else Unnamed(c)
  }

  datatype ProductionStatus = Created | InProgress | Done {
    function Code(): int {
      match this
      case Created => 0
      case InProgress => 1
      case Done => 2
    }
  }

  function ProductionStatusFromCode(c: int): (r: Option<ProductionStatus>)
    ensures r.Some? <==> 0 <= c <= 2
    ensures r.Some? ==> r.value.Code() == c
  {
    if c == 0 then Some(ProductionStatus.Created)
    else if c == 1 then Some(InProgress)
    else if c == 2 then Some(Done)
    else None
  }

  datatype PurchaseStatus = Created | Ordered | Received | Canceled {
    function Code(): int {
      match this
      case Created => 0
      case Ordered => 1
      case Received => 2
      case Canceled => 3
    }
  }

  function PurchaseStatusFromCode(c: int): (r: Option<PurchaseStatus>)
    ensures r.Some? <==> 0 <= c <= 3
    ensures r.Some? ==> r.value.Code() == c
  {
    if c == 0 then Some(PurchaseStatus.Created)
    else if c == 1 then Some(Ordered)
    else if c == 2 then Some(Received)
    else if c == 3 then Some(Canceled)
    else None
  }

  /** Every member's code reads back as that member. */
  lemma EnumCodesRoundTrip(t: ProductType, s: OrderStatus, w: WarehouseOrderStatus,
                           ps: ProductionStatus, pu: PurchaseStatus)
    ensures ProductTypeFromCode(t.Code()) == Some(t)
    ensures OrderStatusFromCode(s.Code()) == Some(s)
    ensures WarehouseOrderStatusFromCode(w.Code()) == Some(w)
    ensures ProductionStatusFromCode(ps.Code()) == Some(ps)
    ensures PurchaseStatusFromCode(pu.Code()) == Some(pu)
  {
  }

  // ---------------------------------------------------------------------
  // Records

  /** A catalogue item. `quantity` is the base ("initial") quantity that the
      stock formula starts from. */
  datatype Product = Product(
    id: int,
    name: string,
    quantity: real,
    unit: string,
    productType: ProductType,
    image: Option<string>,
    price: real)

  /** One row of the warehouse ledger (an import or export slip). */
  datatype LedgerEntry = LedgerEntry(
    id: int,
    productId: int,
    supplierId: Option<int>,
    quantity: real,
    date: DateTime,
    transactionType: string,
    notes: string,
    unit: Option<string>,
    unitPrice: real)
  {
    function TotalValue(): real { quantity * unitPrice }
  }

  const ImportType: string := "Import"
  const ExportType: string := "Export"

  datatype Customer = Customer(
    id: int,
    name: Option<string>,
    address: Option<string>,
    phone: Option<string>,
    email: Option<string>,
    userEmail: Option<string>)

  /** A sales order, with the customer details copied onto it when it was
      placed or last edited. */
  datatype Order = Order(
    id: int,
    orderNumber: Option<string>,
    productId: int,
    customerId: int,
    quantity: real,
    unit: Option<string>,
    description: Option<string>,
    orderDate: DateTime,
    deliveryDate: Option<DateTime>,
    status: OrderStatus,
    warehouseStatus: WarehouseOrderStatus,
    paymentMethod: PaymentMethod,
    unitPrice: real,
    customerName: Option<string>,
    customerAddress: Option<string>,
    customerPhone: Option<string>,
    customerEmail: Option<string>)
  {
    function TotalValue(): real { quantity * unitPrice }
  }

  /** A planned material consumption of a production order. */
  datatype MaterialLine = MaterialLine(
    materialId: int,
    plannedQuantity: real,
    unit: Option<string>,
    unitPrice: real)
  {
    function Cost(): real { plannedQuantity * unitPrice }
  }

  datatype ProductionOrder = ProductionOrder(
    id: int,
    orderNumber: string,
    productId: int,
    quantity: real,
    unitPrice: real,
    startDate: DateTime,
    plannedEndDate: Option<DateTime>,
    endDate: Option<DateTime>,
    notes: Option<string>,
    status: ProductionStatus,
    materials: seq<MaterialLine>)
  {
    function TotalValue(): real { quantity * unitPrice }
  }

  datatype PurchaseOrder = PurchaseOrder(
    id: int,
    purchaseNumber: Option<string>,
    productId: int,
    supplierId: int,
    quantity: real,
    unit: Option<string>,
    unitPrice: real,
    description: Option<string>,
    orderDate: DateTime,
    receivedDate: Option<DateTime>,
    status: PurchaseStatus)
  {
    function TotalValue(): real { quantity * unitPrice }
  }

  // ---------------------------------------------------------------------
  // Defaults of a freshly constructed record (`new XModel()` at instant `now`)

  function NewOrder(now: DateTime): (o: Order)
    ensures o.status == OrderStatus.Created && o.warehouseStatus == Pending && o.paymentMethod == COD
    ensures o.orderDate == now && o.deliveryDate.None?
  {
    Order(0, None, 0, 0, 0.0, None, None, now, None, OrderStatus.Created, Pending, COD, 0.0,
          None, None, None, None)
  }

  function NewProductionOrder(now: DateTime): (o: ProductionOrder)
    ensures o.status == ProductionStatus.Created && o.materials == [] && o.orderNumber == ""
    ensures o.unitPrice == 0.0 && o.startDate == now && o.endDate.None?
  {
    ProductionOrder(0, "", 0, 0.0, 0.0, now, None, None, None, ProductionStatus.Created, [])
  }

  function NewPurchaseOrder(now: DateTime): (o: PurchaseOrder)
    ensures o.status == PurchaseStatus.Created && o.receivedDate.None? && o.orderDate == now
  {
    PurchaseOrder(0, None, 0, 0, 0.0, None, 0.0, None, now, None, PurchaseStatus.Created)
  }

  // ---------------------------------------------------------------------
  // Data-annotation checks made at form binding

  /** `[Required]` on a string: present and not blank. */
  predicate Required(s: Option<string>) {
    !IsNullOrWhiteSpace(s)
  }

  /** `[StringLength(n)]`: an absent value passes. */
  predicate AtMost(s: Option<string>, n: nat) {
    s.None? || |s.value| <= n
  }

  const MaxQuantity: real := 9999999999.0
  const MaxEntryPrice: real := 999999999.0

  predicate InRange(x: real, lo: real, hi: real) {
    lo <= x <= hi
  }

  predicate LedgerEntryValid(e: LedgerEntry) {
    InRange(e.quantity, 0.01, MaxQuantity)
    && InRange(e.unitPrice, 0.0, MaxEntryPrice)
    && Required(Some(e.transactionType)) && |e.transactionType| <= 50
    && Required(Some(e.notes)) && |e.notes| <= 200
    && Required(e.unit) && AtMost(e.unit, 100)
  }

  predicate ProductValid(p: Product) {
    Required(Some(p.name)) && |p.name| <= 100
    && InRange(p.quantity, 0.0, MaxQuantity)
    && Required(Some(p.unit)) && |p.unit| <= 100
    && InRange(p.price, 0.0, MaxQuantity)
  }

  predicate OrderValid(o: Order) {
    Required(o.orderNumber) && AtMost(o.orderNumber, 64)
    && Required(o.unit) && AtMost(o.unit, 100)
    && AtMost(o.description, 500)
    && AtMost(o.customerName, 200) && AtMost(o.customerAddress, 500)
    && AtMost(o.customerPhone, 20) && AtMost(o.customerEmail, 100)
    && (o.customerEmail.None? || EmailShape(o.customerEmail.value))
  }

  predicate MaterialLineValid(m: MaterialLine) {
    InRange(m.plannedQuantity, 0.0, MaxQuantity)
    && Required(m.unit) && AtMost(m.unit, 50)
    && InRange(m.unitPrice, 0.0, MaxQuantity)
  }

  predicate ProductionOrderValid(o: ProductionOrder) {
    Required(Some(o.orderNumber)) && |o.orderNumber| <= 64
    && InRange(o.quantity, 0.0, MaxQuantity)
    && InRange(o.unitPrice, 0.0, MaxQuantity)
    && AtMost(o.notes, 500)
  }

  predicate PurchaseOrderValid(o: PurchaseOrder) {
    AtMost(o.purchaseNumber, 64) && Required(o.unit) && AtMost(o.unit, 100) && AtMost(o.description, 500)
  }

  /** A product of a product and a factor within their ranges stays within
      the product of the bounds. */
  lemma ProductWithin(a: real, b: real, amax: real, bmax: real)
    requires 0.0 <= a <= amax && 0.0 <= b <= bmax
    ensures 0.0 <= a * b <= amax * bmax
  {
    assert a * b <= amax * b;
    assert amax * b <= amax * bmax;
  }

  /** A ledger entry that passed validation has a non-negative value bounded
      by the two range limits. */
  lemma EntryValueBounded(e: LedgerEntry)
    requires LedgerEntryValid(e)
    ensures 0.0 < e.quantity && 0.0 <= e.TotalValue() <= MaxQuantity * MaxEntryPrice
  {
    ProductWithin(e.quantity, e.unitPrice, MaxQuantity, MaxEntryPrice);
  }

  /** A valid production order and valid material lines have non-negative
      value and cost. */
  lemma ProductionValuesNonNegative(o: ProductionOrder)
    requires ProductionOrderValid(o)
    requires forall i :: 0 <= i < |o.materials| ==> MaterialLineValid(o.materials[i])
    ensures 0.0 <= o.TotalValue() <= MaxQuantity * MaxQuantity
    ensures forall i :: 0 <= i < |o.materials| ==> 0.0 <= o.materials[i].Cost()
  {
    ProductWithin(o.quantity, o.unitPrice, MaxQuantity, MaxQuantity);
    forall i | 0 <= i < |o.materials| ensures 0.0 <= o.materials[i].Cost() {
      var m := o.materials[i];
      ProductWithin(m.plannedQuantity, m.unitPrice, MaxQuantity, MaxQuantity);
    }
  }

  /** The product-type caption of the inventory list. */
  function ProductTypeName(t: ProductType): (r: string)
    ensures r == "Thành phẩm" <==> t == FinishedProduct
    ensures r == "Nguyên liệu" <==> t == Material
  {
    if t.Code() == 0 then "Thành phẩm" else "Nguyên liệu"
  }

  /** The payment-method caption of the warehouse order export. */
  function PaymentLabel(p: PaymentMethod): (r: string)
    ensures p == COD ==> r == "Thanh toán khi nhận hàng (COD)"
    ensures p == MOMO ==> r == "Chuyển khoản Momo"
    ensures r == "Không xác định" <==> p.Unnamed?
  {
    match p
    case COD => "Thanh toán khi nhận hàng (COD)"
    case MOMO => "Chuyển khoản Momo"
    case _ => "Không xác định"
  }
}

=== FILE: orders.dfy ===
/** Sales orders: placing an order behind a stock check, the daily order
    number, the customer details copied onto the order, and the edit that
    books the delivery export the first time an order is marked as
    delivered. */
module Orders {
  import opened Wrappers
  import opened Text
  import opened Calendar
  import opened Models
  import opened Stock
  import opened Repository

  // ---------------------------------------------------------------------
  // Order numbers: "DH-yyyyMMdd-NNNN"

  /** `today <= o.OrderDate && o.OrderDate < today.AddDays(1)`. */
  predicate PlacedToday(o: Order, today: Date) {
    NotLater(Midnight(today), o.orderDate) && BeforeDayAfter(o.orderDate, Midnight(today))
  }

  /** The number of orders in the window above. */
  function CountToday(orders: seq<Order>, today: Date): nat
    decreases |orders|
  {
    if orders == [] then 0
    else CountToday(orders[..|orders| - 1], today) + (if PlacedToday(orders[|orders| - 1], today) then 1 else 0)
  }

  /** Reference count: the orders whose date is `d`. */
  function CountOnDate(orders: seq<Order>, d: Date): (n: nat)
    ensures n <= |orders|
    decreases |orders|
  {
    if orders == [] then 0
    else CountOnDate(orders[..|orders| - 1], d) + (if orders[|orders| - 1].orderDate.date == d then 1 else 0)
  }

  /** The window counts exactly the orders dated today. */
  lemma {:induction false} CountTodayIsCountOnDate(orders: seq<Order>, today: Date)
    ensures CountToday(orders, today) == CountOnDate(orders, today)
    decreases |orders|
  {
    if orders != [] {
      CountTodayIsCountOnDate(orders[..|orders| - 1], today);
      TodayWindow(orders[|orders| - 1].orderDate, today);
    }
  }

  /** `GenerateOrderNumber()` at instant `now`. */
  function GenerateOrderNumber(orders: seq<Order>, now: DateTime): (r: string)
    ensures |r| >= 16 && r[..3] == "DH-" && r[3..11] == DateStamp(now.date) && r[11] == '-'
    ensures AllDigits(r[12..])
  {
    DateStampRoundTrip(now.date);
    var pad := Pad(CountToday(orders, now.date) + 1, 4);
    var r := "DH-" + DateStamp(now.date) + "-" + pad;
    assert r[12..] == pad;
    r
  }

  /** The number reads back as the prefix, today's date and a serial one
      above the number of orders already placed today; below 10000 orders a
      day it is exactly 16 characters long. */
  lemma {:induction false} OrderNumberParts(orders: seq<Order>, now: DateTime)
    ensures var r := GenerateOrderNumber(orders, now);
            && r[..3] == "DH-" && r[3..11] == DateStamp(now.date) && r[11] == '-'
            && AllDigits(r[12..]) && DigitsValue(r[12..]) == CountOnDate(orders, now.date) + 1
            && (CountOnDate(orders, now.date) < 9999 ==> |r| == 16)
  {
    var r := GenerateOrderNumber(orders, now);
    var n := CountToday(orders, now.date) + 1;
    CountTodayIsCountOnDate(orders, now.date);
    DateStampRoundTrip(now.date);
    PadRoundTrip(n, 4);
    assert Pow10(4) == 10000;
    assert r == "DH-" + DateStamp(now.date) + "-" + Pad(n, 4);
    assert r[12..] == Pad(n, 4);
  }

  // ---------------------------------------------------------------------
  // Customer details

  /** Creating an order as a customer: a field of the stored customer is
      taken from the form only when it is blank. */
  function FillBlank(current: Option<string>, offered: Option<string>): Option<string> {
    if IsNullOrWhiteSpace(current) then offered else current
  }

  /** Editing an order: a non-blank form field replaces the stored one. */
  function Overwrite(current: Option<string>, offered: Option<string>): Option<string> {
    if IsNullOrWhiteSpace(offered) then current else offered
  }

  /** Filling only blanks keeps every non-blank stored value, leaves a field
      blank only when both sides are blank, and is idempotent. */
  lemma FillBlankLaws(current: Option<string>, offered: Option<string>)
    ensures !IsNullOrWhiteSpace(current) ==> FillBlank(current, offered) == current
    ensures IsNullOrWhiteSpace(FillBlank(current, offered)) <==> IsNullOrWhiteSpace(current) && IsNullOrWhiteSpace(offered)
    ensures FillBlank(FillBlank(current, offered), offered) == FillBlank(current, offered)
  {
  }

  /** Overwriting lets every non-blank offered value win, never blanks a
      stored value, and is idempotent. */
  lemma OverwriteLaws(current: Option<string>, offered: Option<string>)
    ensures !IsNullOrWhiteSpace(offered) ==> Overwrite(current, offered) == offered
    ensures IsNullOrWhiteSpace(Overwrite(current, offered)) <==> IsNullOrWhiteSpace(current) && IsNullOrWhiteSpace(offered)
    ensures Overwrite(Overwrite(current, offered), offered) == Overwrite(current, offered)
  {
  }

  function FillBlanks(c: Customer, form: Order): Customer {
    c.(name := FillBlank(c.name, form.customerName),
       address := FillBlank(c.address, form.customerAddress),
       phone := FillBlank(c.phone, form.customerPhone))
  }

  function OverwriteDetails(c: Customer, form: Order): Customer {
    c.(name := Overwrite(c.name, form.customerName),
       address := Overwrite(c.address, form.customerAddress),
       phone := Overwrite(c.phone, form.customerPhone))
  }

  /** The order's copy of the customer: id, name, address, phone and email. */
  function CopyCustomer(o: Order, c: Customer): Order {
    o.(customerId := c.id, customerName := c.name, customerAddress := c.address,
       customerPhone := c.phone, customerEmail := c.email)
  }

  /** The order's copy of the customer without the id (the edit keeps the
      order's customer). */
  function RefreshDetails(o: Order, c: Customer): Order {
    o.(customerName := c.name, customerAddress := c.address, customerPhone := c.phone, customerEmail := c.email)
  }

  /** The customer registered for a signed-in e-mail: the first one whose
      e-mail or login e-mail equals it. */
  function FindByEmail(customers: seq<Customer>, userEmail: Option<string>): (r: Option<nat>)
    ensures r.Some? ==> r.value < |customers|
                        && (customers[r.value].email == userEmail || customers[r.value].userEmail == userEmail)
    ensures r.Some? ==> forall j :: 0 <= j < r.value ==>
                          customers[j].email != userEmail && customers[j].userEmail != userEmail
    ensures r.None? <==> forall j :: 0 <= j < |customers| ==>
                           customers[j].email != userEmail && customers[j].userEmail != userEmail
  {
    FirstIndex(customers, (c: Customer) => c.email == userEmail || c.userEmail == userEmail)
  }

  /** The customer created for a signed-in customer with no record yet:
      a missing name falls back to the e-mail, a missing address or phone to
      the empty string. */
  function NewCustomer(id: int, form: Order, userEmail: Option<string>): (c: Customer)
    ensures c.id == id && c.email == userEmail && c.userEmail == userEmail
    ensures c.name == (if form.customerName.Some? then form.customerName else userEmail)
    ensures c.address.Some? && c.phone.Some?
    ensures form.customerAddress.Some? ==> c.address == form.customerAddress
    ensures form.customerPhone.Some? ==> c.phone == form.customerPhone
    ensures form.customerAddress.None? ==> c.address == Some("")
    ensures form.customerPhone.None? ==> c.phone == Some("")
  {
    Customer(id, if form.customerName.Some? then form.customerName else userEmail,
             Some(form.customerAddress.OrElse("")), Some(form.customerPhone.OrElse("")),
             userEmail, userEmail)
  }

  // ---------------------------------------------------------------------
  // Create

  /** The submitted order completed with its number, date, warehouse status
      and the product's unit and price where none was entered. */
  function Placed(form: Order, p: Product, orders: seq<Order>, now: DateTime, id: int): (r: Order)
    ensures r.id == id && r.orderDate == now && r.warehouseStatus == Pending
    ensures !IsNullOrEmpty(r.orderNumber)
    ensures !IsNullOrEmpty(form.orderNumber) ==> r.orderNumber == form.orderNumber
    ensures IsNullOrEmpty(form.orderNumber) ==> r.orderNumber == Some(GenerateOrderNumber(orders, now))
    ensures !IsNullOrWhiteSpace(r.unit) || r.unit == Some(p.unit)
    ensures !IsNullOrWhiteSpace(form.unit) ==> r.unit == form.unit
    ensures r.unitPrice == (if form.unitPrice > 0.0 then form.unitPrice else p.price)
    ensures r.(id := form.id, orderNumber := form.orderNumber, orderDate := form.orderDate,
               warehouseStatus := form.warehouseStatus, unit := form.unit, unitPrice := form.unitPrice) == form
  {
    form.(id := id,
          orderNumber := if IsNullOrEmpty(form.orderNumber) then Some(GenerateOrderNumber(orders, now)) else form.orderNumber,
          orderDate := now,
          warehouseStatus := Pending,
          unit := if IsNullOrWhiteSpace(form.unit) then Some(p.unit) else form.unit,
          unitPrice := if form.unitPrice <= 0.0 then p.price else form.unitPrice)
  }

  /** Places an order. Nothing is stored when the product is missing, out of
      stock (computed stock at most zero) or short of the quantity. A
      signed-in customer's record is completed (blank fields only) or
      created, and the order copies its details; for staff the submitted
      customer and details are kept. The ledger and the products are never
      touched. */
  method Create(db: DataContext, form: Order, now: DateTime, isCustomer: bool, userEmail: Option<string>)
    returns (outcome: Outcome)
    requires db.Valid()
    modifies db
    ensures db.Valid()
    ensures FindProduct(old(db.products), form.productId).None? ==>
              outcome == NotFound && db.State() == old(db.State())
    ensures FindProduct(old(db.products), form.productId).Some? ==>
              var p := old(db.products)[FindProduct(old(db.products), form.productId).value];
              var stock := StockOf(p, old(db.entries));
              if stock <= 0.0 then
                outcome == Rejected(OutOfStock) && db.State() == old(db.State())
              else if form.quantity > stock then
                outcome == Rejected(InsufficientStock) && db.State() == old(db.State())
              else
                var o := Placed(form, p, old(db.orders), now, old(db.nextOrderId));
                outcome == Saved
                && if !isCustomer then
                     db.State() == old(db.State()).(orders := old(db.orders) + [o], nextOrderId := old(db.nextOrderId) + 1)
                   else if FindByEmail(old(db.customers), userEmail).Some? then
                     var j := FindByEmail(old(db.customers), userEmail).value;
                     var c := FillBlanks(old(db.customers)[j], form);
                     db.State() == old(db.State()).(orders := old(db.orders) + [CopyCustomer(o, c)],
                                                    nextOrderId := old(db.nextOrderId) + 1,
                                                    customers := old(db.customers)[j := c])
                   else
                     var c := NewCustomer(old(db.nextCustomerId), form, userEmail);
                     db.State() == old(db.State()).(orders := old(db.orders) + [CopyCustomer(o, c)],
                                                    nextOrderId := old(db.nextOrderId) + 1,
                                                    customers := old(db.customers) + [c],
                                                    nextCustomerId := old(db.nextCustomerId) + 1)
    // what every stored order looks like
    ensures outcome == Saved ==>
              |db.orders| == |old(db.orders)| + 1 && db.orders[..|old(db.orders)|] == old(db.orders)
              && var o := db.orders[|db.orders| - 1];
                 && o.orderDate == now && o.warehouseStatus == Pending && o.status == form.status
                 && o.quantity == form.quantity && o.productId == form.productId
                 && !IsNullOrEmpty(o.orderNumber)
                 && (IsNullOrWhiteSpace(form.unit) ==> o.unit == Some(old(db.products)[FindProduct(old(db.products), form.productId).value].unit))
                 && (form.unitPrice <= 0.0 ==> o.unitPrice == old(db.products)[FindProduct(old(db.products), form.productId).value].price)
                 && (form.unitPrice > 0.0 ==> o.unitPrice == form.unitPrice)
    ensures outcome == Saved && isCustomer ==>
              var o := db.orders[|db.orders| - 1];
              exists j :: 0 <= j < |db.customers| && db.customers[j].id == o.customerId
                          && o.customerName == db.customers[j].name && o.customerAddress == db.customers[j].address
                          && o.customerPhone == db.customers[j].phone && o.customerEmail == db.customers[j].email
    ensures db.products == old(db.products) && db.entries == old(db.entries)
  {
    var found := FindProduct(db.products, form.productId);
    if found.None? {
      return NotFound;
    }
    var p := db.products[found.value];
    var currentStock := StockOf(p, db.entries);
    if currentStock <= 0.0 {
      return Rejected(OutOfStock);
    }
    if form.quantity > currentStock {
      return Rejected(InsufficientStock);
    }
    var o := Placed(form, p, db.orders, now, db.nextOrderId);
    assert !IsNullOrEmpty(o.orderNumber) by {
      if IsNullOrEmpty(form.orderNumber) {
        assert GenerateOrderNumber(db.orders, now)[..3] == "DH-";
      }
    }
    PlaceOrder(db, o, form, isCustomer, userEmail);
    outcome := Saved;
  }

  /** Stores an accepted order, after recording a signed-in customer. */
  method PlaceOrder(db: DataContext, o: Order, form: Order, isCustomer: bool, userEmail: Option<string>)
    requires db.Valid() && o.id == db.nextOrderId
    modifies db
    ensures db.Valid()
    ensures !isCustomer ==>
              db.State() == old(db.State()).(orders := old(db.orders) + [o], nextOrderId := old(db.nextOrderId) + 1)
    ensures isCustomer && FindByEmail(old(db.customers), userEmail).Some? ==>
              var j := FindByEmail(old(db.customers), userEmail).value;
              var c := FillBlanks(old(db.customers)[j], form);
              db.State() == old(db.State()).(orders := old(db.orders) + [CopyCustomer(o, c)],
                                             nextOrderId := old(db.nextOrderId) + 1,
                                             customers := old(db.customers)[j := c])
    ensures isCustomer && FindByEmail(old(db.customers), userEmail).None? ==>
              var c := NewCustomer(old(db.nextCustomerId), form, userEmail);
              db.State() == old(db.State()).(orders := old(db.orders) + [CopyCustomer(o, c)],
                                             nextOrderId := old(db.nextOrderId) + 1,
                                             customers := old(db.customers) + [c],
                                             nextCustomerId := old(db.nextCustomerId) + 1)
    ensures isCustomer ==>
              var placed := db.orders[|db.orders| - 1];
              exists j :: 0 <= j < |db.customers| && db.customers[j].id == placed.customerId
                          && placed.customerName == db.customers[j].name && placed.customerAddress == db.customers[j].address
                          && placed.customerPhone == db.customers[j].phone && placed.customerEmail == db.customers[j].email
  {
    var placed := o;
    if isCustomer {
      placed := AttachCustomer(db, o, form, userEmail);
    }
    AppendOrder(db, placed);
  }

  /** `_db.Orders.Add(order)`: the order is stored under the next id. */
  method AppendOrder(db: DataContext, o: Order)
    requires db.Valid() && o.id == db.nextOrderId
    modifies db
    ensures db.Valid()
    ensures db.State() == old(db.State()).(orders := old(db.orders) + [o], nextOrderId := old(db.nextOrderId) + 1)
  {
    db.orders := db.orders + [o];
    db.nextOrderId := db.nextOrderId + 1;
  }

  /** The signed-in customer's record: completed where blank, or created;
      the order then copies its details. */
  method AttachCustomer(db: DataContext, o: Order, form: Order, userEmail: Option<string>) returns (placed: Order)
    requires db.Valid()
    modifies db
    ensures db.Valid()
    ensures FindByEmail(old(db.customers), userEmail).Some? ==>
              var j := FindByEmail(old(db.customers), userEmail).value;
              var c := FillBlanks(old(db.customers)[j], form);
              placed == CopyCustomer(o, c) && db.State() == old(db.State()).(customers := old(db.customers)[j := c])
    ensures FindByEmail(old(db.customers), userEmail).None? ==>
              var c := NewCustomer(old(db.nextCustomerId), form, userEmail);
              placed == CopyCustomer(o, c)
              && db.State() == old(db.State()).(customers := old(db.customers) + [c],
                                                nextCustomerId := old(db.nextCustomerId) + 1)
    ensures exists j :: 0 <= j < |db.customers| && db.customers[j].id == placed.customerId
                        && placed.customerName == db.customers[j].name && placed.customerAddress == db.customers[j].address
                        && placed.customerPhone == db.customers[j].phone && placed.customerEmail == db.customers[j].email
  {
    var existing := FindByEmail(db.customers, userEmail);
    if existing.Some? {
      var j := existing.value;
      var c := FillBlanks(db.customers[j], form);
      db.customers := db.customers[j := c];
      placed := CopyCustomer(o, c);
      assert db.customers[j] == c;
    } else {
      var c := NewCustomer(db.nextCustomerId, form, userEmail);
      db.customers := db.customers + [c];
      db.nextCustomerId := db.nextCustomerId + 1;
      placed := CopyCustomer(o, c);
      assert db.customers[|db.customers| - 1] == c;
    }
  }

  // ---------------------------------------------------------------------
  // Edit

  /** The stored order with the editable fields taken from the form; the
      number, date, customer and warehouse status are kept. */
  function Edited(stored: Order, form: Order): (r: Order)
    ensures r == form.(id := stored.id, orderNumber := stored.orderNumber, orderDate := stored.orderDate,
                     customerId := stored.customerId, warehouseStatus := stored.warehouseStatus,
                     customerName := stored.customerName, customerAddress := stored.customerAddress,
                     customerPhone := stored.customerPhone, customerEmail := stored.customerEmail)
  {
    stored.(productId := form.productId, quantity := form.quantity, unit := form.unit,
            unitPrice := form.unitPrice, description := form.description,
            deliveryDate := form.deliveryDate, status := form.status,
            paymentMethod := form.paymentMethod)
  }

  /** The order is being marked as delivered just now. */
  predicate JustDelivered(stored: Order, form: Order) {
    stored.status != form.status && form.status == DeliveredSuccess
  }

  /** The edit books a delivery export exactly when the order has just been
      marked as delivered and the warehouse has not already marked it
      delivered. */
  predicate ExportDue(stored: Order, form: Order) {
    JustDelivered(stored, form) && stored.warehouseStatus != Delivered
  }

  /** `$"Xuất kho theo đơn hàng {order.OrderNumber}"`; a missing number
      prints as nothing. */
  function DeliveryNote(orderNumber: Option<string>): string {
    "Xuất kho theo đơn hàng " + orderNumber.OrElse("")
  }

  /** The delivery export: the order's product and quantity, the product's
      unit and catalogue price, no supplier. */
  function DeliveryExport(id: int, o: Order, p: Product, now: DateTime): (r: LedgerEntry)
    ensures r.id == id && r.transactionType == ExportType && r.date == now
    ensures r.productId == o.productId && r.quantity == o.quantity && r.supplierId.None?
    ensures r.unit == Some(p.unit) && r.unitPrice == p.price
    ensures r.notes == DeliveryNote(o.orderNumber)
  {
    LedgerEntry(id, o.productId, None, o.quantity, now, ExportType, DeliveryNote(o.orderNumber), Some(p.unit), p.price)
  }

  /** The order and its customer after the field copy and the customer
      refresh, before any delivery export. */
  function EditedWithCustomer(customers: seq<Customer>, stored: Order, form: Order): (o: Order)
    ensures o.id == stored.id && o.orderNumber == stored.orderNumber && o.orderDate == stored.orderDate
    ensures o.customerId == stored.customerId && o.warehouseStatus == stored.warehouseStatus
    ensures o.productId == form.productId && o.quantity == form.quantity && o.unit == form.unit
    ensures o.unitPrice == form.unitPrice && o.description == form.description
    ensures o.deliveryDate == form.deliveryDate && o.status == form.status && o.paymentMethod == form.paymentMethod
    ensures FindCustomer(customers, stored.customerId).Some? ==>
              var c := customers[FindCustomer(customers, stored.customerId).value];
              o.customerName == Overwrite(c.name, form.customerName)
              && o.customerAddress == Overwrite(c.address, form.customerAddress)
              && o.customerPhone == Overwrite(c.phone, form.customerPhone)
              && o.customerEmail == c.email
    ensures FindCustomer(customers, stored.customerId).None? ==>
              o.customerName == stored.customerName && o.customerAddress == stored.customerAddress
              && o.customerPhone == stored.customerPhone && o.customerEmail == stored.customerEmail
  {
    var o := Edited(stored, form);
    match FindCustomer(customers, o.customerId)
    case None => o
    case Some(j) => RefreshDetails(o, OverwriteDetails(customers[j], form))
  }

  /** The customers after the edit: only the order's customer changes, and
      it takes the form's non-blank name, address and phone. */
  function CustomersAfterEdit(customers: seq<Customer>, stored: Order, form: Order): (r: seq<Customer>)
    ensures |r| == |customers|
    ensures forall i :: 0 <= i < |r| ==> r[i].id == customers[i].id
    ensures FindCustomer(customers, stored.customerId).None? ==> r == customers
    ensures FindCustomer(customers, stored.customerId).Some? ==>
              var j := FindCustomer(customers, stored.customerId).value;
              (forall i :: 0 <= i < |r| && i != j ==> r[i] == customers[i])
              && r[j].name == Overwrite(customers[j].name, form.customerName)
              && r[j].address == Overwrite(customers[j].address, form.customerAddress)
              && r[j].phone == Overwrite(customers[j].phone, form.customerPhone)
              && r[j].email == customers[j].email && r[j].userEmail == customers[j].userEmail
  {
    match FindCustomer(customers, stored.customerId)
    case None => customers
    case Some(j) => customers[j := OverwriteDetails(customers[j], form)]
  }

  /** After an edit the order's snapshot agrees with its customer's stored
      record: name, address, phone and e-mail. */
  lemma EditSnapshotMatchesCustomer(customers: seq<Customer>, stored: Order, form: Order)
    requires FindCustomer(customers, stored.customerId).Some?
    ensures var j := FindCustomer(customers, stored.customerId).value;
            var c := CustomersAfterEdit(customers, stored, form)[j];
            var o := EditedWithCustomer(customers, stored, form);
            o.customerId == c.id && o.customerName == c.name && o.customerAddress == c.address
            && o.customerPhone == c.phone && o.customerEmail == c.email
  {
  }

  /** Edits an order. The editable fields are copied from the form, the
      order's customer takes the non-blank details of the form and the order
      copies them back. When the order has just been marked as delivered and
      the warehouse has not delivered it yet, an export of the order's
      quantity is booked, the product's base quantity falls by that
      quantity, the order is stamped delivered now and its warehouse status
      becomes Delivered; a missing product or a stock short of the quantity
      stops the action before anything is saved. */
  method Edit(db: DataContext, form: Order, now: DateTime) returns (outcome: Outcome)
    requires db.Valid()
    modifies db
    ensures db.Valid()
    ensures FindOrder(old(db.orders), form.id).None? ==> outcome == NotFound && db.State() == old(db.State())
    ensures FindOrder(old(db.orders), form.id).Some? ==>
              var k := FindOrder(old(db.orders), form.id).value;
              var stored := old(db.orders)[k];
              var o := EditedWithCustomer(old(db.customers), stored, form);
              var customers := CustomersAfterEdit(old(db.customers), stored, form);
              if !ExportDue(stored, form) then
                outcome == Saved
                && db.State() == old(db.State()).(orders := old(db.orders)[k := o], customers := customers)
              else if FindProduct(old(db.products), form.productId).None? then
                outcome == NotFound && db.State() == old(db.State())
              else
                var pk := FindProduct(old(db.products), form.productId).value;
                var p := old(db.products)[pk];
                if form.quantity > StockOf(p, old(db.entries)) then
                  outcome == Rejected(InsufficientStock) && db.State() == old(db.State())
                else
                  outcome == Saved
                  && db.State() == old(db.State()).(
                       orders := old(db.orders)[k := o.(deliveryDate := Some(now), warehouseStatus := Delivered)],
                       customers := customers,
                       entries := old(db.entries) + [DeliveryExport(old(db.nextEntryId), o, p, now)],
                       nextEntryId := old(db.nextEntryId) + 1,
                       products := old(db.products)[pk := p.(quantity := p.quantity - form.quantity)])
  {
    var found := FindOrder(db.orders, form.id);
    if found.None? {
      return NotFound;
    }
    var k := found.value;
    var stored := db.orders[k];
    var o := EditedWithCustomer(db.customers, stored, form);
    var customers := CustomersAfterEdit(db.customers, stored, form);
    if stored.status != form.status && form.status == DeliveredSuccess && o.warehouseStatus != Delivered {
      outcome := Deliver(db, k, o, customers, now);
    } else {
      StoreEdit(db, k, o, customers);
      outcome := Saved;
    }
  }

  /** The delivery branch of the edit: the stock check, then the export,
      the delivery stamp and the warehouse status, saved with the edit. */
  method Deliver(db: DataContext, k: nat, o: Order, customers: seq<Customer>, now: DateTime) returns (outcome: Outcome)
    requires db.Valid() && k < |db.orders| && o.id == db.orders[k].id
    requires |customers| == |db.customers| && forall i :: 0 <= i < |customers| ==> customers[i].id == db.customers[i].id
    modifies db
    ensures db.Valid()
    ensures FindProduct(old(db.products), o.productId).None? ==> outcome == NotFound && db.State() == old(db.State())
    ensures FindProduct(old(db.products), o.productId).Some? ==>
              var pk := FindProduct(old(db.products), o.productId).value;
              var p := old(db.products)[pk];
              if o.quantity > StockOf(p, old(db.entries)) then
                outcome == Rejected(InsufficientStock) && db.State() == old(db.State())
              else
                outcome == Saved
                && db.State() == old(db.State()).(
                     orders := old(db.orders)[k := o.(deliveryDate := Some(now), warehouseStatus := Delivered)],
                     customers := customers,
                     entries := old(db.entries) + [DeliveryExport(old(db.nextEntryId), o, p, now)],
                     nextEntryId := old(db.nextEntryId) + 1,
                     products := old(db.products)[pk := p.(quantity := p.quantity - o.quantity)])
  {
    var pfound := FindProduct(db.products, o.productId);
    if pfound.None? {
      return NotFound;
    }
    var pk := pfound.value;
    var p := db.products[pk];
    StockReplyOf(db.products, db.entries, pk);
    var currentStock := ReplyStock(InventoryStock(db.products, db.entries, p.id));
    if o.quantity > currentStock {
      return Rejected(InsufficientStock);
    }
    BookDeliveryExport(db, o, pk, now);
    StoreEdit(db, k, o.(deliveryDate := Some(now), warehouseStatus := Delivered), customers);
    outcome := Saved;
  }

  /** The ledger side of a delivery: the export entry and the lower base
      quantity. */
  method BookDeliveryExport(db: DataContext, o: Order, pk: nat, now: DateTime)
    requires db.Valid() && pk < |db.products| && db.products[pk].id == o.productId
    modifies db
    ensures db.Valid()
    ensures var p := old(db.products)[pk];
            db.State() == old(db.State()).(
              entries := old(db.entries) + [DeliveryExport(old(db.nextEntryId), o, p, now)],
              nextEntryId := old(db.nextEntryId) + 1,
              products := old(db.products)[pk := p.(quantity := p.quantity - o.quantity)])
  {
    var p := db.products[pk];
    db.entries := db.entries + [DeliveryExport(db.nextEntryId, o, p, now)];
    db.nextEntryId := db.nextEntryId + 1;
    db.products := db.products[pk := p.(quantity := p.quantity - o.quantity)];
  }

  /** Writes back the edited order (same id) and the customers (same ids). */
  method StoreEdit(db: DataContext, k: nat, o: Order, customers: seq<Customer>)
    requires db.Valid() && k < |db.orders| && o.id == db.orders[k].id
    requires |customers| == |db.customers| && forall i :: 0 <= i < |customers| ==> customers[i].id == db.customers[i].id
    modifies db
    ensures db.Valid()
    ensures db.State() == old(db.State()).(orders := old(db.orders)[k := o], customers := customers)
  {
    db.orders := db.orders[k := o];
    db.customers := customers;
  }

  /** Once the edit has booked the delivery export, saving the order again
      as delivered books nothing more: the status no longer changes and the
      warehouse status is Delivered. */
  lemma DeliveryExportOnce(stored: Order, form: Order, now: DateTime, again: Order)
    requires ExportDue(stored, form)
    requires again.status == DeliveredSuccess
    ensures !ExportDue(Edited(stored, form).(deliveryDate := Some(now), warehouseStatus := Delivered), again)
  {
  }

  /** The delivery export is counted twice by the stock formula (entry and
      base quantity): the product's stock falls by twice the order quantity,
      and its note names the order. */
  lemma DeliveryExportEffect(p: Product, entries: seq<LedgerEntry>, id: int, o: Order, now: DateTime)
    requires o.productId == p.id
    ensures StockOf(p.(quantity := p.quantity - o.quantity), entries + [DeliveryExport(id, o, p, now)])
            == StockOf(p, entries) - 2.0 * o.quantity
    ensures Contains(DeliveryExport(id, o, p, now).notes, o.orderNumber.OrElse(""))
  {
    var e := DeliveryExport(id, o, p, now);
    TotalAppend(entries, e, p.id, ImportType, None);
    TotalAppend(entries, e, p.id, ExportType, None);
    ContainsLabelled("Xuất kho theo đơn hàng ", o.orderNumber.OrElse(""));
  }

  // ---------------------------------------------------------------------
  // Delete

  /** Removing the order at `k` keeps the other orders' ids unique and
      under the identity counter, and leaves no order with its id. */
  lemma RemoveOrderKeepsIds(orders: seq<Order>, k: nat, nextId: int)
    requires k < |orders|
    requires forall i, j :: 0 <= i < j < |orders| ==> orders[i].id != orders[j].id
    requires forall i :: 0 <= i < |orders| ==> orders[i].id < nextId
    ensures var r := RemoveAt(orders, k);
            (forall i, j :: 0 <= i < j < |r| ==> r[i].id != r[j].id)
            && (forall i :: 0 <= i < |r| ==> r[i].id < nextId)
            && (forall o :: o in r ==> o in orders && o.id != orders[k].id)
  {
    var r := RemoveAt(orders, k);
    forall i, j | 0 <= i < j < |r| ensures r[i].id != r[j].id {
      var i' := if i < k then i else i + 1;
      var j' := if j < k then j else j + 1;
      assert r[i] == orders[i'] && r[j] == orders[j'];
    }
    forall o | o in r ensures o in orders && o.id != orders[k].id {
      var i :| 0 <= i < |r| && r[i] == o;
      var i' := if i < k then i else i + 1;
      assert o == orders[i'] && i' != k;
    }
  }

  /** Removes the order and nothing else: no ledger entry is reversed. */
  method Delete(db: DataContext, id: int) returns (outcome: Outcome)
    requires db.Valid()
    modifies db
    ensures db.Valid()
    ensures FindOrder(old(db.orders), id).None? ==> outcome == NotFound && db.State() == old(db.State())
    ensures FindOrder(old(db.orders), id).Some? ==>
              outcome == Saved
              && db.State() == old(db.State()).(orders := RemoveAt(old(db.orders), FindOrder(old(db.orders), id).value))
    ensures forall o :: o in db.orders ==> o in old(db.orders) && o.id != id
  {
    var found := FindOrder(db.orders, id);
    if found.None? {
      return NotFound;
    }
    var k := found.value;
    RemoveOrderKeepsIds(db.orders, k, db.nextOrderId);
    db.orders := RemoveAt(db.orders, k);
    outcome := Saved;
  }
}

=== FILE: production.dfy ===
/** Production orders: the daily numbering, the edit that replaces the
    material list and books the completion entries once, the deletion that
    reverses them, and the totals of the list. Completion and reversal only
    add or remove ledger entries; no product's base quantity is touched. */
module Production {
  import opened Wrappers
  import opened Text
  import opened Calendar
  import opened Models
  import opened Stock
  import opened Repository

  // ---------------------------------------------------------------------
  // Numbering: "SXyyyyMMdd-NNN"

  function NumberPrefix(now: DateTime): (r: string)
    ensures |r| == 10 && r[..2] == "SX" && AllDigits(r[2..])
  {
    DateStampRoundTrip(now.date);
    var r := "SX" + DateStamp(now.date);
    assert r[2..] == DateStamp(now.date);
    r
  }

  /** The number of production orders whose number starts with `prefix`. */
  function CountWithPrefix(orders: seq<ProductionOrder>, prefix: string): (n: nat)
    ensures n <= |orders|
    decreases |orders|
  {
    if orders == [] then 0
    else CountWithPrefix(orders[..|orders| - 1], prefix) + (if StartsWith(orders[|orders| - 1].orderNumber, prefix) then 1 else 0)
  }

  /** The number given to a production order created at `now`. */
  function ProductionNumber(orders: seq<ProductionOrder>, now: DateTime): (r: string)
    ensures |r| >= 14 && StartsWith(r, NumberPrefix(now)) && r[10] == '-' && AllDigits(r[11..])
  {
    var pad := Pad(CountWithPrefix(orders, NumberPrefix(now)) + 1, 3);
    var r := NumberPrefix(now) + "-" + pad;
    assert r[..10] == NumberPrefix(now) && r[11..] == pad;
    r
  }

  /** The number is today's prefix, a dash and a serial one above the
      count of numbers with that prefix; below 1000 a day it is 14
      characters long. */
  lemma {:induction false} ProductionNumberParts(orders: seq<ProductionOrder>, now: DateTime)
    ensures var r := ProductionNumber(orders, now);
            var n := CountWithPrefix(orders, NumberPrefix(now));
            && |NumberPrefix(now)| == 10 && StartsWith(r, NumberPrefix(now)) && r[10] == '-'
            && AllDigits(r[11..]) && DigitsValue(r[11..]) == n + 1
            && (n < 999 ==> |r| == 14)
  {
    var pre := NumberPrefix(now);
    var n := CountWithPrefix(orders, pre);
    var pad := Pad(n + 1, 3);
    DateStampRoundTrip(now.date);
    PadRoundTrip(n + 1, 3);
    assert Pow10(3) == 1000;
    assert |pre| == 10;
    ThreeParts(pre, "-", pad);
  }

  /** Creating an order raises the count its successor's serial is taken
      from by one. */
  lemma {:induction false} NumberingAdvances(orders: seq<ProductionOrder>, o: ProductionOrder, now: DateTime)
    requires o.orderNumber == ProductionNumber(orders, now)
    ensures CountWithPrefix(orders + [o], NumberPrefix(now)) == CountWithPrefix(orders, NumberPrefix(now)) + 1
  {
    ProductionNumberParts(orders, now);
    assert (orders + [o])[..|orders|] == orders;
  }

  /** After a deletion the count falls, so the next order of the day
      receives the number of an order that still exists. */
  lemma NumberReusedAfterDelete(o1: ProductionOrder, o2: ProductionOrder, now: DateTime)
    requires o1.orderNumber == ProductionNumber([], now)
    requires o2.orderNumber == ProductionNumber([o1], now)
    ensures ProductionNumber([o2], now) == o2.orderNumber
  {
    NumberingAdvances([], o1, now);
    assert [o1][..0] == [] && [o2][..0] == [];
    ProductionNumberParts([], now);
    ProductionNumberParts([o1], now);
  }

  /** Records a production order under the next number of the day, in
      progress and started now. */
  method Create(db: DataContext, form: ProductionOrder, now: DateTime) returns (outcome: Outcome)
    requires db.Valid()
    modifies db
    ensures db.Valid()
    ensures outcome == Saved
    ensures db.State() == old(db.State()).(
              productions := old(db.productions) + [form.(id := old(db.nextProductionId),
                                                          orderNumber := ProductionNumber(old(db.productions), now),
                                                          status := InProgress, startDate := now)],
              nextProductionId := old(db.nextProductionId) + 1)
  {
    var o := form.(id := db.nextProductionId, orderNumber := ProductionNumber(db.productions, now),
                   status := InProgress, startDate := now);
    db.productions := db.productions + [o];
    db.nextProductionId := db.nextProductionId + 1;
    outcome := Saved;
  }

  // ---------------------------------------------------------------------
  // Completion entries

  const CompletionCaption: string := "Hoàn thành SX "
  const ConsumptionCaption: string := "Tiêu hao cho SX "

  /** The import of the finished goods. */
  function OutputImport(id: int, o: ProductionOrder, unit: Option<string>, now: DateTime): LedgerEntry {
    LedgerEntry(id, o.productId, None, o.quantity, now, ImportType, CompletionCaption + o.orderNumber, unit, o.unitPrice)
  }

  /** The export of one material line. */
  function MaterialExport(id: int, number: string, m: MaterialLine, now: DateTime): LedgerEntry {
    LedgerEntry(id, m.materialId, None, m.plannedQuantity, now, ExportType, ConsumptionCaption + number, m.unit, m.unitPrice)
  }

  /** One export per material line, in line order, numbered from `firstId`. */
  function MaterialExports(ms: seq<MaterialLine>, number: string, firstId: int, now: DateTime): (r: seq<LedgerEntry>)
    ensures |r| == |ms|
    ensures forall i :: 0 <= i < |r| ==> r[i] == MaterialExport(firstId + i, number, ms[i], now)
    decreases |ms|
  {
    if ms == [] then []
    else MaterialExports(ms[..|ms| - 1], number, firstId, now) + [MaterialExport(firstId + |ms| - 1, number, ms[|ms| - 1], now)]
  }

  /** Everything a completion books: the import, then the exports. */
  function CompletionEntries(o: ProductionOrder, unit: Option<string>, firstId: int, now: DateTime): (r: seq<LedgerEntry>)
    ensures |r| == |o.materials| + 1
    ensures forall i :: 0 <= i < |r| ==> r[i].id == firstId + i
    ensures r[0].transactionType == ImportType && r[0].productId == o.productId && r[0].supplierId.None?
    ensures r[0].quantity == o.quantity && r[0].unitPrice == o.unitPrice && r[0].unit == unit
    ensures r[0].date == now && r[0].notes == CompletionCaption + o.orderNumber
    ensures forall i :: 1 <= i < |r| ==> r[i] == MaterialExport(firstId + i, o.orderNumber, o.materials[i - 1], now)
  {
    [OutputImport(firstId, o, unit, now)] + MaterialExports(o.materials, o.orderNumber, firstId + 1, now)
  }

  /** The import a completion of `o` leaves behind: an "Import" of its
      product whose note contains its number. */
  predicate IsCompletionImport(e: LedgerEntry, o: ProductionOrder) {
    Contains(e.notes, o.orderNumber) && e.transactionType == ImportType && e.productId == o.productId
  }

  /** The first such import (`FirstOrDefault` / `AnyAsync`). */
  function CompletionImportIndex(entries: seq<LedgerEntry>, o: ProductionOrder): (r: Option<nat>)
    ensures r.Some? ==> r.value < |entries| && IsCompletionImport(entries[r.value], o)
    ensures r.Some? ==> forall j :: 0 <= j < r.value ==> !IsCompletionImport(entries[j], o)
    ensures r.None? <==> forall j :: 0 <= j < |entries| ==> !IsCompletionImport(entries[j], o)
  {
    FirstIndex(entries, (e: LedgerEntry) => IsCompletionImport(e, o))
  }

  /** Builds the completion entries, the import first and then one export
      per material line. */
  method BookCompletion(o: ProductionOrder, unit: Option<string>, firstId: int, now: DateTime) returns (added: seq<LedgerEntry>)
    ensures added == CompletionEntries(o, unit, firstId, now)
  {
    added := [OutputImport(firstId, o, unit, now)];
    var i := 0;
    while i < |o.materials|
      invariant 0 <= i <= |o.materials|
      invariant added == [OutputImport(firstId, o, unit, now)] + MaterialExports(o.materials[..i], o.orderNumber, firstId + 1, now)
    {
      assert o.materials[..i + 1][..i] == o.materials[..i];
      added := added + [MaterialExport(firstId + 1 + i, o.orderNumber, o.materials[i], now)];
      i := i + 1;
    }
    assert o.materials[..i] == o.materials;
  }

  /** After a completion has been booked it is detected, so saving the
      order as done again books nothing. */
  lemma CompletionDetected(entries: seq<LedgerEntry>, o: ProductionOrder, unit: Option<string>, firstId: int, now: DateTime)
    ensures CompletionImportIndex(entries + CompletionEntries(o, unit, firstId, now), o).Some?
  {
    ContainsLabelled(CompletionCaption, o.orderNumber);
    assert IsCompletionImport((entries + CompletionEntries(o, unit, firstId, now))[|entries|], o);
  }

  /** The sum of the planned quantities of the lines for material `id`. */
  function PlannedFor(ms: seq<MaterialLine>, id: int): real
    decreases |ms|
  {
    if ms == [] then 0.0
    else PlannedFor(ms[..|ms| - 1], id) + (if ms[|ms| - 1].materialId == id then ms[|ms| - 1].plannedQuantity else 0.0)
  }

  lemma {:induction false} ExportsTotals(ms: seq<MaterialLine>, number: string, firstId: int, now: DateTime, id: int)
    ensures Total(MaterialExports(ms, number, firstId, now), id, ExportType, None) == PlannedFor(ms, id)
    ensures Total(MaterialExports(ms, number, firstId, now), id, ImportType, None) == 0.0
    decreases |ms|
  {
    if ms != [] {
      var init := ms[..|ms| - 1];
      ExportsTotals(init, number, firstId, now, id);
      var e := MaterialExport(firstId + |ms| - 1, number, ms[|ms| - 1], now);
      TotalAppend(MaterialExports(init, number, firstId, now), e, id, ExportType, None);
      TotalAppend(MaterialExports(init, number, firstId, now), e, id, ImportType, None);
    }
  }

  /** A completion raises the finished product's stock by the order
      quantity (when the product is not also one of its materials) and
      lowers each other product's stock by the quantity planned for it. */
  lemma {:induction false} CompletionStockEffect(p: Product, entries: seq<LedgerEntry>, o: ProductionOrder,
                                                 unit: Option<string>, firstId: int, now: DateTime)
    ensures p.id == o.productId ==>
              StockOf(p, entries + CompletionEntries(o, unit, firstId, now))
              == StockOf(p, entries) + o.quantity - PlannedFor(o.materials, p.id)
    ensures p.id != o.productId ==>
              StockOf(p, entries + CompletionEntries(o, unit, firstId, now))
              == StockOf(p, entries) - PlannedFor(o.materials, p.id)
  {
    var imp := OutputImport(firstId, o, unit, now);
    var exps := MaterialExports(o.materials, o.orderNumber, firstId + 1, now);
    assert CompletionEntries(o, unit, firstId, now) == [imp] + exps;
    assert entries + ([imp] + exps) == (entries + [imp]) + exps;
    TotalConcat(entries + [imp], exps, p.id, ImportType, None);
    TotalConcat(entries + [imp], exps, p.id, ExportType, None);
    TotalAppend(entries, imp, p.id, ImportType, None);
    TotalAppend(entries, imp, p.id, ExportType, None);
    ExportsTotals(o.materials, o.orderNumber, firstId + 1, now, p.id);
  }

  // ---------------------------------------------------------------------
  // Edit

  /** The stored order with the form's quantity, notes, status, unit price,
      planned end and materials; completion stamps the end date once. */
  function Updated(existing: ProductionOrder, form: ProductionOrder, now: DateTime): (r: ProductionOrder)
    ensures r.id == existing.id && r.orderNumber == existing.orderNumber && r.productId == existing.productId
    ensures r.startDate == existing.startDate
    ensures r.quantity == form.quantity && r.notes == form.notes && r.status == form.status
    ensures r.unitPrice == form.unitPrice && r.plannedEndDate == form.plannedEndDate
    ensures r.materials == form.materials
    ensures existing.endDate.Some? ==> r.endDate == existing.endDate
    ensures existing.endDate.None? ==> (r.endDate.Some? <==> form.status == Done) && (r.endDate.Some? ==> r.endDate == Some(now))
  {
    existing.(quantity := form.quantity, notes := form.notes, status := form.status,
              unitPrice := form.unitPrice, plannedEndDate := form.plannedEndDate,
              endDate := if form.status == Done && existing.endDate.None? then Some(now) else existing.endDate,
              materials := form.materials)
  }

  /** The material list is cleared and refilled with a copy of each
      submitted line. */
  method RefillMaterials(submitted: seq<MaterialLine>) returns (lines: seq<MaterialLine>)
    ensures lines == submitted
  {
    lines := [];
    for i := 0 to |submitted|
      invariant lines == submitted[..i]
    {
      var m := submitted[i];
      lines := lines + [MaterialLine(m.materialId, m.plannedQuantity, m.unit, m.unitPrice)];
    }
  }

  /** The unit of the order's product, when the product exists. */
  function ProductUnit(products: seq<Product>, id: int): Option<string> {
    match FindProduct(products, id)
    case None => None
    case Some(k) => Some(products[k].unit)
  }

  /** The edit books the completion when the order is saved as done and
      no completion import is in the ledger yet. */
  predicate CompletionDue(entries: seq<LedgerEntry>, o: ProductionOrder) {
    o.status == Done && CompletionImportIndex(entries, o).None?
  }

  /** Edits a production order: the fields and materials of the form are
      taken, and a first save as done books the completion entries. The
      products' base quantities never change. */
  method Edit(db: DataContext, id: int, form: ProductionOrder, now: DateTime) returns (outcome: Outcome)
    requires db.Valid()
    modifies db
    ensures db.Valid()
    ensures FindProduction(old(db.productions), id).None? ==> outcome == NotFound && db.State() == old(db.State())
    ensures FindProduction(old(db.productions), id).Some? ==>
              var k := FindProduction(old(db.productions), id).value;
              var o := Updated(old(db.productions)[k], form, now);
              outcome == Saved
              && if CompletionDue(old(db.entries), o) then
                   var added := CompletionEntries(o, ProductUnit(old(db.products), o.productId), old(db.nextEntryId), now);
                   db.State() == old(db.State()).(productions := old(db.productions)[k := o],
                                                  entries := old(db.entries) + added,
                                                  nextEntryId := old(db.nextEntryId) + |added|)
                 else
                   db.State() == old(db.State()).(productions := old(db.productions)[k := o])
    ensures db.products == old(db.products)
  {
    var found := FindProduction(db.productions, id);
    if found.None? {
      return NotFound;
    }
    var k := found.value;
    var existing := db.productions[k];
    var lines := RefillMaterials(form.materials);
    assert form.(materials := lines) == form;
    var o := Updated(existing, form.(materials := lines), now);
    SaveEdited(db, k, o, now);
    outcome := Saved;
  }

  /** Saves the edited order at position `k`, booking the completion first
      when it is due. */
  method SaveEdited(db: DataContext, k: nat, o: ProductionOrder, now: DateTime)
    requires db.Valid() && k < |db.productions| && o.id == db.productions[k].id
    modifies db
    ensures db.Valid()
    ensures if CompletionDue(old(db.entries), o) then
              var added := CompletionEntries(o, ProductUnit(old(db.products), o.productId), old(db.nextEntryId), now);
              db.State() == old(db.State()).(productions := old(db.productions)[k := o],
                                             entries := old(db.entries) + added,
                                             nextEntryId := old(db.nextEntryId) + |added|)
            else
              db.State() == old(db.State()).(productions := old(db.productions)[k := o])
  {
    if o.status == Done {
      BookCompletionOnce(db, o, now);
    }
    StoreProduction(db, k, o);
  }

  /** The stock side of saving an order as done: the completion entries,
      unless a completion import is already in the ledger. */
  method BookCompletionOnce(db: DataContext, o: ProductionOrder, now: DateTime)
    requires db.Valid()
    modifies db
    ensures db.Valid()
    ensures CompletionImportIndex(old(db.entries), o).None? ==>
              var added := CompletionEntries(o, ProductUnit(old(db.products), o.productId), old(db.nextEntryId), now);
              db.State() == old(db.State()).(entries := old(db.entries) + added, nextEntryId := old(db.nextEntryId) + |added|)
    ensures CompletionImportIndex(old(db.entries), o).Some? ==> db.State() == old(db.State())
  {
    var imported := CompletionImportIndex(db.entries, o).Some?;
    if !imported {
      var added := BookCompletion(o, ProductUnit(db.products, o.productId), db.nextEntryId, now);
      AppendEntries(db, added);
    }
  }

  /** Writes back the edited order under its own id. */
  method StoreProduction(db: DataContext, k: nat, o: ProductionOrder)
    requires db.Valid() && k < |db.productions| && o.id == db.productions[k].id
    modifies db
    ensures db.Valid()
    ensures db.State() == old(db.State()).(productions := old(db.productions)[k := o])
  {
    db.productions := db.productions[k := o];
  }

  /** `WarehouseTransaction.Add` for each entry, numbered on. */
  method AppendEntries(db: DataContext, added: seq<LedgerEntry>)
    requires db.Valid()
    requires forall i :: 0 <= i < |added| ==> added[i].id == db.nextEntryId + i
    modifies db
    ensures db.Valid()
    ensures db.State() == old(db.State()).(entries := old(db.entries) + added, nextEntryId := old(db.nextEntryId) + |added|)
  {
    db.entries := db.entries + added;
    db.nextEntryId := db.nextEntryId + |added|;
  }

  // ---------------------------------------------------------------------
  // Delete

  /** An export whose note mentions `number`. */
  predicate IsConsumption(e: LedgerEntry, number: string) {
    e.transactionType == ExportType && Contains(e.notes, number)
  }

  /** The ledger without the exports whose note mentions `number`, of any
      product. */
  function WithoutConsumption(entries: seq<LedgerEntry>, number: string): (r: seq<LedgerEntry>)
    ensures |r| <= |entries|
    ensures forall i :: 0 <= i < |r| ==> !IsConsumption(r[i], number)
    decreases |entries|
  {
    if entries == [] then []
    else (if IsConsumption(entries[0], number) then [] else [entries[0]]) + WithoutConsumption(entries[1..], number)
  }

  /** Exactly the entries that are not such exports remain. */
  lemma {:induction false} WithoutConsumptionMembers(entries: seq<LedgerEntry>, number: string)
    ensures forall e :: e in WithoutConsumption(entries, number) <==> e in entries && !IsConsumption(e, number)
    decreases |entries|
  {
    if entries != [] {
      WithoutConsumptionMembers(entries[1..], number);
      assert entries == [entries[0]] + entries[1..];
    }
  }

  lemma {:induction false} WithoutConsumptionConcat(s: seq<LedgerEntry>, t: seq<LedgerEntry>, number: string)
    ensures WithoutConsumption(s + t, number) == WithoutConsumption(s, number) + WithoutConsumption(t, number)
    decreases |s|
  {
    if s == [] {
      assert s + t == t;
    } else {
      WithoutConsumptionConcat(s[1..], t, number);
      var head := if IsConsumption(s[0], number) then [] else [s[0]];
      assert (s + t)[0] == s[0] && (s + t)[1..] == s[1..] + t;
      assert WithoutConsumption(s + t, number) == head + WithoutConsumption(s[1..] + t, number);
      assert WithoutConsumption(s, number) == head + WithoutConsumption(s[1..], number);
    }
  }

  lemma {:induction false} WithoutConsumptionDrops(s: seq<LedgerEntry>, number: string)
    requires forall i :: 0 <= i < |s| ==> IsConsumption(s[i], number)
    ensures WithoutConsumption(s, number) == []
    decreases |s|
  {
    if s != [] {
      WithoutConsumptionDrops(s[1..], number);
    }
  }

  lemma {:induction false} WithoutConsumptionKeeps(s: seq<LedgerEntry>, number: string)
    requires forall i :: 0 <= i < |s| ==> !IsConsumption(s[i], number)
    ensures WithoutConsumption(s, number) == s
    decreases |s|
  {
    if s != [] {
      WithoutConsumptionKeeps(s[1..], number);
    }
  }

  /** The reversal of a done order: its first completion import is removed,
      then every export mentioning its number. */
  function ReverseCompletion(entries: seq<LedgerEntry>, o: ProductionOrder): (r: seq<LedgerEntry>)
    ensures forall i :: 0 <= i < |r| ==> !IsConsumption(r[i], o.orderNumber)
    ensures |r| <= |entries|
    ensures CompletionImportIndex(entries, o).Some? ==> |r| < |entries|
  {
    var rest := match CompletionImportIndex(entries, o)
                case None => entries
                case Some(i) => RemoveAt(entries, i);
    WithoutConsumption(rest, o.orderNumber)
  }

  /** Deleting a production order removes it with its materials; a done
      order also takes its completion import and every export mentioning
      its number with it. Base quantities never change. */
  method Delete(db: DataContext, id: int) returns (outcome: Outcome)
    requires db.Valid()
    modifies db
    ensures db.Valid()
    ensures FindProduction(old(db.productions), id).None? ==> outcome == NotFound && db.State() == old(db.State())
    ensures FindProduction(old(db.productions), id).Some? ==>
              var k := FindProduction(old(db.productions), id).value;
              var o := old(db.productions)[k];
              outcome == Saved
              && db.State() == old(db.State()).(
                   productions := RemoveAt(old(db.productions), k),
                   entries := if o.status == Done then ReverseCompletion(old(db.entries), o) else old(db.entries))
    ensures db.products == old(db.products)
  {
    var found := FindProduction(db.productions, id);
    if found.None? {
      return NotFound;
    }
    var k := found.value;
    var o := db.productions[k];
    if o.status == Done {
      ReverseKeepsIds(db.entries, o, db.nextEntryId);
      db.entries := ReverseCompletion(db.entries, o);
    }
    RemoveProduction(db, k);
    outcome := Saved;
  }

  /** The reversal only removes entries, so ids stay unique and below the
      counter. */
  lemma ReverseKeepsIds(entries: seq<LedgerEntry>, o: ProductionOrder, next: int)
    requires UniqueIds(entries) && forall i :: 0 <= i < |entries| ==> entries[i].id < next
    ensures var r := ReverseCompletion(entries, o);
            UniqueIds(r) && forall i :: 0 <= i < |r| ==> r[i].id < next
  {
    var rest := match CompletionImportIndex(entries, o)
                case None => entries
                case Some(k) => RemoveAt(entries, k);
    if CompletionImportIndex(entries, o).Some? {
      RemoveEntryKeepsIds(entries, CompletionImportIndex(entries, o).value, next);
    }
    WithoutConsumptionKeepsIds(rest, o.orderNumber, next);
  }

  lemma RemoveEntryKeepsIds(entries: seq<LedgerEntry>, k: nat, next: int)
    requires k < |entries|
    requires UniqueIds(entries) && forall i :: 0 <= i < |entries| ==> entries[i].id < next
    ensures var r := RemoveAt(entries, k);
            UniqueIds(r) && forall i :: 0 <= i < |r| ==> r[i].id < next
  {
    var rest := RemoveAt(entries, k);
    forall i, j | 0 <= i < j < |rest| ensures rest[i].id != rest[j].id {
      var i' := if i < k then i else i + 1;
      var j' := if j < k then j else j + 1;
      assert rest[i] == entries[i'] && rest[j] == entries[j'];
    }
    forall i | 0 <= i < |rest| ensures rest[i].id < next {
      var i' := if i < k then i else i + 1;
      assert rest[i] == entries[i'];
    }
  }

  lemma {:induction false} WithoutConsumptionKeepsIds(s: seq<LedgerEntry>, number: string, next: int)
    requires UniqueIds(s) && forall i :: 0 <= i < |s| ==> s[i].id < next
    ensures var r := WithoutConsumption(s, number);
            UniqueIds(r) && forall i :: 0 <= i < |r| ==> r[i].id < next
    decreases |s|
  {
    if s != [] {
      var tail := s[1..];
      WithoutConsumptionKeepsIds(tail, number, next);
      WithoutConsumptionMembers(tail, number);
      var rt := WithoutConsumption(tail, number);
      var r := WithoutConsumption(s, number);
      assert r == (if IsConsumption(s[0], number) then [] else [s[0]]) + rt;
      forall i | 0 <= i < |rt| ensures rt[i].id != s[0].id && rt[i] in tail {
        assert rt[i] in rt;
        var j :| 0 <= j < |tail| && tail[j] == rt[i];
        assert s[j + 1] == rt[i];
      }
    }
  }

  method RemoveProduction(db: DataContext, k: nat)
    requires db.Valid() && k < |db.productions|
    modifies db
    ensures db.Valid()
    ensures db.State() == old(db.State()).(productions := RemoveAt(old(db.productions), k))
  {
    ghost var before := db.productions;
    db.productions := RemoveAt(db.productions, k);
    forall i, j | 0 <= i < j < |db.productions| ensures db.productions[i].id != db.productions[j].id {
      var i' := if i < k then i else i + 1;
      var j' := if j < k then j else j + 1;
      assert db.productions[i] == before[i'] && db.productions[j] == before[j'];
    }
  }

  /** Deleting a done order right after its completion was booked gives
      back exactly the ledger it was booked on, provided no earlier entry
      mentions its number. */
  lemma {:induction false} DeleteUndoesCompletion(entries: seq<LedgerEntry>, o: ProductionOrder,
                                                  unit: Option<string>, firstId: int, now: DateTime)
    requires forall i :: 0 <= i < |entries| ==> !Contains(entries[i].notes, o.orderNumber)
    ensures ReverseCompletion(entries + CompletionEntries(o, unit, firstId, now), o) == entries
  {
    var imp := OutputImport(firstId, o, unit, now);
    var exps := MaterialExports(o.materials, o.orderNumber, firstId + 1, now);
    var all := entries + CompletionEntries(o, unit, firstId, now);
    assert all == entries + [imp] + exps;
    ImportFoundAfter(entries, imp, exps, o);
    assert RemoveAt(all, |entries|) == entries + exps;
    assert ReverseCompletion(all, o) == WithoutConsumption(entries + exps, o.orderNumber);
    ConsumptionRemoved(entries, o.materials, o.orderNumber, firstId + 1, now);
  }

  /** The consumption exports of an order leave a ledger that never
      mentioned its number as it was. */
  lemma ConsumptionRemoved(entries: seq<LedgerEntry>, ms: seq<MaterialLine>, number: string, firstId: int, now: DateTime)
    requires forall i :: 0 <= i < |entries| ==> !Contains(entries[i].notes, number)
    ensures WithoutConsumption(entries + MaterialExports(ms, number, firstId, now), number) == entries
  {
    var exps := MaterialExports(ms, number, firstId, now);
    WithoutConsumptionConcat(entries, exps, number);
    WithoutConsumptionKeeps(entries, number);
    ContainsLabelled(ConsumptionCaption, number);
    WithoutConsumptionDrops(exps, number);
  }

  /** When no earlier entry mentions the number, the first completion
      import is the one booked after them. */
  lemma ImportFoundAfter(entries: seq<LedgerEntry>, imp: LedgerEntry, exps: seq<LedgerEntry>, o: ProductionOrder)
    requires forall i :: 0 <= i < |entries| ==> !Contains(entries[i].notes, o.orderNumber)
    requires imp == OutputImport(imp.id, o, imp.unit, imp.date)
    ensures CompletionImportIndex(entries + [imp] + exps, o) == Some(|entries|)
  {
    var all := entries + [imp] + exps;
    ContainsLabelled(CompletionCaption, o.orderNumber);
    assert all[|entries|] == imp;
    forall j | 0 <= j < |entries| ensures !IsCompletionImport(all[j], o) {
      assert all[j] == entries[j];
    }
  }

  // ---------------------------------------------------------------------
  // Totals of the list

  /** `o.Materials.Sum(m => m.PlannedQuantity * m.UnitPrice)`. */
  function MaterialCost(ms: seq<MaterialLine>): real
    decreases |ms|
  {
    if ms == [] then 0.0 else MaterialCost(ms[..|ms| - 1]) + ms[|ms| - 1].Cost()
  }

  function TotalProductValue(list: seq<ProductionOrder>): real
    decreases |list|
  {
    if list == [] then 0.0 else TotalProductValue(list[..|list| - 1]) + list[|list| - 1].TotalValue()
  }

  function TotalMaterialCost(list: seq<ProductionOrder>): real
    decreases |list|
  {
    if list == [] then 0.0 else TotalMaterialCost(list[..|list| - 1]) + MaterialCost(list[|list| - 1].materials)
  }

  /** The list's profit: total value minus total material cost. */
  function TotalProfit(list: seq<ProductionOrder>): real {
    TotalProductValue(list) - TotalMaterialCost(list)
  }

  /** One order's profit as the report computes it. */
  function OrderProfit(o: ProductionOrder): real {
    o.TotalValue() - MaterialCost(o.materials)
  }

  function SumOfProfits(list: seq<ProductionOrder>): real
    decreases |list|
  {
    if list == [] then 0.0 else SumOfProfits(list[..|list| - 1]) + OrderProfit(list[|list| - 1])
  }

  /** The list's profit is the sum of the orders' own profits. */
  lemma {:induction false} ProfitIsSumOfOrderProfits(list: seq<ProductionOrder>)
    ensures TotalProfit(list) == SumOfProfits(list)
    decreases |list|
  {
    if list != [] {
      ProfitIsSumOfOrderProfits(list[..|list| - 1]);
    }
  }

  /** With valid lines (non-negative quantities and prices) the material
      cost is not negative. */
  lemma {:induction false} MaterialCostNonNegative(ms: seq<MaterialLine>)
    requires forall i :: 0 <= i < |ms| ==> MaterialLineValid(ms[i])
    ensures MaterialCost(ms) >= 0.0
    decreases |ms|
  {
    if ms != [] {
      MaterialCostNonNegative(ms[..|ms| - 1]);
      var m := ms[|ms| - 1];
      ProductWithin(m.plannedQuantity, m.unitPrice, MaxQuantity, MaxQuantity);
    }
  }
}

=== FILE: products_by_type.dfy ===
/** The product picker of the ledger forms: the text of a product type is
    parsed as `Enum.TryParse<ProductType>(type, ignoreCase: true)` does, and
    the products of that type are listed ordered by name, each with a
    trailing space after its name and its unit. */
module ProductsByType {
  import opened Wrappers
  import opened Text
  import opened Models

  // ---------------------------------------------------------------------
  // Enum.TryParse

  /** A character that makes `Enum.TryParse` try the numeric form first. */
  predicate StartsNumber(c: char) {
    IsDigit(c) || c == '-' || c == '+'
  }

  /** An optional sign followed by at least one decimal digit. */
  predicate NumericForm(t: string) {
    if |t| > 0 && (t[0] == '-' || t[0] == '+') then |t| > 1 && AllDigits(t[1..])
    else |t| > 0 && AllDigits(t)
  }

  function NumericValue(t: string): int
    requires NumericForm(t)
  {
    if t[0] == '-' then -(DigitsValue(t[1..]) as int)
    else if t[0] == '+' then DigitsValue(t[1..])
    else DigitsValue(t)
  }

  /** The white space the integer parser skips after the digits: ASCII tab
      to carriage return, and the space. */
  predicate IsAsciiWhite(c: char) {
    ('\t' <= c <= '\r') || c == ' '
  }

  /** The length of the run of decimal digits that starts `s`. */
  function DigitRun(s: string): (n: nat)
    ensures n <= |s| && AllDigits(s[..n])
    ensures n < |s| ==> !IsDigit(s[n])
    decreases |s|
  {
    if s != [] && IsDigit(s[0]) then
      var n := 1 + DigitRun(s[1..]);
      assert forall i :: 1 <= i < n ==> s[..n][i] == s[1..][..n - 1][i - 1];
      n
    else 0
  }

  /** The length of the sign and the digits that start `t`. */
  function NumberLength(t: string): (n: nat)
    ensures n <= |t|
  {
    var k := if t != [] && (t[0] == '-' || t[0] == '+') then 1 else 0;
    k + DigitRun(t[k..])
  }

  /** What the integer parser lets follow the digits: ASCII white space,
      then nothing but NUL characters. */
  predicate TrailerOk(s: string) {
    forall i, j :: 0 <= i <= j < |s| && !IsAsciiWhite(s[i]) ==> s[j] == '\0'
  }

  /** The integer form `Enum.TryParse` accepts once leading white space is
      gone: an optional sign, digits, then an acceptable trailer. */
  predicate IntegerText(t: string) {
    NumericForm(t[..NumberLength(t)]) && TrailerOk(t[NumberLength(t)..])
  }

  /** The range of `int`, the enum's underlying type. */
  predicate InInt32(v: int) {
    -0x8000_0000 <= v < 0x8000_0000
  }

  /** The member named by `piece` (trimmed), compared ignoring case. */
  function MemberNamed(piece: string): Option<ProductType>
  {
    var t := Trim(piece);
    if EqualsIgnoreCase(t, "FinishedProduct") then Some(FinishedProduct)
    else if EqualsIgnoreCase(t, "Material") then Some(Material)
    else None
  }

  /** A comma-separated list of member names; the values are OR-ed. */
  function ParseNames(pieces: seq<string>): (r: Option<int>)
    ensures r.Some? ==> r.value == 0 || r.value == 1
    decreases |pieces|
  {
    if pieces == [] then Some(0)
    else
      var first := MemberNamed(pieces[0]);
      var rest := ParseNames(pieces[1..]);
      if first.None? || rest.None? then None
      else Some(if first.value.Code() == 1 || rest.value == 1 then 1 else 0)
  }

  /** The list parses exactly when every piece names a member. */
  lemma {:induction false} ParseNamesAccepts(pieces: seq<string>)
    ensures ParseNames(pieces).Some? <==> forall i :: 0 <= i < |pieces| ==> MemberNamed(pieces[i]).Some?
    decreases |pieces|
  {
    if pieces != [] {
      ParseNamesAccepts(pieces[1..]);
      var tail := pieces[1..];
      assert forall i :: 1 <= i < |pieces| ==> pieces[i] == tail[i - 1];
    }
  }

  /** Since the codes are 0 and 1, the OR of a parsed list is 1 exactly when
      one of its pieces names Material. */
  lemma {:induction false} ParseNamesValue(pieces: seq<string>)
    requires ParseNames(pieces).Some?
    ensures ParseNames(pieces).value == 1 <==> exists i :: 0 <= i < |pieces| && MemberNamed(pieces[i]) == Some(Material)
    decreases |pieces|
  {
    if pieces != [] {
      var tail := pieces[1..];
      ParseNamesValue(tail);
      if ParseNames(tail).value == 1 {
        var j :| 0 <= j < |tail| && MemberNamed(tail[j]) == Some(Material);
        assert pieces[j + 1] == tail[j];
      } else if MemberNamed(pieces[0]) != Some(Material) {
        forall i | 0 <= i < |pieces| ensures MemberNamed(pieces[i]) != Some(Material) {
          if i > 0 {
            assert pieces[i] == tail[i - 1];
          }
        }
      }
    }
  }

  /** `Enum.TryParse<ProductType>(value, true, out v)`: the integer value
      stored in `v` when it succeeds. Leading white space is skipped. Text
      that starts with a sign or a digit and has the integer form (then only
      ASCII white space, then only NUL characters) is that number whatever
      its value, as long as it fits an `int`; anything else is read as a
      comma-separated list of member names, each trimmed and compared
      ignoring case. */
  function ParseProductType(value: string): (r: Option<int>)
    ensures r.Some? ==> !IsBlank(value) && InInt32(r.value)
  {
    var t := TrimStart(value);
    if t == [] then None
    else if StartsNumber(t[0]) && IntegerText(t) then
      var v := NumericValue(t[..NumberLength(t)]);
      if InInt32(v) then Some(v) else None
    else
      assert t[0] in value;
      ParseNames(SplitOnComma(t))
  }

  lemma {:induction false} SplitNoComma(s: string)
    requires ',' !in s
    ensures SplitOnComma(s) == [s]
    decreases |s|
  {
    if s != [] {
      SplitNoComma(s[1..]);
      assert [s[0]] + s[1..] == s;
    }
  }

  /** Text with no leading white space that has the integer form parses
      as that integer, or fails when it overflows `int`. */
  lemma {:induction false} ParseIntegerText(t: string)
    requires t != [] && !IsWhiteSpace(t[0]) && StartsNumber(t[0]) && IntegerText(t)
    ensures var v := NumericValue(t[..NumberLength(t)]);
            ParseProductType(t) == if InInt32(v) then Some(v) else None
  {
    assert TrimStart(t) == t;
  }

  /** Text with no leading white space that lacks the integer form is
      parsed as a list of names. */
  lemma {:induction false} ParseNotIntegerText(t: string)
    requires t != [] && !IsWhiteSpace(t[0]) && !(StartsNumber(t[0]) && IntegerText(t))
    ensures ParseProductType(t) == ParseNames(SplitOnComma(t))
  {
    assert TrimStart(t) == t;
  }

  /** A word with no leading white space, no comma and no leading sign or
      digit is parsed as one name. */
  lemma {:induction false} ParseOneName(s: string)
    requires s != [] && !IsWhiteSpace(s[0]) && !StartsNumber(s[0])
    requires ',' !in s
    ensures ParseProductType(s) == ParseNames([s])
  {
    ParseNotIntegerText(s);
    SplitNoComma(s);
  }

  /** The letters of a member's name, in any case: no white space or sign
      in front, no comma, and the member is recognised. */
  lemma {:induction false} MemberNameLetters(s: string, t: ProductType)
    requires EqualsIgnoreCase(s, if t == FinishedProduct then "FinishedProduct" else "Material")
    ensures s != [] && !IsWhiteSpace(s[0]) && !StartsNumber(s[0]) && ',' !in s
    ensures MemberNamed(s) == Some(t)
  {
    var name := if t == FinishedProduct then "FinishedProduct" else "Material";
    assert UpperAscii(s[0]) == UpperAscii(name[0]) && UpperAscii(s[|s| - 1]) == UpperAscii(name[|name| - 1]);
    assert ',' !in s by {
      forall i | 0 <= i < |s| ensures s[i] != ',' {
        assert UpperAscii(s[i]) == UpperAscii(name[i]);
      }
    }
    TrimNoEdgeSpace(s);
  }

  lemma {:induction false} TrimNoEdgeSpace(s: string)
    requires s != [] && !IsWhiteSpace(s[0]) && !IsWhiteSpace(s[|s| - 1])
    ensures Trim(s) == s
  {
  }

  /** A piece that, once trimmed, starts with a sign or a digit names no
      member. */
  lemma {:induction false} NumberIsNoName(p: string)
    requires Trim(p) != [] && StartsNumber(Trim(p)[0])
    ensures MemberNamed(p).None?
  {
    assert "FinishedProduct"[0] == 'F' && "Material"[0] == 'M';
  }

  /** Trimming a string that does not start with white space keeps its
      first character in front. */
  lemma {:induction false} TrimKeepsFirst(s: string)
    requires s != [] && !IsWhiteSpace(s[0])
    ensures Trim(s) != [] && Trim(s)[0] == s[0]
  {
    assert TrimStart(s) == s;
  }

  /** A string equal, ignoring case, to a member's name parses to that
      member's code. */
  lemma {:induction false} ParseMemberName(s: string, t: ProductType)
    requires EqualsIgnoreCase(s, if t == FinishedProduct then "FinishedProduct" else "Material")
    ensures ParseProductType(s) == Some(t.Code())
  {
    MemberNameLetters(s, t);
    ParseOneName(s);
    assert ParseNames([s]) == Some(t.Code()) by {
      assert [s][1..] == [];
    }
  }

  /** A run of digits followed by something other than a digit is cut
      exactly there. */
  lemma {:induction false} DigitRunOf(s: string, rest: string)
    requires AllDigits(s) && (rest == [] || !IsDigit(rest[0]))
    ensures DigitRun(s + rest) == |s|
    decreases |s|
  {
    if s != [] {
      assert (s + rest)[1..] == s[1..] + rest;
      DigitRunOf(s[1..], rest);
    } else {
      assert s + rest == rest;
    }
  }

  /** Digits followed by `rest` (which does not start with a digit): the
      number part is exactly the digits. */
  lemma {:induction false} NumberPartOf(s: string, rest: string)
    requires s != [] && AllDigits(s) && (rest == [] || !IsDigit(rest[0]))
    ensures NumberLength(s + rest) == |s|
    ensures (s + rest)[..|s|] == s && (s + rest)[|s|..] == rest
    ensures (s + rest)[0] == s[0] && IsDigit(s[0])
  {
    DigitRunOf(s, rest);
    assert (s + rest)[0..] == s + rest;
  }

  /** A number followed by ASCII white space and then NUL characters parses
      to that number, member or not. */
  lemma {:induction false} ParseNumberWithTrailer(s: string, trailer: string)
    requires s != [] && AllDigits(s) && DigitsValue(s) < 0x8000_0000
    requires TrailerOk(trailer)
    ensures ParseProductType(s + trailer) == Some(DigitsValue(s))
  {
    assert trailer != [] ==> IsAsciiWhite(trailer[0]) || trailer[0] == '\0';
    NumberPartOf(s, trailer);
    ParseIntegerText(s + trailer);
  }

  /** A string that is a number parses to that number, member or not. */
  lemma {:induction false} ParseDigits(s: string)
    requires s != [] && AllDigits(s) && DigitsValue(s) < 0x8000_0000
    ensures ParseProductType(s) == Some(DigitsValue(s))
  {
    ParseNumberWithTrailer(s, []);
    assert s + [] == s;
  }

  /** White space outside ASCII after a number is not skipped by the integer
      parser, and the name parser finds no member in it: nothing parses. */
  lemma {:induction false} ParseNumberUnicodeSpace(s: string, c: char)
    requires s != [] && AllDigits(s)
    requires IsWhiteSpace(c) && !IsAsciiWhite(c)
    ensures ParseProductType(s + [c]) == None
  {
    var t := s + [c];
    NumberPartOf(s, [c]);
    assert !TrailerOk([c]);
    ParseNotIntegerText(t);
    assert ',' !in t;
    SplitNoComma(t);
    TrimKeepsFirst(t);
    NumberIsNoName(t);
  }

  // ---------------------------------------------------------------------
  // Ordering by name

  /** Ordinal order of names: character by character, a prefix first. */
  predicate NameAtMost(a: string, b: string)
    decreases |a|
  {
    a == [] || (b != [] && (a[0] < b[0] || (a[0] == b[0] && NameAtMost(a[1..], b[1..]))))
  }

  lemma {:induction false} NameAtMostTotal(a: string, b: string)
    ensures NameAtMost(a, b) || NameAtMost(b, a)
    decreases |a|
  {
    if a != [] && b != [] && a[0] == b[0] {
      NameAtMostTotal(a[1..], b[1..]);
    }
  }

  predicate SortedByName(s: seq<Product>) {
    forall i :: 0 <= i < |s| - 1 ==> NameAtMost(s[i].name, s[i + 1].name)
  }

  /** Inserts `p` before the first product whose name is not smaller. */
  function Insert(p: Product, s: seq<Product>): (r: seq<Product>)
    ensures |r| == |s| + 1
    ensures r[0] == p || (s != [] && r[0] == s[0])
  {
    if s == [] || NameAtMost(p.name, s[0].name) then [p] + s
    else [s[0]] + Insert(p, s[1..])
  }

  lemma {:induction false} InsertSorted(p: Product, s: seq<Product>)
    requires SortedByName(s)
    ensures SortedByName(Insert(p, s))
    ensures multiset(Insert(p, s)) == multiset(s) + multiset{p}
  {
    if s == [] || NameAtMost(p.name, s[0].name) {
    } else {
      InsertSorted(p, s[1..]);
      assert s == [s[0]] + s[1..];
      NameAtMostTotal(p.name, s[0].name);
      var r := Insert(p, s);
      var tail := Insert(p, s[1..]);
      assert r == [s[0]] + tail;
      forall i | 0 <= i < |r| - 1 ensures NameAtMost(r[i].name, r[i + 1].name) {
        if i > 0 {
          assert r[i] == tail[i - 1] && r[i + 1] == tail[i];
        }
      }
    }
  }

  /** A stable insertion sort by name (`OrderBy(p => p.ProductName)`). */
  function SortByName(s: seq<Product>): (r: seq<Product>)
    ensures SortedByName(r) && multiset(r) == multiset(s)
    decreases |s|
  {
    if s == [] then []
    else
      InsertSorted(s[0], SortByName(s[1..]));
      assert s == [s[0]] + s[1..];
      Insert(s[0], SortByName(s[1..]))
  }

  // ---------------------------------------------------------------------
  // The endpoint

  /** `Where(p => p.ProductType == type)`. */
  function OfType(products: seq<Product>, code: int): (r: seq<Product>)
    ensures forall p :: multiset(r)[p] == if p.productType.Code() == code then multiset(products)[p] else 0
  {
    if products == [] then []
    else
      assert products == [products[0]] + products[1..];
      (if products[0].productType.Code() == code then [products[0]] else []) + OfType(products[1..], code)
  }

  /** One item of the JSON reply. */
  datatype ProductRow = ProductRow(id: int, name: string, unit: string)

  /** The reply's name is the product's name with one space appended. */
  function Row(p: Product): (r: ProductRow)
    ensures r.id == p.id && r.unit == p.unit
    ensures |r.name| == |p.name| + 1 && r.name[..|p.name|] == p.name && r.name[|p.name|] == ' '
  {
    ProductRow(p.id, p.name + " ", p.unit)
  }

  /** `GetProductsByType(type)`. */
  function GetProductsByType(products: seq<Product>, typeText: Option<string>): (r: seq<ProductRow>)
    ensures IsNullOrWhiteSpace(typeText) ==> r == []
    ensures !IsNullOrWhiteSpace(typeText) && ParseProductType(typeText.value).None? ==> r == []
  {
    if IsNullOrWhiteSpace(typeText) then []
    else match ParseProductType(typeText.value)
      case None => []
      case Some(code) =>
        var listed := SortByName(OfType(products, code));
        seq(|listed|, i requires 0 <= i < |listed| => Row(listed[i]))
  }

  /** For a parsed type, the reply lists exactly the products of that type,
      each as many times as it is stored, ordered by name, with the name
      followed by a space. */
  lemma {:induction false} ProductsByTypeListed(products: seq<Product>, typeText: string)
    requires !IsBlank(typeText) && ParseProductType(typeText).Some?
    ensures var code := ParseProductType(typeText).value;
            exists listed: seq<Product> ::
              && SortedByName(listed)
              && (forall p :: multiset(listed)[p] == if p.productType.Code() == code then multiset(products)[p] else 0)
              && GetProductsByType(products, Some(typeText)) == seq(|listed|, i requires 0 <= i < |listed| => Row(listed[i]))
  {
    var code := ParseProductType(typeText).value;
    var listed := SortByName(OfType(products, code));
    assert !IsNullOrWhiteSpace(Some(typeText));
  }
}

=== FILE: purchase.dfy ===
/** Purchase orders for materials: the daily numbering, the edit that books
    one "Import" entry when a purchase is received, the deletion, and the
    total of the list. No purchase action touches a product's base
    quantity; receipt moves stock through the ledger alone. */
module Purchasing {
  import opened Wrappers
  import opened Text
  import opened Calendar
  import opened Models
  import opened Stock
  import opened Repository

  // ---------------------------------------------------------------------
  // Numbering: "POyyyyMMdd-NNN"

  function NumberPrefix(now: DateTime): (r: string)
    ensures |r| == 10 && r[..2] == "PO" && AllDigits(r[2..])
  {
    DateStampRoundTrip(now.date);
    var r := "PO" + DateStamp(now.date);
    assert r[2..] == DateStamp(now.date);
    r
  }

  /** `CountAsync(p => p.PurchaseNumber.StartsWith(prefix))`; a purchase
      without a number does not match. */
  function CountWithPrefix(purchases: seq<PurchaseOrder>, prefix: string): (n: nat)
    ensures n <= |purchases|
    decreases |purchases|
  {
    if purchases == [] then 0
    else
      var last := purchases[|purchases| - 1];
      CountWithPrefix(purchases[..|purchases| - 1], prefix)
        + (if last.purchaseNumber.Some? && StartsWith(last.purchaseNumber.value, prefix) then 1 else 0)
  }

  /** The number given to a purchase created at `now`. */
  function PurchaseNumber(purchases: seq<PurchaseOrder>, now: DateTime): (r: string)
    ensures |r| >= 14 && StartsWith(r, NumberPrefix(now)) && r[10] == '-' && AllDigits(r[11..])
  {
    var pad := Pad(CountWithPrefix(purchases, NumberPrefix(now)) + 1, 3);
    var r := NumberPrefix(now) + "-" + pad;
    assert r[..10] == NumberPrefix(now) && r[11..] == pad;
    r
  }

  /** The number is today's prefix, a dash and a serial one above the count
      of numbers with that prefix; below 1000 a day it is 14 characters,
      within the column's limit of 64. */
  lemma {:induction false} PurchaseNumberParts(purchases: seq<PurchaseOrder>, now: DateTime)
    ensures var r := PurchaseNumber(purchases, now);
            var n := CountWithPrefix(purchases, NumberPrefix(now));
            && |NumberPrefix(now)| == 10 && StartsWith(r, NumberPrefix(now)) && r[10] == '-'
            && AllDigits(r[11..]) && DigitsValue(r[11..]) == n + 1
            && (n < 999 ==> |r| == 14)
  {
    var pre := NumberPrefix(now);
    var n := CountWithPrefix(purchases, pre);
    DateStampRoundTrip(now.date);
    PadRoundTrip(n + 1, 3);
    assert Pow10(3) == 1000;
    assert |pre| == 10;
    ThreeParts(pre, "-", Pad(n + 1, 3));
  }

  /** A purchase created now counts towards the next serial of the day. */
  lemma {:induction false} NumberingAdvances(purchases: seq<PurchaseOrder>, o: PurchaseOrder, now: DateTime)
    requires o.purchaseNumber == Some(PurchaseNumber(purchases, now))
    ensures CountWithPrefix(purchases + [o], NumberPrefix(now)) == CountWithPrefix(purchases, NumberPrefix(now)) + 1
  {
    PurchaseNumberParts(purchases, now);
    assert (purchases + [o])[..|purchases|] == purchases;
  }

  // ---------------------------------------------------------------------
  // Create

  /** The posted purchase as stored: next id, today's number, ordered now,
      status Created. */
  function Placed(form: PurchaseOrder, purchases: seq<PurchaseOrder>, now: DateTime, id: int): (r: PurchaseOrder)
    ensures r.status == PurchaseStatus.Created && r.orderDate == now && r.id == id
    ensures r.purchaseNumber == Some(PurchaseNumber(purchases, now))
    ensures StartsWith(r.purchaseNumber.value, NumberPrefix(now))
    ensures r.(id := form.id, purchaseNumber := form.purchaseNumber, orderDate := form.orderDate, status := form.status) == form
  {
    PurchaseNumberParts(purchases, now);
    form.(id := id, purchaseNumber := Some(PurchaseNumber(purchases, now)), orderDate := now, status := PurchaseStatus.Created)
  }

  /** A purchase needs both a supplier and a material chosen; otherwise
      nothing is stored. */
  method Create(db: DataContext, form: PurchaseOrder, now: DateTime) returns (outcome: Outcome)
    requires db.Valid()
    modifies db
    ensures db.Valid()
    ensures form.supplierId == 0 || form.productId == 0 ==>
              outcome == Rejected(NothingSelected) && db.State() == old(db.State())
    ensures form.supplierId != 0 && form.productId != 0 ==>
              outcome == Saved
              && db.State() == old(db.State()).(
                   purchases := old(db.purchases) + [Placed(form, old(db.purchases), now, old(db.nextPurchaseId))],
                   nextPurchaseId := old(db.nextPurchaseId) + 1)
  {
    if form.supplierId == 0 || form.productId == 0 {
      return Rejected(NothingSelected);
    }
    var o := Placed(form, db.purchases, now, db.nextPurchaseId);
    db.purchases := db.purchases + [o];
    db.nextPurchaseId := db.nextPurchaseId + 1;
    outcome := Saved;
  }

  // ---------------------------------------------------------------------
  // Edit

  /** The stored purchase with the form's editable fields; the id, number
      and dates stay as stored. */
  function Edited(stored: PurchaseOrder, form: PurchaseOrder): (r: PurchaseOrder)
    ensures r.id == stored.id && r.purchaseNumber == stored.purchaseNumber
    ensures r.orderDate == stored.orderDate && r.receivedDate == stored.receivedDate
    ensures r.status == form.status && r.quantity == form.quantity && r.productId == form.productId
    ensures r.supplierId == form.supplierId && r.unit == form.unit && r.unitPrice == form.unitPrice
    ensures r.description == form.description
  {
    stored.(productId := form.productId, supplierId := form.supplierId, quantity := form.quantity,
            unit := form.unit, unitPrice := form.unitPrice, description := form.description,
            status := form.status)
  }

  /** The edit moves the purchase into RECEIVED. */
  predicate ReceiptDue(stored: PurchaseOrder, form: PurchaseOrder) {
    stored.status != PurchaseStatus.Received && form.status == PurchaseStatus.Received
  }

  const ReceiptCaption: string := "Nhập kho từ đơn mua "

  /** The import booked on receipt; a missing number interpolates as the
      empty string. */
  function ReceiptEntry(id: int, o: PurchaseOrder, now: DateTime): (e: LedgerEntry)
    ensures e.transactionType == ImportType && e.id == id && e.date == now
    ensures e.productId == o.productId && e.supplierId == Some(o.supplierId)
    ensures e.quantity == o.quantity && e.unit == o.unit && e.unitPrice == o.unitPrice
    ensures Contains(e.notes, o.purchaseNumber.OrElse(""))
  {
    ContainsLabelled(ReceiptCaption, o.purchaseNumber.OrElse(""));
    LedgerEntry(id, o.productId, Some(o.supplierId), o.quantity, now, ImportType,
                ReceiptCaption + o.purchaseNumber.OrElse(""), o.unit, o.unitPrice)
  }

  /** Saves the form over the stored purchase. On the transition into
      RECEIVED the received date is stamped and one import of the edited
      quantity is booked; otherwise only the purchase changes. */
  method Edit(db: DataContext, form: PurchaseOrder, now: DateTime) returns (outcome: Outcome)
    requires db.Valid()
    modifies db
    ensures db.Valid()
    ensures FindPurchase(old(db.purchases), form.id).None? ==> outcome == NotFound && db.State() == old(db.State())
    ensures FindPurchase(old(db.purchases), form.id).Some? ==>
              var k := FindPurchase(old(db.purchases), form.id).value;
              var stored := old(db.purchases)[k];
              var o := Edited(stored, form);
              && outcome == Saved
              && (ReceiptDue(stored, form) ==>
                    db.State() == old(db.State()).(
                      purchases := old(db.purchases)[k := o.(receivedDate := Some(now))],
                      entries := old(db.entries) + [ReceiptEntry(old(db.nextEntryId), o, now)],
                      nextEntryId := old(db.nextEntryId) + 1))
              && (!ReceiptDue(stored, form) ==>
                    db.State() == old(db.State()).(purchases := old(db.purchases)[k := o]))
  {
    var found := FindPurchase(db.purchases, form.id);
    if found.None? {
      return NotFound;
    }
    var k := found.value;
    var existing := db.purchases[k];
    var changedToReceived := ReceiptDue(existing, form);
    var o := Edited(existing, form);
    if changedToReceived {
      o := o.(receivedDate := Some(now));
      db.entries := db.entries + [ReceiptEntry(db.nextEntryId, o, now)];
      db.nextEntryId := db.nextEntryId + 1;
    }
    db.purchases := db.purchases[k := o];
    outcome := Saved;
  }

  /** Saving a received purchase again books nothing more. */
  lemma ReceiptOnce(stored: PurchaseOrder, form: PurchaseOrder, now: DateTime, again: PurchaseOrder)
    requires ReceiptDue(stored, form)
    ensures !ReceiptDue(Edited(stored, form).(receivedDate := Some(now)), again)
  {
  }

  /** But a received purchase moved to another status and back to RECEIVED
      is booked a second time: the guard looks only at the stored status. */
  lemma ReceiptRepeatsAfterReopen(stored: PurchaseOrder, reopen: PurchaseOrder, receive: PurchaseOrder)
    requires stored.status == PurchaseStatus.Received
    requires reopen.status != PurchaseStatus.Received && receive.status == PurchaseStatus.Received
    ensures !ReceiptDue(stored, reopen)
    ensures ReceiptDue(Edited(stored, reopen), receive)
  {
  }

  /** Receipt raises the purchased material's stock by the purchased
      quantity, counted once (the base quantity is untouched), and leaves
      every other product's stock as it was. */
  lemma ReceiptStockEffect(p: Product, entries: seq<LedgerEntry>, id: int, o: PurchaseOrder, now: DateTime)
    ensures o.productId == p.id ==> StockOf(p, entries + [ReceiptEntry(id, o, now)]) == StockOf(p, entries) + o.quantity
    ensures o.productId != p.id ==> StockOf(p, entries + [ReceiptEntry(id, o, now)]) == StockOf(p, entries)
  {
    var e := ReceiptEntry(id, o, now);
    TotalAppend(entries, e, p.id, ImportType, None);
    TotalAppend(entries, e, p.id, ExportType, None);
  }

  // ---------------------------------------------------------------------
  // Delete

  /** Removes the purchase; the import booked on its receipt stays in the
      ledger. A missing id changes nothing. */
  method Delete(db: DataContext, id: int) returns (outcome: Outcome)
    requires db.Valid()
    modifies db
    ensures db.Valid()
    ensures FindPurchase(old(db.purchases), id).None? ==> outcome == NotFound && db.State() == old(db.State())
    ensures FindPurchase(old(db.purchases), id).Some? ==>
              outcome == Saved
              && db.State() == old(db.State()).(purchases := RemoveAt(old(db.purchases), FindPurchase(old(db.purchases), id).value))
    ensures forall o :: o in db.purchases ==> o in old(db.purchases) && o.id != id
  {
    var found := FindPurchase(db.purchases, id);
    if found.None? {
      return NotFound;
    }
    var k := found.value;
    ghost var before := db.purchases;
    db.purchases := RemoveAt(db.purchases, k);
    forall i, j | 0 <= i < j < |db.purchases| ensures db.purchases[i].id != db.purchases[j].id {
      var i' := if i < k then i else i + 1;
      var j' := if j < k then j else j + 1;
      assert db.purchases[i] == before[i'] && db.purchases[j] == before[j'];
    }
    forall o | o in db.purchases ensures o in before && o.id != id {
      var i :| 0 <= i < |db.purchases| && db.purchases[i] == o;
      var i' := if i < k then i else i + 1;
      assert o == before[i'] && i' != k;
    }
    outcome := Saved;
  }

  // ---------------------------------------------------------------------
  // The list total

  /** `purchases.Sum(p => p.Quantity * p.UnitPrice)`. */
  function TotalPurchaseValue(list: seq<PurchaseOrder>): real
    decreases |list|
  {
    if list == [] then 0.0 else TotalPurchaseValue(list[..|list| - 1]) + list[|list| - 1].TotalValue()
  }

  lemma {:induction false} TotalPurchaseValueConcat(s: seq<PurchaseOrder>, t: seq<PurchaseOrder>)
    ensures TotalPurchaseValue(s + t) == TotalPurchaseValue(s) + TotalPurchaseValue(t)
    decreases |t|
  {
    if t == [] {
      assert s + t == s;
    } else {
      assert (s + t)[..|s + t| - 1] == s + t[..|t| - 1];
      TotalPurchaseValueConcat(s, t[..|t| - 1]);
    }
  }

  /** Taking one purchase out of the list takes its value out of the total. */
  lemma {:induction false} TotalPurchaseValueRemoveAt(t: seq<PurchaseOrder>, k: nat)
    requires k < |t|
    ensures TotalPurchaseValue(t) == TotalPurchaseValue(t[..k] + t[k + 1..]) + t[k].TotalValue()
  {
    var a, b := t[..k], t[k + 1..];
    assert t == (a + [t[k]]) + b;
    TotalPurchaseValueConcat(a + [t[k]], b);
    TotalPurchaseValueConcat(a, b);
    assert (a + [t[k]])[..k] == a;
  }

  lemma {:induction false} MultisetCancel<T>(a: multiset<T>, b: multiset<T>, x: T)
    requires a + multiset{x} == b + multiset{x}
    ensures a == b
  {
    forall y ensures a[y] == b[y] {
      assert (a + multiset{x})[y] == (b + multiset{x})[y];
    }
  }

  /** The total does not depend on the order the list is sorted in. */
  lemma {:induction false} TotalPurchaseValuePermutation(s: seq<PurchaseOrder>, t: seq<PurchaseOrder>)
    requires multiset(s) == multiset(t)
    ensures TotalPurchaseValue(s) == TotalPurchaseValue(t)
    decreases |s|
  {
    if s == [] {
      assert |t| == |multiset(t)| == 0;
    } else {
      var x := s[|s| - 1];
      var init := s[..|s| - 1];
      assert s == init + [x];
      assert multiset(s) == multiset(init) + multiset{x};
      assert x in multiset(t);
      var k :| 0 <= k < |t| && t[k] == x;
      var rest := t[..k] + t[k + 1..];
      assert t == t[..k] + [x] + t[k + 1..];
      assert multiset(t) == multiset(rest) + multiset{x};
      MultisetCancel(multiset(init), multiset(rest), x);
      TotalPurchaseValuePermutation(init, rest);
      TotalPurchaseValueRemoveAt(t, k);
    }
  }

  /** Purchases with non-negative quantities and prices never make the
      total negative (the purchase form itself puts no range on either). */
  lemma {:induction false} TotalPurchaseValueNonNegative(list: seq<PurchaseOrder>)
    requires forall i :: 0 <= i < |list| ==> list[i].quantity >= 0.0 && list[i].unitPrice >= 0.0
    ensures TotalPurchaseValue(list) >= 0.0
    decreases |list|
  {
    if list != [] {
      TotalPurchaseValueNonNegative(list[..|list| - 1]);
      var o := list[|list| - 1];
      assert o.quantity * o.unitPrice >= 0.0;
    }
  }
}

=== FILE: registration.dfy ===
/** The account registration form and the checks its data annotations make
    when it is posted: a required full name of at most 100 characters, a
    Vietnamese mobile number, an e-mail address, a password of 6 to 100
    characters and a confirmation equal to the password. */
module Registration {
  import opened Wrappers
  import opened Text
  import opened Models

  /** The posted form; a field that was not sent is `None`. */
  datatype RegisterForm = RegisterForm(
    fullName: Option<string>,
    phone: Option<string>,
    email: Option<string>,
    password: Option<string>,
    confirmPassword: Option<string>)

  /** One failed check, reported against its field. */
  datatype Problem =
    | FullNameMissing | FullNameTooLong
    | PhoneMissing | PhoneMalformed
    | EmailMissing | EmailMalformed
    | PasswordMissing | PasswordLength
    | ConfirmMissing | ConfirmMismatch

  // ---------------------------------------------------------------------
  // Anchored patterns

  /** A character class of a pattern: `\d`, or a bracket of listed
      characters. */
  datatype CharClass = Digit | OneOf(chars: string)

  predicate InClass(c: char, cls: CharClass) {
    match cls
    case Digit => IsDigit(c)
    case OneOf(chars) => c in chars
  }

  /** One piece of a pattern: a group of literal alternatives `(a|b)`, or
      exactly `count` characters of a class (`\d{8}`; a bare class is a run
      of one). */
  datatype Piece = Either(alternatives: seq<string>) | Run(cls: CharClass, count: nat)

  /** The whole of `s` matches the pieces in order (`^…$`). */
  predicate Matches(pattern: seq<Piece>, s: string)
    decreases |pattern|
  {
    if pattern == [] then s == []
    else match pattern[0]
      case Either(alts) =>
        exists a :: a in alts && StartsWith(s, a) && Matches(pattern[1..], s[|a|..])
      case Run(cls, n) =>
        n <= |s| && (forall i :: 0 <= i < n ==> InClass(s[i], cls)) && Matches(pattern[1..], s[n..])
  }

  /** The digit that follows the trunk prefix of a mobile number. */
  const MobilePrefixes: string := "35789"

  /** `^(0|\+84)(3|5|7|8|9)\d{8}$`. */
  const PhonePattern: seq<Piece> := [Either(["0", "+84"]), Run(OneOf(MobilePrefixes), 1), Run(Digit, 8)]

  /** A subscriber part: a mobile prefix digit and eight more digits. */
  predicate Subscriber(t: string) {
    |t| == 9 && t[0] in MobilePrefixes && AllDigits(t[1..])
  }

  /** A Vietnamese mobile number written out: the trunk prefix `0` or the
      country code `+84`, then a subscriber part. */
  predicate MobileNumber(s: string) {
    (StartsWith(s, "0") && Subscriber(s[1..])) || (StartsWith(s, "+84") && Subscriber(s[3..]))
  }

  /** A pattern that starts with a run of `n` characters of a class. */
  lemma MatchesRun(cls: CharClass, n: nat, rest: seq<Piece>, s: string)
    ensures Matches([Run(cls, n)] + rest, s)
            <==> n <= |s| && (forall i :: 0 <= i < n ==> InClass(s[i], cls)) && Matches(rest, s[n..])
  {
    var p := [Run(cls, n)] + rest;
    assert p[0] == Run(cls, n) && p[1..] == rest;
  }

  /** A pattern that starts with a group of alternatives. */
  lemma MatchesEither(alts: seq<string>, rest: seq<Piece>, s: string)
    ensures Matches([Either(alts)] + rest, s)
            <==> exists a :: a in alts && StartsWith(s, a) && Matches(rest, s[|a|..])
  {
    var p := [Either(alts)] + rest;
    assert p[0] == Either(alts) && p[1..] == rest;
  }

  /** What the two class runs accept: a subscriber part. */
  lemma SubscriberPart(t: string)
    ensures Matches([Run(OneOf(MobilePrefixes), 1), Run(Digit, 8)], t) <==> Subscriber(t)
  {
    assert [Run(OneOf(MobilePrefixes), 1), Run(Digit, 8)] == [Run(OneOf(MobilePrefixes), 1)] + [Run(Digit, 8)];
    assert [Run(Digit, 8)] == [Run(Digit, 8)] + [];
    MatchesRun(OneOf(MobilePrefixes), 1, [Run(Digit, 8)], t);
    if 1 <= |t| {
      var u := t[1..];
      MatchesRun(Digit, 8, [], u);
      if |t| == 9 {
        assert AllDigits(t[1..]) <==> forall i :: 0 <= i < 8 ==> IsDigit(u[i]);
      }
    }
  }

  /** A string starts with the first character of any non-empty prefix it
      starts with. */
  lemma StartsWithHead(s: string, prefix: string)
    requires prefix != []
    ensures StartsWith(s, prefix) ==> s[0] == prefix[0]
  {
    if StartsWith(s, prefix) {
      assert s[..|prefix|][0] == s[0];
    }
  }

  /** The phone pattern accepts exactly the mobile numbers. */
  lemma PhonePatternIffMobile(s: string)
    ensures Matches(PhonePattern, s) <==> MobileNumber(s)
  {
    var alts := ["0", "+84"];
    var tail := [Run(OneOf(MobilePrefixes), 1), Run(Digit, 8)];
    assert PhonePattern == [Either(alts)] + tail;
    MatchesEither(alts, tail, s);
    if StartsWith(s, "0") {
      SubscriberPart(s[1..]);
    }
    if StartsWith(s, "+84") {
      SubscriberPart(s[3..]);
    }
    if MobileNumber(s) {
      if StartsWith(s, "0") && Subscriber(s[1..]) {
        assert "0" in alts;
      } else {
        assert "+84" in alts;
      }
    }
  }

  /** An accepted number has 10 or 12 characters. */
  lemma PhoneLength(s: string)
    requires Matches(PhonePattern, s)
    ensures |s| == 10 || |s| == 12
  {
    PhonePatternIffMobile(s);
  }

  /** The national and the international spelling of the same subscriber
      are accepted together. */
  lemma TrunkOrCountryCode(subscriber: string)
    ensures Matches(PhonePattern, "0" + subscriber) <==> Matches(PhonePattern, "+84" + subscriber)
  {
    PhonePatternIffMobile("0" + subscriber);
    PhonePatternIffMobile("+84" + subscriber);
    assert ("0" + subscriber)[1..] == subscriber;
    assert ("+84" + subscriber)[3..] == subscriber;
    StartsWithHead("0" + subscriber, "+84");
    StartsWithHead("+84" + subscriber, "0");
  }

  // ---------------------------------------------------------------------
  // E-mail address

  /** `user@host` is an address whenever neither part is empty and neither
      holds an `@`. */
  lemma EmailOfParts(user: string, host: string)
    requires user != [] && host != []
    requires '@' !in user && '@' !in host
    ensures EmailShape(user + "@" + host)
  {
    var s := user + "@" + host;
    var k := |user|;
    assert s[k] == '@';
    forall j | 0 <= j < |s| && j != k ensures s[j] != '@' {
      if j < k {
        assert s[j] == user[j];
      } else {
        assert s[j] == host[j - k - 1];
      }
    }
  }

  /** An address never starts or ends with `@`. */
  lemma EmailShapeEnds(s: string)
    requires EmailShape(s)
    ensures 3 <= |s| && s[0] != '@' && s[|s| - 1] != '@'
  {
  }

  // ---------------------------------------------------------------------
  // The form

  const MaxFullName: nat := 100
  const MinPassword: nat := 6
  const MaxPassword: nat := 100

  /** `[Compare("Password")]`: both fields equal, both absent included. */
  predicate SameAs(confirm: Option<string>, password: Option<string>) {
    confirm == password
  }

  /** The checks on the full name: `[Required]`, `[StringLength(100)]`. */
  function NameProblems(name: Option<string>): (r: seq<Problem>)
    ensures r == [] <==> name.Some? && !IsBlank(name.value) && |name.value| <= MaxFullName
    ensures (FullNameMissing in r <==> !Required(name)) && |r| <= 2
    ensures forall x :: x in r ==> x == FullNameMissing || x == FullNameTooLong
  {
    (if Required(name) then [] else [FullNameMissing])
    + (if AtMost(name, MaxFullName) then [] else [FullNameTooLong])
  }

  /** The checks on the phone: `[Required]` and the pattern, which passes an
      absent or empty value. */
  function PhoneProblems(phone: Option<string>): (r: seq<Problem>)
    ensures (PhoneMissing in r <==> !Required(phone)) && |r| <= 2
    ensures forall x :: x in r ==> x == PhoneMissing || x == PhoneMalformed
  {
    (if Required(phone) then [] else [PhoneMissing])
    + (if phone.None? || phone.value == "" || Matches(PhonePattern, phone.value) then [] else [PhoneMalformed])
  }

  /** The phone passes both checks exactly when it is a mobile number. */
  lemma PhoneProblemsIff(phone: Option<string>)
    ensures PhoneProblems(phone) == [] <==> phone.Some? && MobileNumber(phone.value)
  {
    if phone.Some? {
      var s := phone.value;
      PhonePatternIffMobile(s);
      if MobileNumber(s) {
        StartsWithHead(s, "0");
        StartsWithHead(s, "+84");
        assert !IsWhiteSpace(s[0]);
      }
    }
  }

  /** The checks on the e-mail: `[Required]`, `[EmailAddress]`. */
  function EmailProblems(email: Option<string>): (r: seq<Problem>)
    ensures r == [] <==> email.Some? && !IsBlank(email.value) && EmailShape(email.value)
    ensures (EmailMissing in r <==> !Required(email)) && |r| <= 2
    ensures forall x :: x in r ==> x == EmailMissing || x == EmailMalformed
  {
    (if Required(email) then [] else [EmailMissing])
    + (if email.None? || EmailShape(email.value) then [] else [EmailMalformed])
  }

  /** The checks on the password: `[Required]`,
      `[StringLength(100, MinimumLength = 6)]`. */
  function PasswordProblems(password: Option<string>): (r: seq<Problem>)
    ensures r == [] <==> password.Some? && !IsBlank(password.value)
                         && MinPassword <= |password.value| <= MaxPassword
    ensures (PasswordMissing in r <==> !Required(password)) && |r| <= 2
    ensures forall x :: x in r ==> x == PasswordMissing || x == PasswordLength
  {
    (if Required(password) then [] else [PasswordMissing])
    + (if password.None? || MinPassword <= |password.value| <= MaxPassword then [] else [PasswordLength])
  }

  /** The checks on the confirmation: `[Required]`, `[Compare("Password")]`. */
  function ConfirmProblems(confirm: Option<string>, password: Option<string>): (r: seq<Problem>)
    ensures r == [] <==> confirm.Some? && !IsBlank(confirm.value) && confirm == password
    ensures (ConfirmMissing in r <==> !Required(confirm)) && |r| <= 2
    ensures forall x :: x in r ==> x == ConfirmMissing || x == ConfirmMismatch
  {
    (if Required(confirm) then [] else [ConfirmMissing])
    + (if SameAs(confirm, password) then [] else [ConfirmMismatch])
  }

  /** Each check that fails, field by field in declaration order. */
  function Problems(f: RegisterForm): (r: seq<Problem>)
    ensures FullNameMissing in r <==> !Required(f.fullName)
    ensures PhoneMissing in r <==> !Required(f.phone)
    ensures EmailMissing in r <==> !Required(f.email)
    ensures PasswordMissing in r <==> !Required(f.password)
    ensures ConfirmMissing in r <==> !Required(f.confirmPassword)
    ensures |r| <= 10
  {
    var a := NameProblems(f.fullName);
    var b := PhoneProblems(f.phone);
    var c := EmailProblems(f.email);
    var d := PasswordProblems(f.password);
    var e := ConfirmProblems(f.confirmPassword, f.password);
    InFiveParts(FullNameMissing, a, b, c, d, e);
    InFiveParts(PhoneMissing, a, b, c, d, e);
    InFiveParts(EmailMissing, a, b, c, d, e);
    InFiveParts(PasswordMissing, a, b, c, d, e);
    InFiveParts(ConfirmMissing, a, b, c, d, e);
    a + b + c + d + e
  }

  lemma InFiveParts(x: Problem, a: seq<Problem>, b: seq<Problem>, c: seq<Problem>, d: seq<Problem>, e: seq<Problem>)
    ensures x in a + b + c + d + e <==> x in a || x in b || x in c || x in d || x in e
    ensures |a + b + c + d + e| == |a| + |b| + |c| + |d| + |e|
  {
  }

  /** The form is accepted when no check fails. */
  predicate Accepted(f: RegisterForm) {
    Problems(f) == []
  }

  /** The form is accepted exactly when the name is given and short enough,
      the phone is a mobile number, the e-mail has its single `@`, the
      password is given with 6 to 100 characters and the confirmation
      repeats it. */
  lemma AcceptedIff(f: RegisterForm)
    ensures Accepted(f) <==>
              && f.fullName.Some? && !IsBlank(f.fullName.value) && |f.fullName.value| <= MaxFullName
              && f.phone.Some? && MobileNumber(f.phone.value)
              && f.email.Some? && !IsBlank(f.email.value) && EmailShape(f.email.value)
              && f.password.Some? && !IsBlank(f.password.value)
              && MinPassword <= |f.password.value| <= MaxPassword
              && f.confirmPassword == f.password
  {
    var parts := [NameProblems(f.fullName), PhoneProblems(f.phone), EmailProblems(f.email),
                  PasswordProblems(f.password), ConfirmProblems(f.confirmPassword, f.password)];
    PhoneProblemsIff(f.phone);
    assert |Problems(f)| == |parts[0]| + |parts[1]| + |parts[2]| + |parts[3]| + |parts[4]|;
  }

  /** A confirmation that differs from an otherwise acceptable form is the
      only problem reported. */
  lemma MismatchAlone(f: RegisterForm, confirm: string)
    requires Accepted(f)
    requires !IsBlank(confirm) && Some(confirm) != f.password
    ensures Problems(f.(confirmPassword := Some(confirm))) == [ConfirmMismatch]
  {
    AcceptedIff(f);
  }

  /** An empty form reports every field as missing and nothing else. */
  lemma EmptyFormMissing()
    ensures Problems(RegisterForm(None, None, None, None, None))
            == [FullNameMissing, PhoneMissing, EmailMissing, PasswordMissing, ConfirmMissing]
  {
  }
}

=== FILE: repository.dfy ===
/** The database context: one table per entity set, each an ordered sequence
    of rows, and the identity counter that numbers the next inserted row.
    Every controller action is one atomic step on this store (the request's
    `SaveChanges`); an action that returns before `SaveChanges` leaves it as
    it was. */
module Repository {
  import opened Wrappers
  import opened Models
  import opened Stock

  /** How an action ended. */
  datatype Outcome = Saved | NotFound | Rejected(reason: Rejection)

  datatype Rejection =
    | InsufficientStock   // the requested quantity exceeds the computed stock
    | OutOfStock          // the computed stock is zero or negative
    | NothingSelected     // no supplier or no product was chosen

  /** The contents of every table, as one value. */
  datatype Snapshot = Snapshot(
    products: seq<Product>,
    entries: seq<LedgerEntry>,
    orders: seq<Order>,
    customers: seq<Customer>,
    productions: seq<ProductionOrder>,
    purchases: seq<PurchaseOrder>,
    nextEntryId: int,
    nextOrderId: int,
    nextCustomerId: int,
    nextProductionId: int,
    nextPurchaseId: int)

  class DataContext {
    var products: seq<Product>
    var entries: seq<LedgerEntry>
    var orders: seq<Order>
    var customers: seq<Customer>
    var productions: seq<ProductionOrder>
    var purchases: seq<PurchaseOrder>
    var nextEntryId: int
    var nextOrderId: int
    var nextCustomerId: int
    var nextProductionId: int
    var nextPurchaseId: int

    function State(): Snapshot
      reads this
    {
      Snapshot(products, entries, orders, customers, productions, purchases,
               nextEntryId, nextOrderId, nextCustomerId, nextProductionId, nextPurchaseId)
    }

    /** Primary keys are unique in every table, and every stored key is
        below its table's identity counter. */
    ghost predicate Valid()
      reads this
    {
      (forall i, j :: 0 <= i < j < |products| ==> products[i].id != products[j].id)
      && UniqueIds(entries)
      && (forall i :: 0 <= i < |entries| ==> entries[i].id < nextEntryId)
      && (forall i, j :: 0 <= i < j < |orders| ==> orders[i].id != orders[j].id)
      && (forall i :: 0 <= i < |orders| ==> orders[i].id < nextOrderId)
      && (forall i, j :: 0 <= i < j < |customers| ==> customers[i].id != customers[j].id)
      && (forall i :: 0 <= i < |customers| ==> customers[i].id < nextCustomerId)
      && (forall i, j :: 0 <= i < j < |productions| ==> productions[i].id != productions[j].id)
      && (forall i :: 0 <= i < |productions| ==> productions[i].id < nextProductionId)
      && (forall i, j :: 0 <= i < j < |purchases| ==> purchases[i].id != purchases[j].id)
      && (forall i :: 0 <= i < |purchases| ==> purchases[i].id < nextPurchaseId)
    }

    /** A store holding a product catalogue and nothing else. */
    constructor (catalogue: seq<Product>)
      requires forall i, j :: 0 <= i < j < |catalogue| ==> catalogue[i].id != catalogue[j].id
      ensures Valid()
      ensures State() == Snapshot(catalogue, [], [], [], [], [], 1, 1, 1, 1, 1)
    {
      products := catalogue;
      entries := [];
      orders := [];
      customers := [];
      productions := [];
      purchases := [];
      nextEntryId := 1;
      nextOrderId := 1;
      nextCustomerId := 1;
      nextProductionId := 1;
      nextPurchaseId := 1;
    }
  }

  // ---------------------------------------------------------------------
  // Lookups by primary key (`Find` / `FirstOrDefault(x => x.Id == id)`)

  function FindEntry(entries: seq<LedgerEntry>, id: int, kind: Option<string>): (r: Option<nat>)
    ensures r.Some? ==> r.value < |entries| && entries[r.value].id == id
    ensures r.Some? ==> kind.None? || entries[r.value].transactionType == kind.value
    ensures r.None? <==> forall j :: 0 <= j < |entries| ==>
                           !(entries[j].id == id && (kind.None? || entries[j].transactionType == kind.value))
  {
    FirstIndex(entries, (e: LedgerEntry) => e.id == id && (kind.None? || e.transactionType == kind.value))
  }

  function FindOrder(orders: seq<Order>, id: int): (r: Option<nat>)
    ensures r.Some? ==> r.value < |orders| && orders[r.value].id == id
    ensures r.None? <==> forall j :: 0 <= j < |orders| ==> orders[j].id != id
  {
    FirstIndex(orders, (o: Order) => o.id == id)
  }

  function FindCustomer(customers: seq<Customer>, id: int): (r: Option<nat>)
    ensures r.Some? ==> r.value < |customers| && customers[r.value].id == id
    ensures r.None? <==> forall j :: 0 <= j < |customers| ==> customers[j].id != id
  {
    FirstIndex(customers, (c: Customer) => c.id == id)
  }

  function FindProduction(productions: seq<ProductionOrder>, id: int): (r: Option<nat>)
    ensures r.Some? ==> r.value < |productions| && productions[r.value].id == id
    ensures r.None? <==> forall j :: 0 <= j < |productions| ==> productions[j].id != id
  {
    FirstIndex(productions, (o: ProductionOrder) => o.id == id)
  }

  function FindPurchase(purchases: seq<PurchaseOrder>, id: int): (r: Option<nat>)
    ensures r.Some? ==> r.value < |purchases| && purchases[r.value].id == id
    ensures r.None? <==> forall j :: 0 <= j < |purchases| ==> purchases[j].id != id
  {
    FirstIndex(purchases, (o: PurchaseOrder) => o.id == id)
  }
}

=== FILE: stock.dfy ===
/** The stock formula that every controller re-implements: a product's stock
    is its base quantity plus the quantities of its "Import" entries minus the
    quantities of its "Export" entries, with no clamping at zero. */
module Stock {
  import opened Wrappers
  import opened Models

  /** The quantity `e` adds to a `Sum(t => t.Quantity)` over entries of
      product `productId` and type `kind`, optionally leaving out the entry
      whose id is `skip` (`t.Id != skip`). */
  function Share(e: LedgerEntry, productId: int, kind: string, skip: Option<int>): real {
    if e.productId == productId && e.transactionType == kind && (skip.None? || e.id != skip.value)
    then e.quantity else 0.0
  }

  /** `entries.Where(...).Sum(t => (decimal?)t.Quantity) ?? 0`. */
  function Total(entries: seq<LedgerEntry>, productId: int, kind: string, skip: Option<int>): real
    decreases |entries|
  {
    if entries == [] then 0.0
    else Total(entries[..|entries| - 1], productId, kind, skip) + Share(entries[|entries| - 1], productId, kind, skip)
  }

  function Imported(entries: seq<LedgerEntry>, productId: int): real {
    Total(entries, productId, ImportType, None)
  }

  function Exported(entries: seq<LedgerEntry>, productId: int): real {
    Total(entries, productId, ExportType, None)
  }

  /** `product.ProductQuantity + totalImported - totalExported`: with no
      slips of the product the stock is its base quantity. */
  function StockOf(p: Product, entries: seq<LedgerEntry>): (r: real)
    ensures (forall i :: 0 <= i < |entries| ==> entries[i].productId != p.id) ==> r == p.quantity
  {
    NoSlipsNoShare(entries, p.id);
    p.quantity + Imported(entries, p.id) - Exported(entries, p.id)
  }

  lemma NoSlipsNoShare(entries: seq<LedgerEntry>, productId: int)
    ensures (forall i :: 0 <= i < |entries| ==> entries[i].productId != productId) ==>
              Imported(entries, productId) == 0.0 && Exported(entries, productId) == 0.0
  {
    if forall i :: 0 <= i < |entries| ==> entries[i].productId != productId {
      NoShare(entries, productId, ImportType);
      NoShare(entries, productId, ExportType);
    }
  }

  // ---------------------------------------------------------------------
  // How the sums react to the changes the controllers make to the ledger

  lemma {:induction false} TotalAppend(s: seq<LedgerEntry>, e: LedgerEntry, productId: int, kind: string, skip: Option<int>)
    ensures Total(s + [e], productId, kind, skip) == Total(s, productId, kind, skip) + Share(e, productId, kind, skip)
  {
    assert (s + [e])[..|s|] == s;
  }

  lemma {:induction false} TotalConcat(s: seq<LedgerEntry>, t: seq<LedgerEntry>, productId: int, kind: string, skip: Option<int>)
    ensures Total(s + t, productId, kind, skip) == Total(s, productId, kind, skip) + Total(t, productId, kind, skip)
    decreases |t|
  {
    if t == [] {
      assert s + t == s;
    } else {
      var u := t[..|t| - 1];
      var e := t[|t| - 1];
      assert s + t == (s + u) + [e];
      assert t == u + [e];
      TotalAppend(s + u, e, productId, kind, skip);
      TotalAppend(u, e, productId, kind, skip);
      TotalConcat(s, u, productId, kind, skip);
    }
  }

  /** Removing the entry at `k` takes away exactly its own share. */
  lemma {:induction false} TotalRemoveAt(s: seq<LedgerEntry>, k: nat, productId: int, kind: string, skip: Option<int>)
    requires k < |s|
    ensures Total(RemoveAt(s, k), productId, kind, skip) == Total(s, productId, kind, skip) - Share(s[k], productId, kind, skip)
  {
    assert s == s[..k] + [s[k]] + s[k + 1..];
    assert RemoveAt(s, k) == s[..k] + s[k + 1..];
    TotalConcat(s[..k] + [s[k]], s[k + 1..], productId, kind, skip);
    TotalConcat(s[..k], s[k + 1..], productId, kind, skip);
    TotalAppend(s[..k], s[k], productId, kind, skip);
  }

  /** Replacing the entry at `k` swaps its share for the new entry's. */
  lemma {:induction false} TotalReplaceAt(s: seq<LedgerEntry>, k: nat, e: LedgerEntry, productId: int, kind: string, skip: Option<int>)
    requires k < |s|
    ensures Total(s[k := e], productId, kind, skip)
         == Total(s, productId, kind, skip) - Share(s[k], productId, kind, skip) + Share(e, productId, kind, skip)
  {
    assert s == s[..k] + [s[k]] + s[k + 1..];
    assert s[k := e] == s[..k] + [e] + s[k + 1..];
    TotalConcat(s[..k] + [s[k]], s[k + 1..], productId, kind, skip);
    TotalConcat(s[..k] + [e], s[k + 1..], productId, kind, skip);
    TotalAppend(s[..k], s[k], productId, kind, skip);
    TotalAppend(s[..k], e, productId, kind, skip);
  }

  /** No two entries share an id. */
  predicate UniqueIds(s: seq<LedgerEntry>) {
    forall i, j :: 0 <= i < j < |s| ==> s[i].id != s[j].id
  }

  /** When ids are unique, leaving out the entry with `s[k]`'s id is the same
      as summing the ledger without position `k`. */
  lemma {:induction false} SkipIsRemoval(s: seq<LedgerEntry>, k: nat, productId: int, kind: string)
    requires k < |s| && UniqueIds(s)
    ensures Total(s, productId, kind, Some(s[k].id)) == Total(RemoveAt(s, k), productId, kind, None)
    ensures Total(s, productId, kind, Some(s[k].id)) == Total(s, productId, kind, None) - Share(s[k], productId, kind, None)
  {
    SkipOthers(RemoveAt(s, k), s[k].id, productId, kind);
    assert s == s[..k] + [s[k]] + s[k + 1..];
    TotalConcat(s[..k] + [s[k]], s[k + 1..], productId, kind, Some(s[k].id));
    TotalConcat(s[..k], s[k + 1..], productId, kind, Some(s[k].id));
    TotalAppend(s[..k], s[k], productId, kind, Some(s[k].id));
    TotalRemoveAt(s, k, productId, kind, None);
  }

  /** Leaving out an id that no entry carries changes nothing. */
  lemma {:induction false} SkipOthers(s: seq<LedgerEntry>, id: int, productId: int, kind: string)
    requires forall i :: 0 <= i < |s| ==> s[i].id != id
    ensures Total(s, productId, kind, Some(id)) == Total(s, productId, kind, None)
    decreases |s|
  {
    if s != [] {
      SkipOthers(s[..|s| - 1], id, productId, kind);
    }
  }

  /** Entries of other products do not move a product's stock. */
  lemma StockIgnoresOtherProducts(p: Product, s: seq<LedgerEntry>, t: seq<LedgerEntry>)
    requires forall i :: 0 <= i < |t| ==> t[i].productId != p.id
    ensures StockOf(p, s + t) == StockOf(p, s)
  {
    TotalConcat(s, t, p.id, ImportType, None);
    TotalConcat(s, t, p.id, ExportType, None);
    NoShare(t, p.id, ImportType);
    NoShare(t, p.id, ExportType);
  }

  lemma {:induction false} NoShare(t: seq<LedgerEntry>, productId: int, kind: string)
    requires forall i :: 0 <= i < |t| ==> t[i].productId != productId
    ensures Total(t, productId, kind, None) == 0.0
    decreases |t|
  {
    if t != [] {
      NoShare(t[..|t| - 1], productId, kind);
    }
  }

  // ---------------------------------------------------------------------
  // The JSON stock endpoints, with the reflection over the reply replaced by
  // a direct reading of its fields

  /** Position of the product with id `id` (`FirstOrDefault(p => p.Id == id)`). */
  function FindProduct(products: seq<Product>, id: int): (r: Option<nat>)
    ensures r.Some? ==> r.value < |products| && products[r.value].id == id
    ensures r.None? <==> forall j :: 0 <= j < |products| ==> products[j].id != id
  {
    FirstIndex(products, (p: Product) => p.id == id)
  }

  /** The reply of the warehouse and purchase stock endpoints:
      `success = false`, or the product's name, unit and stock (the
      production endpoint sends the same minus the name). */
  datatype StockReply = NoSuchProduct | StockFound(name: string, unit: string, stock: real)

  /** `GetInventoryStock` / `GetInventory`. */
  function InventoryStock(products: seq<Product>, entries: seq<LedgerEntry>, id: int): (r: StockReply)
    ensures r.NoSuchProduct? <==> forall j :: 0 <= j < |products| ==> products[j].id != id
    ensures r.StockFound? ==>
              (exists k :: 0 <= k < |products| && products[k].id == id
                 && r.name == products[k].name && r.unit == products[k].unit
                 && r.stock == products[k].quantity + Imported(entries, id) - Exported(entries, id))
  {
    match FindProduct(products, id)
    case None => NoSuchProduct
    case Some(k) => StockFound(products[k].name, products[k].unit, StockOf(products[k], entries))
  }

  /** The stock the Export and auto-export actions read from the reply:
      the `stock` field, or 0 when the reply has none. */
  function ReplyStock(r: StockReply): real {
    if r.StockFound? then r.stock else 0.0
  }

  /** With unique product ids, the stock read from the warehouse's stock
      reply for the product at `k` is that product's stock. */
  lemma StockReplyOf(products: seq<Product>, entries: seq<LedgerEntry>, k: nat)
    requires k < |products|
    requires forall i, j :: 0 <= i < j < |products| ==> products[i].id != products[j].id
    ensures ReplyStock(InventoryStock(products, entries, products[k].id)) == StockOf(products[k], entries)
  {
    var r := FindProduct(products, products[k].id);
    assert r.Some? && r.value <= k;
  }

  /** The reply of the order form's stock endpoint, which answers a missing
      product with zeros instead of `success = false`. */
  datatype StockAndPrice = StockAndPrice(stock: real, unit: string, price: real, image: Option<string>)

  function StockByProductId(products: seq<Product>, entries: seq<LedgerEntry>, id: int): (r: StockAndPrice)
    ensures (forall j :: 0 <= j < |products| ==> products[j].id != id) ==> r == StockAndPrice(0.0, "", 0.0, Some(""))
    ensures forall k :: 0 <= k < |products| && products[k].id == id && (forall j :: 0 <= j < k ==> products[j].id != id) ==>
                (r == StockAndPrice(products[k].quantity + Imported(entries, id) - Exported(entries, id),
                                    products[k].unit, products[k].price, products[k].image))
  {
    match FindProduct(products, id)
    case None => StockAndPrice(0.0, "", 0.0, Some(""))
    case Some(k) => StockAndPrice(StockOf(products[k], entries), products[k].unit, products[k].price, products[k].image)
  }
}

=== FILE: text.dfy ===
/** The string operations of the .NET base library that the controllers call:
    `string.IsNullOrWhiteSpace`, ordinal `Contains` and `StartsWith`, `Trim`,
    `Split(',')`, ordinal case-insensitive equality and the `D<n>` integer
    format (zero-padded decimal). */
module Text {
  import opened Wrappers

  /** `char.IsWhiteSpace`: the characters of the Unicode White_Space property. */
  predicate IsWhiteSpace(c: char) {
    ('\t' <= c <= '\r') || c == ' ' || c == '\U{0085}' || c == '\U{00A0}' || c == '\U{1680}'
    || ('\U{2000}' <= c <= '\U{200A}') || c == '\U{2028}' || c == '\U{2029}'
    || c == '\U{202F}' || c == '\U{205F}' || c == '\U{3000}'
  }

  /** `string.IsNullOrWhiteSpace` on a non-null string. */
  predicate IsBlank(s: string) {
    forall i :: 0 <= i < |s| ==> IsWhiteSpace(s[i])
  }

  /** `string.IsNullOrWhiteSpace` on a nullable string. */
  predicate IsNullOrWhiteSpace(s: Option<string>) {
    s.None? || IsBlank(s.value)
  }

  /** `string.IsNullOrEmpty` on a nullable string. */
  predicate IsNullOrEmpty(s: Option<string>) {
    s.None? || s.value == ""
  }

  // ---------------------------------------------------------------------
  // Ordinal prefix and substring search

  predicate StartsWith(s: string, prefix: string) {
    |prefix| <= |s| && s[..|prefix|] == prefix
  }

  /** Ordinal `s.Contains(sub)`: `sub` starts at some position of `s`. */
  predicate Contains(s: string, sub: string): (b: bool)
    ensures b ==> |sub| <= |s|
    ensures sub == [] ==> b
    decreases |s|
  {
    StartsWith(s, sub) || (|s| > 0 && Contains(s[1..], sub))
  }

  /** `sub` occurs in `s` starting at position `i`. */
  predicate OccursAt(s: string, sub: string, i: int) {
    0 <= i && i + |sub| <= |s| && s[i..i + |sub|] == sub
  }

  /** The recursive search agrees with the positional definition of an
      occurrence, in both directions. */
  lemma {:induction false} ContainsIffOccurs(s: string, sub: string)
    ensures Contains(s, sub) <==> exists i :: OccursAt(s, sub, i)
    decreases |s|
  {
    if StartsWith(s, sub) {
      assert OccursAt(s, sub, 0);
    } else if |s| == 0 {
      assert forall i :: !OccursAt(s, sub, i);
    } else {
      ContainsIffOccurs(s[1..], sub);
      if exists i :: OccursAt(s, sub, i) {
        var i :| OccursAt(s, sub, i);
        if i > 0 {
          assert OccursAt(s[1..], sub, i - 1);
        }
      }
      if Contains(s[1..], sub) {
        var i :| OccursAt(s[1..], sub, i);
        assert OccursAt(s, sub, i + 1);
      }
    }
  }

  /** A string contains whatever is spliced into it. */
  lemma {:induction false} ContainsSpliced(prefix: string, x: string, suffix: string)
    ensures Contains(prefix + x + suffix, x)
  {
    var s := prefix + x + suffix;
    assert OccursAt(s, x, |prefix|);
    ContainsIffOccurs(s, x);
  }

  /** The pieces of a concatenation read back by position. */
  lemma ThreeParts(a: string, b: string, c: string)
    ensures (a + b + c)[..|a|] == a && (a + b + c)[|a|..|a| + |b|] == b && (a + b + c)[|a| + |b|..] == c
  {
  }

  /** A note built as `caption + number` names the number. */
  lemma ContainsLabelled(caption: string, x: string)
    ensures Contains(caption + x, x)
  {
    ContainsSpliced(caption, x, "");
    assert caption + x + "" == caption + x;
  }

  // ---------------------------------------------------------------------
  // Trim and Split

  /** `string.TrimStart()`: drops the leading white space and only that. */
  function TrimStart(s: string): (r: string)
    ensures |r| <= |s| && r == s[|s| - |r|..]
    ensures forall i :: 0 <= i < |s| - |r| ==> IsWhiteSpace(s[i])
    ensures r == [] || !IsWhiteSpace(r[0])
    decreases |s|
  {
    if s != [] && IsWhiteSpace(s[0]) then TrimStart(s[1..]) else s
  }

  /** `string.TrimEnd()`: drops the trailing white space and only that. */
  function TrimEnd(s: string): (r: string)
    ensures |r| <= |s| && r == s[..|r|]
    ensures forall i :: |r| <= i < |s| ==> IsWhiteSpace(s[i])
    ensures r == [] || !IsWhiteSpace(r[|r| - 1])
    decreases |s|
  {
    if s != [] && IsWhiteSpace(s[|s| - 1]) then TrimEnd(s[..|s| - 1]) else s
  }

  /** `string.Trim()`: a stretch of the input (what `TrimStart` and
      `TrimEnd` drop is white space) with no white space at either edge. */
  function Trim(s: string): (r: string)
    ensures |r| <= |s|
    ensures r == [] || (!IsWhiteSpace(r[0]) && !IsWhiteSpace(r[|r| - 1]))
  {
    TrimEnd(TrimStart(s))
  }

  /** A string is blank exactly when trimming leaves nothing. */
  lemma {:induction false} TrimEmptyIffBlank(s: string)
    ensures Trim(s) == [] <==> IsBlank(s)
  {
    TrimStartBlank(s);
    var t := TrimStart(s);
    if t != [] {
      assert !IsWhiteSpace(t[0]);
      var u := TrimEnd(t);
      if u == [] {
        TrimEndBlank(t);
        assert false;
      }
      assert !IsBlank(s) by {
        assert s[|s| - |t|] == t[0];
      }
    }
  }

  lemma {:induction false} TrimStartBlank(s: string)
    ensures TrimStart(s) == [] <==> IsBlank(s)
    decreases |s|
  {
    if s != [] && IsWhiteSpace(s[0]) {
      TrimStartBlank(s[1..]);
      assert IsBlank(s) <==> IsBlank(s[1..]) by {
        if IsBlank(s[1..]) {
          forall i | 0 <= i < |s| ensures IsWhiteSpace(s[i]) {
            if i > 0 { assert s[i] == s[1..][i - 1]; }
          }
        }
      }
    }
  }

  lemma {:induction false} TrimEndBlank(s: string)
    ensures TrimEnd(s) == [] <==> IsBlank(s)
    decreases |s|
  {
    if s != [] && IsWhiteSpace(s[|s| - 1]) {
      var p := s[..|s| - 1];
      TrimEndBlank(p);
      assert IsBlank(s) <==> IsBlank(p) by {
        if IsBlank(p) {
          forall i | 0 <= i < |s| ensures IsWhiteSpace(s[i]) {
            if i < |s| - 1 { assert s[i] == p[i]; }
          }
        }
      }
    }
  }

  /** `s.Split(',')`: the pieces between commas, empty pieces included. */
  function SplitOnComma(s: string): (r: seq<string>)
    ensures |r| >= 1
    ensures forall i :: 0 <= i < |r| ==> ',' !in r[i]
    decreases |s|
  {
    if s == [] then [""]
    else
      var rest := SplitOnComma(s[1..]);
      if s[0] == ',' then [""] + rest
      else [[s[0]] + rest[0]] + rest[1..]
  }

  /** `string.Join(',', pieces)`. */
  function JoinWithComma(pieces: seq<string>): (r: string)
    requires |pieces| >= 1
    ensures |r| >= |pieces| - 1
    decreases |pieces|
  {
    if |pieces| == 1 then pieces[0] else pieces[0] + "," + JoinWithComma(pieces[1..])
  }

  /** Splitting loses nothing: joining the pieces with commas gives the
      string back. */
  lemma {:induction false} SplitOnCommaRoundTrip(s: string)
    ensures JoinWithComma(SplitOnComma(s)) == s
    decreases |s|
  {
    if s != [] {
      var rest := SplitOnComma(s[1..]);
      SplitOnCommaRoundTrip(s[1..]);
      if s[0] == ',' {
        assert ([""] + rest)[1..] == rest;
      } else {
        var r := [[s[0]] + rest[0]] + rest[1..];
        if |rest| == 1 {
          assert JoinWithComma(r) == [s[0]] + rest[0];
        } else {
          assert r[1..] == rest[1..];
          assert JoinWithComma(r) == [s[0]] + (rest[0] + "," + JoinWithComma(rest[1..]));
        }
        assert [s[0]] + s[1..] == s;
      }
    }
  }

  // ---------------------------------------------------------------------
  // E-mail address

  /** The rule of the `[EmailAddress]` annotation: exactly one `@`, neither
      the first nor the last character. */
  predicate EmailShape(s: string) {
    exists k :: 0 < k < |s| - 1 && s[k] == '@' && forall j :: 0 <= j < |s| && j != k ==> s[j] != '@'
  }

  // ---------------------------------------------------------------------
  // Case-insensitive equality (ASCII letters only)

  function UpperAscii(c: char): char {
    if 'a' <= c <= 'z' then (c as int - 32) as char else c
  }

  predicate EqualsIgnoreCase(a: string, b: string) {
    |a| == |b| && forall i :: 0 <= i < |a| ==> UpperAscii(a[i]) == UpperAscii(b[i])
  }

  // ---------------------------------------------------------------------
  // Decimal digits and the "D<n>" format

  predicate IsDigit(c: char) {
    '0' <= c <= '9'
  }

  predicate AllDigits(s: string) {
    forall i :: 0 <= i < |s| ==> IsDigit(s[i])
  }

  function DigitChar(d: nat): (c: char)
    requires d < 10
    ensures IsDigit(c) && c as int - '0' as int == d
  {
    ('0' as int + d) as char
  }

  function DigitValue(c: char): nat
    requires IsDigit(c)
  {
    c as int - '0' as int
  }

  /** Value of a string of decimal digits (leading zeros allowed). */
  function DigitsValue(s: string): nat
    requires AllDigits(s)
    decreases |s|
  {
    if s == [] then 0 else 10 * DigitsValue(s[..|s| - 1]) + DigitValue(s[|s| - 1])
  }

  function Pow10(k: nat): (r: nat)
    ensures r >= 1
  {
    if k == 0 then 1 else 10 * Pow10(k - 1)
  }

  /** `n.ToString()`: decimal digits without leading zeros. */
  function Digits(n: nat): (r: string)
    ensures |r| >= 1 && AllDigits(r)
    ensures |r| > 1 ==> r[0] != '0'
  {
    if n < 10 then [DigitChar(n)] else Digits(n / 10) + [DigitChar(n % 10)]
  }

  function Zeros(k: nat): (r: string)
    ensures |r| == k && AllDigits(r)
    ensures forall i :: 0 <= i < k ==> r[i] == '0'
  {
    seq(k, _ => '0')
  }

  /** `n.ToString("D" + width)`: at least `width` digits, zero-padded on the left. */
  function Pad(n: nat, width: nat): (r: string)
    ensures AllDigits(r) && |r| >= width
  {
    var d := Digits(n);
    if |d| >= width then d else Zeros(width - |d|) + d
  }

  /** Reading back the digits of `n` gives `n`. */
  lemma {:induction false} DigitsRoundTrip(n: nat)
    ensures DigitsValue(Digits(n)) == n
  {
    if n >= 10 {
      DigitsRoundTrip(n / 10);
      var d := Digits(n);
      assert d[..|d| - 1] == Digits(n / 10);
    }
  }

  /** Leading zeros do not change the value. */
  lemma {:induction false} LeadingZeros(k: nat, s: string)
    requires AllDigits(s)
    ensures DigitsValue(Zeros(k) + s) == DigitsValue(s)
    decreases |s|
  {
    if s == [] {
      assert Zeros(k) + s == Zeros(k);
      ZerosValue(k);
    } else {
      var t := Zeros(k) + s;
      assert t[..|t| - 1] == Zeros(k) + s[..|s| - 1];
      LeadingZeros(k, s[..|s| - 1]);
    }
  }

  lemma {:induction false} ZerosValue(k: nat)
    ensures DigitsValue(Zeros(k)) == 0
  {
    if k > 0 {
      assert Zeros(k)[..k - 1] == Zeros(k - 1);
      ZerosValue(k - 1);
    }
  }

  /** Fewer than `k` digits exactly when the number is below 10^k. */
  lemma {:induction false} DigitsLength(n: nat, k: nat)
    requires k >= 1
    ensures |Digits(n)| <= k <==> n < Pow10(k)
  {
    if n >= 10 {
      if k == 1 {
        assert Pow10(1) == 10;
        assert |Digits(n)| == |Digits(n / 10)| + 1;
      } else {
        DigitsLength(n / 10, k - 1);
        assert n / 10 < Pow10(k - 1) <==> n < Pow10(k);
      }
    } else {
      assert Pow10(k) >= 10 by { Pow10AtLeastTen(k); }
    }
  }

  lemma {:induction false} Pow10AtLeastTen(k: nat)
    requires k >= 1
    ensures Pow10(k) >= 10
  {
    if k > 1 { Pow10AtLeastTen(k - 1); }
  }

  /** The "D<width>" format: the digits read back as `n`, and a number below
      10^width fills exactly `width` characters. */
  lemma {:induction false} PadRoundTrip(n: nat, width: nat)
    ensures DigitsValue(Pad(n, width)) == n
    ensures |Pad(n, width)| >= width
    ensures width >= 1 && n < Pow10(width) ==> |Pad(n, width)| == width
  {
    var d := Digits(n);
    DigitsRoundTrip(n);
    if |d| < width {
      LeadingZeros(width - |d|, d);
    }
    if width >= 1 && n < Pow10(width) {
      DigitsLength(n, width);
    }
  }
}

=== FILE: warehouse.dfy ===
/** The manual ledger actions of the warehouse screen: import and export
    slips, their edits and their deletion. Each action changes the ledger
    AND the product's base quantity, which the stock formula also counts;
    the lemmas below state the resulting stock movement exactly as the code
    produces it. */
module Warehouse {
  import opened Wrappers
  import opened Calendar
  import opened Models
  import opened Stock
  import opened Repository

  // ---------------------------------------------------------------------
  // Import

  /** Records an import slip for an existing product: the slip gets the
      product's unit and, when no positive price was entered, the product's
      price; the product's base quantity rises by the slip's quantity. */
  method Import(db: DataContext, form: LedgerEntry, now: DateTime) returns (outcome: Outcome)
    requires db.Valid()
    modifies db
    ensures db.Valid()
    ensures FindProduct(old(db.products), form.productId).None? ==>
              outcome == NotFound && db.State() == old(db.State())
    ensures FindProduct(old(db.products), form.productId).Some? ==>
              var k := FindProduct(old(db.products), form.productId).value;
              var p := old(db.products)[k];
              outcome == Saved
              && db.State() == old(db.State()).(
                   entries := old(db.entries) + [form.(id := old(db.nextEntryId), transactionType := ImportType,
                                                       date := now, unit := Some(p.unit),
                                                       unitPrice := if form.unitPrice <= 0.0 then p.price else form.unitPrice)],
                   nextEntryId := old(db.nextEntryId) + 1,
                   products := old(db.products)[k := p.(quantity := p.quantity + form.quantity)])
  {
    var found := FindProduct(db.products, form.productId);
    if found.None? {
      return NotFound;
    }
    var k := found.value;
    var p := db.products[k];
    var entry := form.(id := db.nextEntryId, transactionType := ImportType, date := now, unit := Some(p.unit),
                       unitPrice := if form.unitPrice <= 0.0 then p.price else form.unitPrice);
    db.entries := db.entries + [entry];
    db.nextEntryId := db.nextEntryId + 1;
    db.products := db.products[k := p.(quantity := p.quantity + form.quantity)];
    outcome := Saved;
  }

  /** An import is counted twice by the stock formula: once in the base
      quantity and once as an "Import" entry. */
  lemma ImportRaisesStockTwice(p: Product, entries: seq<LedgerEntry>, e: LedgerEntry)
    requires e.productId == p.id && e.transactionType == ImportType
    ensures StockOf(p.(quantity := p.quantity + e.quantity), entries + [e]) == StockOf(p, entries) + 2.0 * e.quantity
  {
    TotalAppend(entries, e, p.id, ImportType, None);
    TotalAppend(entries, e, p.id, ExportType, None);
  }

  // ---------------------------------------------------------------------
  // Export

  /** Records an export slip when the product's computed stock covers the
      quantity; the slip has no supplier, the product's unit and, failing a
      positive entered price, the product's price; the base quantity falls by
      the slip's quantity. */
  method Export(db: DataContext, form: LedgerEntry, now: DateTime) returns (outcome: Outcome)
    requires db.Valid()
    modifies db
    ensures db.Valid()
    ensures FindProduct(old(db.products), form.productId).None? ==>
              outcome == NotFound && db.State() == old(db.State())
    ensures FindProduct(old(db.products), form.productId).Some? ==>
              var k := FindProduct(old(db.products), form.productId).value;
              var p := old(db.products)[k];
              if form.quantity > StockOf(p, old(db.entries)) then
                outcome == Rejected(InsufficientStock) && db.State() == old(db.State())
              else
                outcome == Saved
                && db.State() == old(db.State()).(
                     entries := old(db.entries) + [form.(id := old(db.nextEntryId), transactionType := ExportType,
                                                         date := now, supplierId := None, unit := Some(p.unit),
                                                         unitPrice := if form.unitPrice <= 0.0 then p.price else form.unitPrice)],
                     nextEntryId := old(db.nextEntryId) + 1,
                     products := old(db.products)[k := p.(quantity := p.quantity - form.quantity)])
  {
    var found := FindProduct(db.products, form.productId);
    if found.None? {
      return NotFound;
    }
    var k := found.value;
    var p := db.products[k];
    var currentStock := ReplyStock(InventoryStock(db.products, db.entries, p.id));
    assert currentStock == StockOf(p, db.entries) by {
      UniqueProductLookup(db.products, k);
    }
    if form.quantity > currentStock {
      return Rejected(InsufficientStock);
    }
    var entry := form.(id := db.nextEntryId, transactionType := ExportType, date := now, supplierId := None,
                       unit := Some(p.unit), unitPrice := if form.unitPrice <= 0.0 then p.price else form.unitPrice);
    db.entries := db.entries + [entry];
    db.nextEntryId := db.nextEntryId + 1;
    db.products := db.products[k := p.(quantity := p.quantity - form.quantity)];
    outcome := Saved;
  }

  /** With unique product ids, the product found by id is the one at `k`. */
  lemma UniqueProductLookup(products: seq<Product>, k: nat)
    requires k < |products|
    requires forall i, j :: 0 <= i < j < |products| ==> products[i].id != products[j].id
    ensures FindProduct(products, products[k].id) == Some(k)
  {
    var r := FindProduct(products, products[k].id);
    assert r.Some? && r.value <= k;
  }

  /** An export is likewise counted twice: the stock falls by twice its
      quantity. */
  lemma ExportLowersStockTwice(p: Product, entries: seq<LedgerEntry>, e: LedgerEntry)
    requires e.productId == p.id && e.transactionType == ExportType
    ensures StockOf(p.(quantity := p.quantity - e.quantity), entries + [e]) == StockOf(p, entries) - 2.0 * e.quantity
  {
    TotalAppend(entries, e, p.id, ImportType, None);
    TotalAppend(entries, e, p.id, ExportType, None);
  }

  /** The stock check only bounds the quantity by the computed stock, so an
      accepted export can leave the base quantity negative (and the computed
      stock too). */
  lemma ExportCanDriveBaseNegative()
    ensures var e := LedgerEntry(1, 7, None, 5.0, DateTime(DateValue(2025, 1, 1), 0), ImportType, "n", None, 0.0);
            var p := Product(7, "P", 0.0, "kg", Material, None, 0.0);
            4.0 <= StockOf(p, [e]) && p.quantity - 4.0 < 0.0
            && StockOf(p.(quantity := p.quantity - 4.0), [e, e.(id := 2, transactionType := ExportType, quantity := 4.0)]) < 0.0
  {
    var e := LedgerEntry(1, 7, None, 5.0, DateTime(DateValue(2025, 1, 1), 0), ImportType, "n", None, 0.0);
    var x := e.(id := 2, transactionType := ExportType, quantity := 4.0);
    var p := Product(7, "P", 0.0, "kg", Material, None, 0.0);
    TotalAppend([], e, 7, ImportType, None);
    TotalAppend([], e, 7, ExportType, None);
    assert [] + [e] == [e];
    TotalAppend([e], x, 7, ImportType, None);
    TotalAppend([e], x, 7, ExportType, None);
    assert [e] + [x] == [e, x];
  }

  // ---------------------------------------------------------------------
  // Editing an export slip

  /** Changes an export slip's quantity, price and notes when the stock
      computed WITHOUT this slip's own quantity covers the new quantity; the
      base quantity is then reset to that stock minus the new quantity. */
  method ExportEdit(db: DataContext, form: LedgerEntry, now: DateTime) returns (outcome: Outcome)
    requires db.Valid()
    modifies db
    ensures db.Valid()
    ensures FindEntry(old(db.entries), form.id, Some(ExportType)).None? ==>
              outcome == NotFound && db.State() == old(db.State())
    ensures FindEntry(old(db.entries), form.id, Some(ExportType)).Some? ==>
              var k := FindEntry(old(db.entries), form.id, Some(ExportType)).value;
              var existing := old(db.entries)[k];
              match FindProduct(old(db.products), existing.productId)
              case None => outcome == NotFound && db.State() == old(db.State())
              case Some(pk) =>
                var p := old(db.products)[pk];
                var available := p.quantity + Total(old(db.entries), p.id, ImportType, None)
                                 - Total(old(db.entries), p.id, ExportType, Some(existing.id));
                if form.quantity > available then
                  outcome == Rejected(InsufficientStock) && db.State() == old(db.State())
                else
                  outcome == Saved
                  && db.State() == old(db.State()).(
                       products := old(db.products)[pk := p.(quantity := available - form.quantity)],
                       entries := old(db.entries)[k := existing.(quantity := form.quantity, unitPrice := form.unitPrice,
                                                                 notes := form.notes, date := now)])
  {
    var found := FindEntry(db.entries, form.id, Some(ExportType));
    if found.None? {
      return NotFound;
    }
    var k := found.value;
    var existing := db.entries[k];
    var productAt := FindProduct(db.products, existing.productId);
    if productAt.None? {
      return NotFound;
    }
    var pk := productAt.value;
    var p := db.products[pk];
    var totalImported := Total(db.entries, p.id, ImportType, None);
    var totalExported := Total(db.entries, p.id, ExportType, Some(existing.id));
    var currentStock := p.quantity + totalImported - totalExported;
    if form.quantity > currentStock {
      return Rejected(InsufficientStock);
    }
    db.products := db.products[pk := p.(quantity := currentStock - form.quantity)];
    db.entries := db.entries[k := existing.(quantity := form.quantity, unitPrice := form.unitPrice,
                                            notes := form.notes, date := now)];
    outcome := Saved;
  }

  /** The stock ExportEdit checks against is the current stock plus the
      slip's own quantity; an accepted edit therefore sets the base quantity
      to current stock + old quantity - new quantity, and the stock formula
      afterwards moves by twice the change plus the product's net movement. */
  lemma {:induction false} ExportEditEffect(p: Product, entries: seq<LedgerEntry>, k: nat, newQuantity: real)
    requires k < |entries| && UniqueIds(entries)
    requires entries[k].productId == p.id && entries[k].transactionType == ExportType
    ensures var available := p.quantity + Total(entries, p.id, ImportType, None) - Total(entries, p.id, ExportType, Some(entries[k].id));
            available == StockOf(p, entries) + entries[k].quantity
            && StockOf(p.(quantity := available - newQuantity), entries[k := entries[k].(quantity := newQuantity)])
               == StockOf(p, entries) + Imported(entries, p.id) - Exported(entries, p.id)
                  + 2.0 * (entries[k].quantity - newQuantity)
  {
    SkipIsRemoval(entries, k, p.id, ExportType);
    var e := entries[k].(quantity := newQuantity);
    TotalReplaceAt(entries, k, e, p.id, ImportType, None);
    TotalReplaceAt(entries, k, e, p.id, ExportType, None);
  }

  // ---------------------------------------------------------------------
  // Editing an import slip

  /** Changes an import slip's quantity, price, notes and supplier without
      any stock check; the base quantity moves by the change of quantity. */
  method ImportEdit(db: DataContext, form: LedgerEntry, now: DateTime) returns (outcome: Outcome)
    requires db.Valid()
    modifies db
    ensures db.Valid()
    ensures FindEntry(old(db.entries), form.id, Some(ImportType)).None? ==>
              outcome == NotFound && db.State() == old(db.State())
    ensures FindEntry(old(db.entries), form.id, Some(ImportType)).Some? ==>
              var k := FindEntry(old(db.entries), form.id, Some(ImportType)).value;
              var existing := old(db.entries)[k];
              match FindProduct(old(db.products), existing.productId)
              case None => outcome == NotFound && db.State() == old(db.State())
              case Some(pk) =>
                var p := old(db.products)[pk];
                outcome == Saved
                && db.State() == old(db.State()).(
                     products := old(db.products)[pk := p.(quantity := p.quantity - existing.quantity + form.quantity)],
                     entries := old(db.entries)[k := existing.(quantity := form.quantity, unitPrice := form.unitPrice,
                                                               notes := form.notes, supplierId := form.supplierId,
                                                               date := now)])
  {
    var found := FindEntry(db.entries, form.id, Some(ImportType));
    if found.None? {
      return NotFound;
    }
    var k := found.value;
    var existing := db.entries[k];
    var productAt := FindProduct(db.products, existing.productId);
    if productAt.None? {
      return NotFound;
    }
    var pk := productAt.value;
    var p := db.products[pk];
    db.products := db.products[pk := p.(quantity := p.quantity - existing.quantity + form.quantity)];
    db.entries := db.entries[k := existing.(quantity := form.quantity, unitPrice := form.unitPrice,
                                            notes := form.notes, supplierId := form.supplierId, date := now)];
    outcome := Saved;
  }

  /** An import edit moves the stock by twice the change of quantity. */
  lemma ImportEditEffect(p: Product, entries: seq<LedgerEntry>, k: nat, e: LedgerEntry)
    requires k < |entries|
    requires entries[k].productId == p.id && entries[k].transactionType == ImportType
    requires e.productId == p.id && e.transactionType == ImportType
    ensures StockOf(p.(quantity := p.quantity - entries[k].quantity + e.quantity), entries[k := e])
         == StockOf(p, entries) + 2.0 * (e.quantity - entries[k].quantity)
  {
    TotalReplaceAt(entries, k, e, p.id, ImportType, None);
    TotalReplaceAt(entries, k, e, p.id, ExportType, None);
  }

  // ---------------------------------------------------------------------
  // Deleting a slip

  /** The base quantity that Delete writes back: base + imports - exports
      of the product over every OTHER entry. */
  function BaseAfterDelete(p: Product, entries: seq<LedgerEntry>, id: int): real {
    p.quantity + Total(entries, p.id, ImportType, Some(id)) - Total(entries, p.id, ExportType, Some(id))
  }

  /** Removes a slip of any type. For an "Import" or "Export" slip the
      product's base quantity is first reset to base + imports - exports over
      the other entries; a slip of any other type leaves it alone. */
  method Delete(db: DataContext, id: int) returns (outcome: Outcome)
    requires db.Valid()
    modifies db
    ensures db.Valid()
    ensures FindEntry(old(db.entries), id, None).None? ==> outcome == NotFound && db.State() == old(db.State())
    ensures FindEntry(old(db.entries), id, None).Some? ==>
              var k := FindEntry(old(db.entries), id, None).value;
              var existing := old(db.entries)[k];
              match FindProduct(old(db.products), existing.productId)
              case None => outcome == NotFound && db.State() == old(db.State())
              case Some(pk) =>
                var p := old(db.products)[pk];
                outcome == Saved
                && db.State() == old(db.State()).(
                     products := if existing.transactionType == ExportType || existing.transactionType == ImportType
                                 then old(db.products)[pk := p.(quantity := BaseAfterDelete(p, old(db.entries), id))]
                                 else old(db.products),
                     entries := RemoveAt(old(db.entries), k))
  {
    var found := FindEntry(db.entries, id, None);
    if found.None? {
      return NotFound;
    }
    var k := found.value;
    var existing := db.entries[k];
    var productAt := FindProduct(db.products, existing.productId);
    if productAt.None? {
      return NotFound;
    }
    var pk := productAt.value;
    var p := db.products[pk];
    var theoreticalStock := BaseAfterDelete(p, db.entries, existing.id);
    if existing.transactionType == ExportType {
      db.products := db.products[pk := p.(quantity := theoreticalStock)];
    } else if existing.transactionType == ImportType {
      db.products := db.products[pk := p.(quantity := theoreticalStock)];
    }
    db.entries := RemoveAt(db.entries, k);
    outcome := Saved;
    assert UniqueIds(db.entries) by {
      forall i, j | 0 <= i < j < |db.entries| ensures db.entries[i].id != db.entries[j].id {
        var i' := if i < k then i else i + 1;
        var j' := if j < k then j else j + 1;
        assert db.entries[i] == old(db.entries)[i'] && db.entries[j] == old(db.entries)[j'];
      }
    }
  }

  /** With unique ids, the base Delete writes back is the stock of the
      remaining ledger computed from the old base; the stock formula then
      counts the remaining entries a second time. */
  lemma {:induction false} DeleteEffect(p: Product, entries: seq<LedgerEntry>, k: nat)
    requires k < |entries| && UniqueIds(entries)
    ensures BaseAfterDelete(p, entries, entries[k].id) == StockOf(p, RemoveAt(entries, k))
    ensures StockOf(p.(quantity := BaseAfterDelete(p, entries, entries[k].id)), RemoveAt(entries, k))
         == StockOf(p, RemoveAt(entries, k)) + Imported(RemoveAt(entries, k), p.id) - Exported(RemoveAt(entries, k), p.id)
  {
    SkipIsRemoval(entries, k, p.id, ImportType);
    SkipIsRemoval(entries, k, p.id, ExportType);
  }

  /** Importing a quantity and then deleting that import slip does not
      restore the stock: the ledger returns to what it was, but the base
      quantity keeps the imported quantity plus the product's net movement. */
  lemma {:induction false} ImportThenDeleteKeepsSurplus(p: Product, entries: seq<LedgerEntry>, e: LedgerEntry)
    requires UniqueIds(entries + [e])
    requires e.productId == p.id && e.transactionType == ImportType
    ensures var afterImport := p.(quantity := p.quantity + e.quantity);
            var ledger := entries + [e];
            var afterDelete := afterImport.(quantity := BaseAfterDelete(afterImport, ledger, e.id));
            RemoveAt(ledger, |entries|) == entries
            && afterDelete.quantity == StockOf(p, entries) + e.quantity
            && StockOf(afterDelete, entries)
               == StockOf(p, entries) + e.quantity + Imported(entries, p.id) - Exported(entries, p.id)
  {
    var ledger := entries + [e];
    var afterImport := p.(quantity := p.quantity + e.quantity);
    assert RemoveAt(ledger, |entries|) == entries;
    DeleteEffect(afterImport, ledger, |entries|);
  }
}

=== FILE: warehouse_orders.dfy ===
/** The warehouse's view of sales orders: the warehouse status edit, which
    stamps the delivery date but never books stock, the deletion, and the
    list filter. */
module WarehouseOrders {
  import opened Wrappers
  import opened Text
  import opened Calendar
  import opened Models
  import opened Stock
  import opened Repository
  import Orders

  // ---------------------------------------------------------------------
  // Edit

  /** The new warehouse status; the delivery date is stamped with `now`
      when the status becomes Delivered or Completed and no date was set. */
  function WithWarehouseStatus(o: Order, status: WarehouseOrderStatus, now: DateTime): (r: Order)
    ensures r.warehouseStatus == status
    ensures o.deliveryDate.Some? ==> r.deliveryDate == o.deliveryDate
    ensures r.deliveryDate == Some(now) && o.deliveryDate.None? <==> (status == Delivered || status == Completed) && o.deliveryDate.None?
    ensures o.deliveryDate.None? && status != Delivered && status != Completed ==> r.deliveryDate.None?
    ensures r.(warehouseStatus := o.warehouseStatus, deliveryDate := o.deliveryDate) == o
  {
    o.(warehouseStatus := status,
       deliveryDate := if (status == Delivered || status == Completed) && o.deliveryDate.None? then Some(now)
                       else o.deliveryDate)
  }

  /** Saving the same status again, at any later instant, changes nothing. */
  lemma WarehouseStatusIdempotent(o: Order, status: WarehouseOrderStatus, now: DateTime, later: DateTime)
    ensures WithWarehouseStatus(WithWarehouseStatus(o, status, now), status, later) == WithWarehouseStatus(o, status, now)
  {
  }

  /** Sets the order's warehouse status. No ledger entry, product, customer
      or other order changes. */
  method Edit(db: DataContext, id: int, status: WarehouseOrderStatus, now: DateTime) returns (outcome: Outcome)
    requires db.Valid()
    modifies db
    ensures db.Valid()
    ensures FindOrder(old(db.orders), id).None? ==> outcome == NotFound && db.State() == old(db.State())
    ensures FindOrder(old(db.orders), id).Some? ==>
              var k := FindOrder(old(db.orders), id).value;
              outcome == Saved
              && db.State() == old(db.State()).(orders := old(db.orders)[k := WithWarehouseStatus(old(db.orders)[k], status, now)])
  {
    var found := FindOrder(db.orders, id);
    if found.None? {
      return NotFound;
    }
    var k := found.value;
    db.orders := db.orders[k := WithWarehouseStatus(db.orders[k], status, now)];
    outcome := Saved;
  }

  /** Once the warehouse has set an order to Delivered, the sales-order
      edit that marks it as delivered books no export: the warehouse status
      switches the stock movement off. */
  lemma WarehouseDeliveredSuppressesExport(o: Order, now: DateTime, form: Order)
    ensures !Orders.ExportDue(WithWarehouseStatus(o, Delivered, now), form)
  {
  }

  /** The converse: any other warehouse status leaves the export due when
      the order is just being marked as delivered. */
  lemma OtherStatusKeepsExport(o: Order, status: WarehouseOrderStatus, now: DateTime, form: Order)
    requires status != Delivered && Orders.JustDelivered(o, form)
    ensures Orders.ExportDue(WithWarehouseStatus(o, status, now), form)
  {
  }

  // ---------------------------------------------------------------------
  // Delete

  /** Removes the order, as the sales-order deletion does, and nothing
      else. */
  method Delete(db: DataContext, id: int) returns (outcome: Outcome)
    requires db.Valid()
    modifies db
    ensures db.Valid()
    ensures FindOrder(old(db.orders), id).None? ==> outcome == NotFound && db.State() == old(db.State())
    ensures FindOrder(old(db.orders), id).Some? ==>
              outcome == Saved
              && db.State() == old(db.State()).(orders := RemoveAt(old(db.orders), FindOrder(old(db.orders), id).value))
  {
    outcome := Orders.Delete(db, id);
  }

  // ---------------------------------------------------------------------
  // The list filter

  /** The list's search form; absent fields do not filter. */
  datatype Filter = Filter(
    keyword: Option<string>,
    fromDate: Option<DateTime>,
    toDate: Option<DateTime>,
    status: Option<WarehouseOrderStatus>)

  /** `column.Contains(keyword)` on a nullable column: a missing value never
      matches. */
  predicate ColumnContains(column: Option<string>, keyword: string) {
    column.Some? && Contains(column.value, keyword)
  }

  /** The product's and customer's names as joined into the list. */
  function ProductNameOf(products: seq<Product>, o: Order): Option<string> {
    match FindProduct(products, o.productId)
    case None => None
    case Some(k) => Some(products[k].name)
  }

  function CustomerNameOf(customers: seq<Customer>, o: Order): Option<string> {
    match FindCustomer(customers, o.customerId)
    case None => None
    case Some(j) => customers[j].name
  }

  /** Whether an order is listed: the keyword (when not empty) in the order
      number, product name or customer name; the order date at or after
      `fromDate`; before the day after `toDate`; the exact warehouse
      status. */
  predicate Listed(f: Filter, products: seq<Product>, customers: seq<Customer>, o: Order) {
    && (IsNullOrEmpty(f.keyword)
        || ColumnContains(o.orderNumber, f.keyword.value)
        || ColumnContains(ProductNameOf(products, o), f.keyword.value)
        || ColumnContains(CustomerNameOf(customers, o), f.keyword.value))
    && (f.fromDate.None? || NotLater(f.fromDate.value, o.orderDate))
    && (f.toDate.None? || BeforeDayAfter(o.orderDate, f.toDate.value))
    && (f.status.None? || o.warehouseStatus == f.status.value)
  }

  /** A date picked as `toDate` (midnight) keeps every order of that day:
      the upper bound is inclusive of the date. */
  lemma ToDateInclusive(products: seq<Product>, customers: seq<Customer>, o: Order, to: Date)
    ensures Listed(Filter(None, None, Some(Midnight(to)), None), products, customers, o)
            <==> DateAtMost(o.orderDate.date, to)
  {
    InclusiveUpperBound(o.orderDate, to);
  }

  /** The status filter alone keeps exactly the orders in that status. */
  lemma StatusFilterExact(products: seq<Product>, customers: seq<Customer>, o: Order, s: WarehouseOrderStatus)
    ensures Listed(Filter(None, None, None, Some(s)), products, customers, o) <==> o.warehouseStatus == s
  {
  }

  /** A keyword occurring in the order number lists the order whatever the
      joined names are. */
  lemma KeywordInNumber(f: Filter, products: seq<Product>, customers: seq<Customer>, o: Order)
    requires f.fromDate.None? && f.toDate.None? && f.status.None?
    requires f.keyword.Some? && o.orderNumber.Some?
    requires exists i :: OccursAt(o.orderNumber.value, f.keyword.value, i)
    ensures Listed(f, products, customers, o)
  {
    ContainsIffOccurs(o.orderNumber.value, f.keyword.value);
  }
}

=== FILE: wrappers.dfy ===
/** Nullable values of the C# model (`string?`, `int?`, `DateTime?`) and the
    sequence helpers the controllers' LINQ queries use: first match and
    removal at an index. */
module Wrappers {

  datatype Option<+T> = None | Some(value: T) {
    /** The `??` operator. */
    function OrElse(fallback: T): T {
      match this
      case Some(v) => v
      case None => fallback
    }
  }

  /** `FirstOrDefault(pred)` as an index: the first position whose element
      satisfies `P`, or None when none does. */
  function FirstIndex<T>(s: seq<T>, P: T -> bool): (r: Option<nat>)
    ensures r.Some? ==> r.value < |s| && P(s[r.value])
    ensures r.Some? ==> forall j :: 0 <= j < r.value ==> !P(s[j])
    ensures r.None? <==> forall j :: 0 <= j < |s| ==> !P(s[j])
  {
    if s == [] then None
    else if P(s[0]) then Some(0)
    else
      match FirstIndex(s[1..], P)
      case None => None
      case Some(k) => Some(k + 1)
  }

  /** `Remove(x)` on a table: the sequence without position `k`. */
  function RemoveAt<T>(s: seq<T>, k: nat): (r: seq<T>)
    requires k < |s|
    ensures |r| == |s| - 1
    ensures forall i :: 0 <= i < k ==> r[i] == s[i]
    ensures forall i :: k <= i < |r| ==> r[i] == s[i + 1]
    ensures multiset(r) + multiset{s[k]} == multiset(s)
  {
    assert s == s[..k] + [s[k]] + s[k + 1..];
    s[..k] + s[k + 1..]
  }
}
